=== FILE: README.md ===
# GoBus booking backend — a Dafny model

This project models the server side of the GoBus bus-booking service: the
Express/Mongoose backend whose handlers register and log in passengers,
keep the bus and route catalogue, and sell seats on a bus for a travel day.

Every HTTP handler is a pure function from a request and an abstract store
(`Records.Store`: one sequence per collection, in natural order) to an
`Outcome`: the reply (status, message, payload) and the new store. The
unique indexes of the Mongoose schemas (user email, bus number, route name,
booking reference) are enforced by `Keyed.SaveUnique`. A write they refuse
is the duplicate-key error, which every handler's `catch` turns into 500.

What is modelled:

- **Booking engine** (`bookings.dfy`, `seats.dfy`):
  - seat cleaning;
  - the bus/route link and capacity checks;
  - the taken-seat set and clash detection;
  - the flat price and the record written;
  - the one-shot fallback from the transactional attempt to a plain one, decided on an injected storage error;
  - cancellation and payment marking.

  The sequential no-double-booking invariant is proved for every handler that writes bookings.
- **Catalogue** (`routes.dfy`, `buses.dfy`, `slugs.dfy`, `listing.dfy`):
  - `slugify` and the least-free-suffix slug search;
  - route and bus creation, partial update and deletion;
  - list paging and the `sort` query.
- **Accounts and sessions** (`accounts.dfy`, `tokens.dfy`, `admin.dfy`):
  - registration, email verification and the login gate;
  - the refresh-token set;
  - single-use, expiring password-reset tokens;
  - profile updates;
  - the `authenticated`/`authorization` middleware pair;
  - the start-up administrator bootstrap.
- **Helpers** (`mail.dfy`, `upload.dfy`, `reconnect.dfy`):
  - recipient validation and the two calling forms of `sendMail`;
  - the confirmation template's form dispatch;
  - the upload MIME filter and size limit;
  - the database reconnect backoff.

Abstractions:

- Password hashing (`Bcrypt`) and token digests (`Sha256`) are injective constructors.
- JWTs are idealised: a token is what `Sign` produced with some secret, or garbage.
- The clock, the random booking reference, the random reset token and the mail transport's success are parameters.
- Fresh document identifiers come from `Keyed.FreshId`.

## Model

| member | source | states |
|---|---|---|
| Seats.CleanSeats | backend/src/controller/booking.controller.js:31-37 | The cleaned seats have no duplicates and are all positive. They are exactly the positive integers of the input, with a single non-array value read as a one-element list. They keep first-occurrence order and are not sorted. |
| Seats.CleanSeatsOfClean | backend/src/controller/booking.controller.js:31-37 | Cleaning an already clean list (distinct, positive) gives it back unchanged. |
| Seats.TakenSeats | backend/src/controller/booking.controller.js:86-104 | A seat is taken on a bus and day iff some "booked" booking of that bus and day holds it. Cancelled bookings never contribute. |
| Seats.OverCapacity | backend/src/controller/booking.controller.js:78-83 | Exactly the requested seats above the capacity, each as often as requested. For a list without repeats, the result has no repeats and keeps the request order. The list is empty iff every seat is at most the capacity, so a seat equal to the capacity passes. |
| Seats.Clashes | backend/src/controller/booking.controller.js:106-111 | Exactly the requested seats that are taken, each as often as requested. For a list without repeats, the result has no repeats and keeps the request order. The list is empty iff no requested seat is taken. |
| Seqs.Filter | backend/src/controller/booking.controller.js:78 | `Array.prototype.filter`: an element is kept iff it is in the list and satisfies the predicate, each as often as it occurs. |
| Seqs.FilterKeepsOrder | backend/src/controller/booking.controller.js:78 | On a list without repeats, the kept elements have no repeats and appear in the order of the list. |
| Bookings.CalcPrice | backend/src/controller/booking.controller.js:20-24 | The price is ten per seat: a multiple of ten whose quotient is the seat count. |
| Bookings.NewBooking | backend/src/controller/booking.controller.js:113-132 | The written booking is "booked" and "pending" and priced at ten per seat. It carries the request's seats, bus, route, day, user and reference. Notes are trimmed when they are a string and absent otherwise. Its identifier is new. |
| Bookings.Run | backend/src/controller/booking.controller.js:61-156 | One check-then-write run answers 201 iff the bus, route and user exist, the route belongs to the bus, every seat is within capacity, no seat is taken and the reference is free. It throws the duplicate-key error iff all checks pass but the reference is taken. It answers 404 iff the bus, the route or the user is unknown. It answers 400 "Route does not belong to bus" iff all three exist and the route is on another bus, and 400 at all iff that holds or, the route being on the bus, a seat exceeds the capacity. It answers 409 iff only the seat check fails, with exactly the clashing seats. Any reply other than 201 writes nothing. |
| Bookings.CreateBooking | backend/src/controller/booking.controller.js:40-188 | The statuses are 201, 400, 401, 404, 409 and 500. Only a 201 writes, and it appends exactly the booking it replies with. The transaction is committed before the reply, so a fault at the commit falls back like any other fault. |
| Bookings.ValidationReplies | backend/src/controller/booking.controller.js:44-59 | The checks before any storage access come in order, each with its own 400 message: a missing field, no valid seat, an unparseable date. Then 401 iff those pass and there is no authenticated user. |
| Bookings.ValidationIs400 | backend/src/controller/booking.controller.js:44-59 | One of the three validation 400s is sent iff the request fails a validation check other than the user check; no later reply reuses their messages. |
| Bookings.CreateBookingAsWritten | backend/src/controller/booking.controller.js:153-168 | The handler as written, where the reply goes out before `commitTransaction`. It sends the same reply as `CreateBooking`. Without a commit fault it is `CreateBooking`. A commit fault that is not a transaction error leaves the store unchanged. |
| Bookings.ReplyBeforeCommitLosesBooking | backend/src/controller/booking.controller.js:153-168 | When a 201 is sent and the commit then fails with an error that is not a transaction error, the reply names a booking that the store does not hold. |
| Bookings.CommitRetryStoresOtherBooking | backend/src/controller/booking.controller.js:153-188 | When a 201 is sent and the commit then fails with a transaction error, the fallback writes a second booking with the fallback reference, not the one the client was sent. |
| Bookings.RunAppends | backend/src/controller/booking.controller.js:113-155 | A successful run appends the `NewBooking` of the request and replies with that booking. |
| Bookings.AppendKeepsNoDoubleBooking | backend/src/controller/booking.controller.js:86-132 | Appending a booking whose seats no "booked" booking of the same bus and day holds keeps the store free of double bookings. |
| Bookings.RunKeepsValid | backend/src/controller/booking.controller.js:61-156 | A run over a valid bookings collection keeps it valid: unique identifiers and references, schema-valid documents, no seat held twice on a bus and day. Other collections are untouched. |
| Bookings.CreateKeepsValid | backend/src/controller/booking.controller.js:40-188 | On every path, including the fallback and every fault, `createBooking` keeps the bookings collection valid. No double booking is ever introduced. |
| Bookings.CreatedByRun | backend/src/controller/booking.controller.js:158-187 | A 201 comes from a request that passed validation, and is the reply of the transactional or the plain run. |
| Bookings.RunCreatesFreeBooking | backend/src/controller/booking.controller.js:86-132 | A run that creates a booking replies with the request's `NewBooking`, none of whose seats was taken on that bus and day. |
| Bookings.CreatedBooking | backend/src/controller/booking.controller.js:40-187 | A created booking is "booked" and "pending", with the cleaned seats at ten per seat and notes trimmed or absent. It has the requested bus, route, day and user, passes the schema's validators, and holds no seat that was already taken. |
| Bookings.FallbackMatchesTransaction | backend/src/controller/booking.controller.js:169-184 | After a transaction error, the plain retry gives the same reply and store as a transactional run with the retry's reference would have. |
| Bookings.UnfaultedIsRun | backend/src/controller/booking.controller.js:158-168 | Without a storage fault, a valid request whose transactional run replies ends with exactly that reply. |
| Bookings.ErrorsEndIn500 | backend/src/controller/booking.controller.js:169-184 | An error that is not a transaction error, or any error in the single retry, ends in 500 with nothing written. |
| Bookings.DuplicateReferenceIs500 | backend/src/controller/booking.controller.js:26-29 | A taken booking reference is not a transaction error. The unique-index failure is never retried and ends in 500. |
| Bookings.ConflictIs409 | backend/src/controller/booking.controller.js:106-111 | A request meeting a taken seat gets 409 with exactly the clashing seats, without repeats and in the order of the cleaned request, and nothing is written. |
| Bookings.OverCapacityIs400 | backend/src/controller/booking.controller.js:78-83 | A request with a seat above the capacity gets 400 and nothing is written. The reply carries no payload; its message lists exactly the seats above the capacity, comma-separated, in request order. |
| Bookings.CancelBooking | backend/src/controller/booking.controller.js:272-297 | 404 iff the booking is unknown. 403 iff the booking is known and the requester neither owns it nor is an admin by stored role. A 200 leaves the booking with status "cancelled" and nothing else changed, and replies with that booking. Other collections are untouched. |
| Bookings.CancelIdempotent | backend/src/controller/booking.controller.js:283-286 | Cancelling twice equals cancelling once. The second call answers 200 "Already cancelled" without a write. |
| Bookings.CancelKeepsValid | backend/src/controller/booking.controller.js:272-297 | Cancelling keeps the bookings collection valid. |
| Bookings.CancelReleasesSeats | backend/src/controller/booking.controller.js:86-104 | Once a "booked" booking is cancelled, none of its seats is taken any more on that bus and day. |
| Bookings.MarkBookingPaid | backend/src/controller/booking.controller.js:300-312 | 404 iff the booking is unknown. Otherwise the payment status becomes "paid" whatever the booking status, and nothing else changes. |
| Bookings.MarkPaidKeepsValid | backend/src/controller/booking.controller.js:303-306 | Marking paid keeps the collection valid and its length. Only the payment status of the one booking changes, so a cancelled booking can be paid. |
| Keyed.SaveUnique | backend/src/model/booking.model.js:51 | A save through a unique index is refused iff another document holds the key. Otherwise the document is stored, and unique identifiers and keys stay unique. |
| Keyed.SavedNewIsAppended | backend/src/model/user.model.js:6 | An admitted save of a document with a new identifier appends it, and no stored document held its key. |
| Slugs.Slugify | backend/src/controller/route.controller.js:6-13 | A slug has at most 80 characters, only `[a-z0-9-]`, never starts with a hyphen and never has two in a row. It ends with a hyphen only when the 80-character cut was made. |
| Slugs.SlugifyIdempotent | backend/src/controller/route.controller.js:6-13 | A slug not ending in a hyphen is its own slug. |
| Slugs.SlugFixedPoint | backend/src/controller/route.controller.js:6-13 | A string of at most 80 slug characters and hyphens, with no double hyphen and no hyphen at either end, is its own slug. |
| Slugs.TruncatedSlugEndsWithDash | backend/src/controller/route.controller.js:11-13 | 79 slug characters, a space and one more character slugify to a slug ending in a hyphen, which is not its own slug. The cut comes after the stripping. |
| Slugs.BuildUniqueSlug | backend/src/controller/route.controller.js:15-20 | The slug is not among the existing ones. It is `base` when that is free, otherwise `base-i` for the least free `i >= 1`. It agrees with the function `UniqueSlug`. |
| Slugs.UniqueSlug | backend/src/controller/route.controller.js:15-20 | The least free candidate, as a function: free, and every earlier candidate is taken. |
| Slugs.LeastFreeUnique | backend/src/controller/route.controller.js:15-20 | The least free candidate is unique, so the loop and the function agree. |
| Slugs.CandidateInjective | backend/src/controller/route.controller.js:17-18 | Different attempt numbers give different candidate slugs, so the search terminates. |
| Slugs.SlugSearchAsWritten | backend/src/controller/route.controller.js:15-20 | The loop as written, where the `routeURL` condition is stripped from the query: when it returns, it returns the candidate it stopped at, and only when no route is stored. |
| Slugs.SlugSearchAsWrittenNeverEnds | backend/src/controller/route.controller.js:15-20 | The loop as written fails to return iff a route is stored (or no iterations are allowed). With a route stored, no number of iterations returns. |
| Slugs.SecondRouteNeverGetsSlug | backend/src/controller/route.controller.js:15-20 | With one route `a` stored, the search over stored slugs gives the free slug `b`, while the loop as written never returns. |
| Routes.ParsePositiveNumber | backend/src/controller/route.controller.js:22-25 | The number is returned iff it is finite and positive, otherwise null. |
| Routes.NewRoute | backend/src/controller/route.controller.js:81-95 | The written route has the trimmed name and endpoints, the positive distance, the bus, the map image, a slug no stored route has, and a new identifier. |
| Routes.CreateRoute | backend/src/controller/route.controller.js:41-100 | 400 iff a field, the map image or a positive distance is missing. 404 iff the bus is unknown. 409 iff a route with the same trimmed name and endpoints exists. A 201 appends the new route, whose name no stored route had. 201 iff the request is acceptable, the bus is known, no route has the same name and endpoints, and no route has the same name at all. Nothing else writes. |
| Routes.NameTakenIs500 | backend/src/model/route.model.js:5-9 | A name taken by a route with other endpoints passes the controller's triple check but is refused by the unique index: 500, nothing written. |
| Routes.CreateRouteKeepsUnique | backend/src/controller/route.controller.js:81-95 | Creation keeps route identifiers, names and slugs unique. |
| Routes.FindRoute | backend/src/controller/route.controller.js:27-38 | 400 without an identifier, 404 when no route has it, otherwise the route's position. |
| Routes.Patched | backend/src/controller/route.controller.js:210-243 | A supplied, non-blank name replaces the name (trimmed) and gets a new slug, but only when it differs from the stored one. Supplied endpoints, distance, bus and map replace theirs. Every field not supplied keeps its value. |
| Routes.UpdateRoute | backend/src/controller/route.controller.js:202-263 | 400 iff there is no identifier or the given distance is not positive; this is checked before any save. 404 iff the route or the given bus is unknown. 409 iff another route, not the route itself, has the resulting name and endpoints. A 200 replaces the route in place by the patched one. |
| Routes.EmptyUpdateIsNoop | backend/src/controller/route.controller.js:246-257 | An update supplying nothing answers 200 and leaves the store as it was. The route is not its own duplicate. |
| Routes.SameNameKeepsSlug | backend/src/controller/route.controller.js:210-214 | Re-submitting the stored name exactly keeps the slug. |
| Routes.PaddedNameMovesSlug | backend/src/controller/route.controller.js:210-214 | A name that differs from the stored one only in surrounding blanks keeps the name but moves the route to another slug. |
| Routes.UpdateRouteKeepsUnique | backend/src/controller/route.controller.js:246-257 | Updating keeps route identifiers and names unique, and keeps slugs unique when they were: a rename takes a slug no stored route has. |
| Routes.DeleteRoute | backend/src/controller/route.controller.js:266-285 | 200 iff the route exists, and then it is removed. Otherwise nothing changes. |
| Routes.DeletedRouteIsGone | backend/src/controller/route.controller.js:266-280 | With unique identifiers, after a deletion no route has the identifier, and every other route is still stored. |
| Buses.NormaliseNumber | backend/src/controller/bus.controller.js:27 | A stored bus number has no surrounding blanks and no lower-case letter. |
| Buses.NormaliseIdempotent | backend/src/controller/bus.controller.js:27 | Normalising a stored number changes nothing. |
| Buses.NewBus | backend/src/controller/bus.controller.js:34-42 | The written bus has the normalised number, the route, the positive capacity and the image, with an empty name and description and a new identifier. |
| Buses.CreateBus | backend/src/controller/bus.controller.js:5-47 | 400 iff the number, route or capacity is missing, the capacity is not positive, or the image is missing. 409 iff a bus has the normalised number. A 201 appends the new bus. Nothing else writes. |
| Buses.CreateBusNever500 | backend/src/controller/bus.controller.js:29-42 | The normalised-number check comes first, so the unique index never refuses the write. |
| Buses.CreateBusKeepsUnique | backend/src/controller/bus.controller.js:34-42 | Creation keeps bus identifiers and numbers unique. |
| Buses.PatchedBus | backend/src/controller/bus.controller.js:96-129 | Supplied fields replace theirs. The number changes only when it differs after normalising. Every other field keeps its value. |
| Buses.UpdateBus | backend/src/controller/bus.controller.js:88-137 | 404 iff the bus is unknown. 409 iff the number changes to one another bus has. 400 only for a capacity that is not positive. A 200 replaces the bus in place by the patched one. Nothing else writes. |
| Buses.SameNumberSucceeds | backend/src/controller/bus.controller.js:96-105 | Re-submitting the bus's own number, in any case and with any surrounding blanks, is not a conflict and succeeds. |
| Buses.BadCapacityIs400 | backend/src/controller/bus.controller.js:107-113 | An invalid capacity answers 400 and saves nothing. |
| Buses.UpdateBusKeepsUnique | backend/src/controller/bus.controller.js:131-132 | Updating keeps bus identifiers and numbers unique. |
| Buses.DeleteBus | backend/src/controller/bus.controller.js:140-160 | 404 iff the bus is unknown. Otherwise it is removed, and with unique identifiers no bus with that identifier remains. |
| Listing.ClampedPaging | backend/src/controller/route.controller.js:105-107 | The page is at least 1 (default 1). The limit is clamped into 1..100: a missing or zero limit is 20, a negative one becomes 1. The skip is `(page - 1) * limit`, never negative. |
| Listing.PagesTile | backend/src/controller/route.controller.js:105-107 | Each page starts where the previous one ended. |
| Listing.BusPaging | backend/src/controller/bus.controller.js:52-54 | The page is at least 1. The limit is capped at 100 with default 10 but never raised, so a given negative limit passes through. |
| Listing.BusNegativeLimit | backend/src/controller/bus.controller.js:52-54 | With a negative limit, every page after the first has a negative skip. |
| Listing.TotalPages | backend/src/controller/bus.controller.js:65 | `ceil(total / limit)`: for a positive limit, the least page count whose pages hold `total` documents. |
| Listing.PageOf | backend/src/controller/route.controller.js:164 | Every document lies in the window of a page numbered at most the page count. |
| Listing.Assign | backend/src/controller/route.controller.js:146-147 | Assigning a sort key sets that field's direction, keeps every other field's direction, and keeps keys unique. The key order is kept, and a new key goes last. |
| Listing.Directive | backend/src/controller/route.controller.js:146-147 | A token with a leading "-" is the rest of the token, descending; any other token is ascending. |
| Listing.SortLastWins | backend/src/controller/route.controller.js:140-148 | A field named by several tokens takes the direction of the last one. |
| Listing.SortAbsent | backend/src/controller/route.controller.js:140-148 | A field named by no token is not a sort key. |
| Listing.SortObject | backend/src/controller/route.controller.js:140-148 | The `forEach` over the tokens builds an object whose keys are unique. |
| Listing.SortKeyOrder | backend/src/controller/route.controller.js:140-148 | The keys of the sort object, which set MongoDB's sort precedence, are the fields the tokens name, each once, in the order of its first token. A later token for the same field changes only the direction. |
| Listing.ParseSort | backend/src/controller/route.controller.js:114-148 | The parsed sort has unique keys in first-token order over the tokens of the spec, or of "-createdAt" when `sort` is absent. A present but empty `sort` gives no key, since the default applies only to a missing parameter. |
| Listing.SortTokens | backend/src/controller/route.controller.js:141-145 | Every token is non-empty and has no surrounding white space. |
| Listing.DefaultSortNewestFirst | backend/src/controller/route.controller.js:114 | Without a `sort` parameter the order is `{ createdAt: -1 }`. |
| Listing.DescendingField | backend/src/controller/route.controller.js:140-148 | A spec naming one field with "-" sorts on that field alone, descending. |
| Guard.Roles | backend/src/middleware/authorize.js:4-6 | A single role string is a one-element list. |
| Guard.Authorize | backend/src/middleware/authorize.js:8-16 | 401 iff the request has no role. 403 iff the role is not listed. The request proceeds iff the role is listed. |
| Guard.SingleRoleIsList | backend/src/middleware/authorize.js:4-6 | `authorization("r")` and `authorization(["r"])` decide alike. |
| Guard.DefaultForbidsAll | backend/src/middleware/authorize.js:1 | With the default empty list every request is refused, and every request with a role is forbidden. |
| Guard.Authenticate | backend/src/middleware/authinticate.js:3-12 | A request is known iff its access cookie verifies. The user it carries has the token's id and no role. Otherwise 401. |
| Guard.GuardedRoutesRefuseEveryone | backend/src/middleware/authorize.js:9-10 | As the routers chain the two middlewares, every role-guarded route answers 401 to every request. |
| Guard.AdminIsRefused | backend/src/route/user.route.js:37-39 | An administrator with a valid access token is authenticated, yet turned away from `authorization("admin")` with 401. |
| Guard.StoredRoleGuardAdmitsListed | backend/src/middleware/authorize.js:9-15 | With the role read from the stored user, a valid token passes iff that role is listed, and is otherwise refused with 403. |
| Guard.StoredAdminIsAdmitted | backend/src/middleware/authorize.js:12-15 | With the stored role, an administrator reaches `authorization("admin")` and a plain user gets 403. |
| Tokens.VerifyToken | backend/src/utils/jsonweb.token.js:7-13 | Verification never throws. It gives the claims iff the token was signed with this secret and has not expired, and null on any failure. |
| Tokens.SignVerifies | backend/src/utils/jsonweb.token.js:3-5 | A signed token verifies, with its id, exactly with its own secret and before its expiry. |
| Tokens.GenerateRefreshToken | backend/src/utils/jsonweb.token.js:17-23 | The returned token is added to the set and nothing else is. It verifies for seven days for its id. |
| Tokens.VerifyRefreshToken | backend/src/utils/jsonweb.token.js:25-32 | A token not in the set gives null. One in the set gives what `verifyToken` gives. |
| Tokens.RevokeRefreshToken | backend/src/utils/jsonweb.token.js:34-36 | The set loses the token and keeps every other one. |
| Tokens.RevokedIsRefused | backend/src/utils/jsonweb.token.js:34-36 | After revoking a token, verifying it as a refresh token gives null. |
| Tokens.RevokeAbsentIsNoop | backend/src/utils/jsonweb.token.js:35 | Revoking a token not in the set changes nothing. |
| Tokens.GeneratedIsHonoured | backend/src/utils/jsonweb.token.js:17-32 | A generated refresh token is honoured until it expires. |
| Tokens.SameSecondLoginsShareToken | backend/src/utils/jsonweb.token.js:17-23 | Two logins of one user in the same second share a refresh token, so logging out of one ends the other. |
| Accounts.NormaliseEmail | backend/src/controller/user.controller.js:31-39 | A stored email has no surrounding blanks and no upper-case letter. |
| Accounts.NormaliseEmailIdempotent | backend/src/controller/user.controller.js:31-39 | Normalising a stored email changes nothing. |
| Accounts.FindUser | backend/src/controller/user.controller.js:180-184 | The first user with exactly that email, or none iff no user has it. |
| Accounts.NewUser | backend/src/controller/user.controller.js:31-39 | The new user has the normalised email, the hashed password, role "user", is not verified, holds no reset token, and has a new identifier. |
| Accounts.CreateUser | backend/src/controller/user.controller.js:19-62 | 400 iff a field is missing. 409 iff a user has the raw email exactly. The user is written iff neither the raw nor the normalised email is taken. A 201 also needs the welcome mail to go out; a failed mail is 500 but the user stays. The 201 carries only the new user's id, email and username. |
| Accounts.CreateUserKeepsUnique | backend/src/controller/user.controller.js:31-48 | Registration keeps user identifiers and emails unique. |
| Accounts.NormalisedClashIs500 | backend/src/controller/user.controller.js:26-29 | An email differing from a stored one only in case or blanks is not a 409 but a refused write: 500, nothing written. |
| Accounts.UnmailableRegistrationSticks | backend/src/controller/user.controller.js:44-61 | A registration whose email cannot receive mail is stored yet answered 500. Registering again is then a 409. |
| Accounts.VerifyEmail | backend/src/controller/user.controller.js:65-88 | 400 iff the token is missing or does not verify. 404 iff the user is unknown. An already verified user gets 200 with no write. Otherwise the user becomes verified in place. |
| Accounts.VerifyEmailIdempotent | backend/src/controller/user.controller.js:78-83 | With unique emails, verification never fails on the save. A second verification with the same link is an answered no-op. |
| Accounts.LoginUser | backend/src/controller/user.controller.js:91-125 | The gates come in order: missing field 400, unknown email 404, wrong password 401, unverified 403. Each holds iff the earlier ones passed. Only a 200 sets the two cookies and adds the refresh token to the set; both tokens verify for that user. The 200 carries the user's id, email, username and role, not the password hash. |
| Accounts.RefreshSession | backend/src/controller/user.controller.js:128-147 | 200 iff a refresh cookie is present and honoured, and then a new access token for the same user. The set never changes: there is no rotation. |
| Accounts.LogoutUser | backend/src/controller/user.controller.js:150-159 | Always 200. The refresh cookie, if any, leaves the set and every other token stays. |
| Accounts.LoginRefreshLogout | backend/src/controller/user.controller.js:128-159 | A login's refresh token renews the session for seven days, and stops doing so after logout. |
| Accounts.RegisterVerifyLogin | backend/src/controller/user.controller.js:19-125 | A new account cannot log in (403) until verified. Verifying it with the mailed link within the hour lets it log in. |
| Accounts.VerifyNewUser | backend/src/controller/user.controller.js:65-88 | The link mailed at registration verifies the new user within the hour. |
| Accounts.Armed | backend/src/controller/user.controller.js:186-194 | A reset request stores the digest of the token, never the token, with an expiry fifteen minutes on. Nothing else changes. |
| Accounts.RequestPasswordReset | backend/src/controller/user.controller.js:175-211 | 400 iff no email is given. An unknown email answers 200 and changes nothing. A known one is the only case that writes, and then it arms that user. |
| Accounts.RequestArmsInPlace | backend/src/controller/user.controller.js:186-211 | With unique identifiers and emails, a reset request for a known email arms that user in place, whether or not the mail goes out. It answers 200 iff the user's email is a valid recipient and the transport delivers, and 500 otherwise. |
| Accounts.ResetTarget | backend/src/controller/user.controller.js:223-229 | The first user holding the token's digest with an expiry still in the future. None iff no user does. |
| Accounts.Reset | backend/src/controller/user.controller.js:231-234 | A reset sets the new password and clears the token and expiry. Nothing else changes. |
| Accounts.ResetPassword | backend/src/controller/user.controller.js:214-241 | 400 iff the token or new password is missing or no user holds the token's digest unexpired. A 200 resets exactly that user. Nothing else writes. |
| Accounts.ResetIsSingleUse | backend/src/controller/user.controller.js:231-234 | After a successful reset the same token is refused at any later time, provided no other user holds its digest. |
| Accounts.ResetBySoleHolder | backend/src/controller/user.controller.js:223-234 | When one user alone holds the digest, a reset succeeds iff it comes before that user's expiry. |
| Accounts.RequestThenReset | backend/src/controller/user.controller.js:175-241 | A requested reset can be completed with the mailed token exactly until fifteen minutes have passed. |
| Accounts.UserProfile | backend/src/controller/user.controller.js:162-172 | 200 iff the requesting user exists, otherwise 404. The 200 carries that user's profile, which has every stored field except the password. Nothing is written. |
| Records.ProfileOf | backend/src/controller/user.controller.js:165 | `select("-password")`: the profile has each stored field of the user except the password. |
| Records.ProfileHidesPassword | backend/src/controller/user.controller.js:165 | Two users that differ only in their password hash show the same profile. |
| Accounts.Updated | backend/src/controller/user.controller.js:252-254 | Only the username and phone number change, each only when supplied truthy. |
| Accounts.UpdateUser | backend/src/controller/user.controller.js:244-268 | 404 iff the user is unknown. A 200 applies `Updated` in place and replies with the id and the new username and phone number only. Nothing else writes. |
| Accounts.EmptyUpdateKeepsUser | backend/src/controller/user.controller.js:252-254 | An update with nothing truthy leaves the store as it was. |
| Accounts.UpdatePassword | backend/src/controller/user.controller.js:271-293 | Missing field 400, unknown user 404, wrong current password 401, in that order. Otherwise only the password changes. |
| Accounts.UpdatedPasswordLogsIn | backend/src/controller/user.controller.js:281-288 | After a change, logging in with the stored email and the new password gets past the 401 password check (200, or 403 if unverified). A different old password is then refused with 401. |
| Accounts.InternalError | backend/src/controller/user.controller.js:289-292 | Every user-controller `catch` answers 500 "Internal server error" and writes nothing. |
| Accounts.GetUserById | backend/src/controller/user.controller.js:308-325 | 404 iff the user is unknown. 403 iff the requester is neither that user nor an admin by the request's role. Otherwise the user's profile is returned, without the password. |
| Accounts.DeleteUser | backend/src/controller/user.controller.js:328-346 | 404 iff the user is unknown. 403 iff the requester is neither that user nor an admin. A 200 removes exactly that user. |
| Accounts.DeletedUserIsGone | backend/src/controller/user.controller.js:336-340 | After a deletion, reading the user back is a 404. |
| AdminBootstrap.NewAdmin | backend/admin.js:24-37 | The created administrator has the normalised email, role "admin", is verified, has phone "0000000000", and is named as configured or "Administrator". |
| AdminBootstrap.EnsureAdmin | backend/admin.js:11-58 | Nothing happens without an email and password. A new administrator is appended when no user has the email. Otherwise that user is elevated and verified. `wrote` holds iff one of the two was missing, because a save is then attempted; a refused save leaves the store unchanged. |
| AdminBootstrap.ElevatedInPlace | backend/admin.js:40-54 | An existing user with the administrator email is elevated in place. |
| AdminBootstrap.BootstrapLeavesAdmin | backend/admin.js:24-54 | After a configured bootstrap, the user found by the administrator email is an administrator and verified. |
| AdminBootstrap.EnsureAdminIdempotent | backend/admin.js:49-54 | A second bootstrap writes nothing and leaves the store as the first left it. |
| Mail.CheckRecipient | backend/src/utils/sendmail.js:13-14 | The one-pass check agrees with the recipient rule: a string with "@" and neither "<" nor ">". |
| Mail.FormsAgree | backend/src/utils/sendmail.js:28-35 | The object form and the positional form of the same mail normalise alike. |
| Mail.SendMail | backend/src/utils/sendmail.js:25-59 | An invalid recipient throws first. A missing subject or html throws next. The transport is asked iff both checks pass, and delivers the normalised fields iff it succeeds. |
| Mail.BookingConfirmation | backend/src/utils/sendmail.js:151-248 | The object form is chosen iff the first argument is an object and the second is falsy. Its subject is "Your booking " + reference, the name defaults to "Customer" and the seats are joined with ", ". The legacy form reads the seats from the second argument. |
| Mail.SeatListCommas | backend/src/utils/sendmail.js:165-166 | The seat list has one comma fewer than there are seats, and none when there are none. |
| Mail.SeatListNamesEverySeat | backend/src/utils/sendmail.js:165-166 | Split on ",", the seat list gives back every seat in decimal, in order: the first as is, each later one behind the single space of the separator. With no seats the list is empty. |
| Text.SplitJoin | backend/src/utils/sendmail.js:166 | Joining separator-free pieces with a one-character separator and splitting on it gives the pieces back. |
| Text.JoinCommaSpace | backend/src/utils/sendmail.js:166 | Joining with ", " is joining with "," the pieces after the first each prefixed by a space. |
| Upload.FilterAcceptsExactlyImages | backend/src/config/multer.js:17 | The filter accepts exactly image/png, image/jpg, image/jpeg and image/webp. |
| Upload.SuffixRefused | backend/src/config/multer.js:17 | Anything after an accepted type is refused: the pattern is anchored at the end. |
| Upload.PrefixRefused | backend/src/config/multer.js:17 | Anything before an accepted type is refused: the pattern is anchored at the start. |
| Upload.UpperCaseRefused | backend/src/config/multer.js:17 | An upper-case letter anywhere is refused: the match is case-sensitive. |
| Upload.Admit | backend/src/config/multer.js:13-19 | A file is admitted iff its type is one of the four and its size is at most 5 MiB. The type is refused iff it is not one of the four. |
| Reconnect.Delay | backend/src/utils/connectdb.js:64 | The wait is `min(30000, 1000 * 2^(attempt - 1))` ms: between one second and thirty. |
| Reconnect.DelayMonotone | backend/src/utils/connectdb.js:64 | Waits never shrink from one failure to the next. |
| Reconnect.DelaySchedule | backend/src/utils/connectdb.js:64 | Waits double up to the fifth failure, and from the sixth on they are the 30-second cap. |
| Reconnect.ConnectDB | backend/src/utils/connectdb.js:26-68 | At most `retries + 1` attempts; it connects iff the last attempt succeeds, and every earlier one failed. A failure means all `retries + 1` attempts failed. The n-th wait is `Delay(n)`. `retries` defaults to 5. |
| Text.TrimRemovesSpaceOnly | backend/src/controller/route.controller.js:81-95 | `trim` removes white space at both ends and nothing else. |
| Text.JoinSplit | backend/src/controller/route.controller.js:141-145 | Splitting on a character and joining with it gives the original string back. |

## Left out

- Dates: `normalizeDate` and local-midnight truncation are not modelled. A travel date is an abstract day (`Records.Day`) or unparseable.
- Randomness: `generateBookingRef` and the random reset token are parameters. There is no regenerate-on-collision path in the source, and none in the model.
- Floating point: `Number()` coercion, fractional page and limit values, `toFixed` and `formatDate` are not modelled. Numeric input is `Option<int>`, with `None` for NaN and the infinities.
- Concurrency: MongoDB sessions, transaction linearizability, `Promise.all` and racing requests are not modelled. The store is sequential, and the transaction is one attempt that either replies or is aborted by an injected error.
- Storage errors: apart from the duplicate-key error of a unique index and the injected errors of `createBooking`, driver errors (cast errors for malformed identifiers, network failures) are not modelled.
- Mongoose validation and strict mode: the store does not filter undeclared fields or apply `required` validators.
  - `createBus` omits the required `busName` and `image` and writes `imageUrl`, so the real schema would refuse it.
  - The route schema declares `routemapUrl`, not the `routeURL`, `routeMapUrl` and `routeMapPublicId` the controller writes.
  - With `strictQuery`, the slug filter of `buildUniqueSlug` is stripped. The handlers use the intended search over stored slugs; the stripped loop is modelled separately under "## Findings".
  - The model follows the controllers' logic.
- Non-string JSON body values are not modelled. A body field is a string or absent (`None`), so three source behaviours have no counterpart:
  - `email.trim()` throws on a number or an object, which answers 500 (backend/src/controller/user.controller.js:34, 97, 180).
  - `User.findOne({ email })` with an object value acts as a query-operator filter (backend/src/controller/user.controller.js:26).
  - `createHash(...).update(token)` throws on a non-string token (backend/src/controller/user.controller.js:223).
- Slugs.SlugSearchAsWritten: a fuel bound stands in for the loop, which has no bound in the source. Non-termination is stated as "no number of iterations returns".
- Text: `trim` recognises the ASCII white space plus no-break space and the byte-order mark, not every Unicode space. Case mapping is ASCII only.
- Hashing and tokens: bcrypt and SHA-256 are injective constructors, so the 72-byte bcrypt limit is not modelled. JWT signing and verification are idealised, and the signing secret and expiry clock are parameters.
- Plumbing: cookie options (`cookie.js`), Cloudinary upload and destroy, the HTML mail bodies and the `from` header, and Express wiring are not modelled. In particular the refresh cookie's `maxAge` is one day (backend/src/config/cookie.js:21-25) while the refresh token itself lives seven days; cookie expiry is not modelled, so the seven days are the token's. The route files are cited only for which guard precedes which handler.
- The booking confirmation mail sent after a booking is fire-and-forget in the source and is not part of `CreateBooking`.
- Read-only handlers are not modelled, apart from their paging and sort arithmetic: the `readRoute` filters and search, `listBookings` filters, `getAllUsers`, `getBooking`, `myBookings`, `readSpecificBus`, `readSpecificRoute` and `readRouteByURL`.
- `sendMail` with a non-string `to` is modelled as a missing recipient. The template's `String(seatNumbers)` for a non-array seat value is not modelled.
- `connectDB`'s signal handlers and the `wait` timing are not modelled. The waits are returned as a list.
- Guard.Guarded: carries no contract of its own. Its behaviour is stated by `Guard.GuardedRoutesRefuseEveryone` and `Guard.AdminIsRefused`.
- Guard.GuardedByStoredRole: carries no contract of its own. Its behaviour is stated by `Guard.StoredRoleGuardAdmitsListed` and `Guard.StoredAdminIsAdmitted`.
- Routes.TakenSlugs: states only that every stored slug is in the set, not the converse. The converse is not needed by the slug search.
- Listing.SortTokens: states that every token is non-empty and trimmed, not that the tokens are exactly the non-empty trimmed comma pieces. `Listing.SingleToken` and `Listing.DescendingField` cover the single-field case.
- Listing.BusPaging: does not state what MongoDB does with a negative skip or limit. Only the arithmetic is modelled.

## Findings

| source | as written | input that shows it | evidently intended | confidence | as-written member | corrected member |
|---|---|---|---|---|---|---|
| backend/src/middleware/authorize.js:9-10 | The role guard reads `req.user.role`, but `authenticated` sets `req.user` to the decoded token, whose payload holds only the id (backend/src/middleware/authinticate.js:10, backend/src/utils/jsonweb.token.js:3-5). Every route behind `authorization("admin")` answers 401 to everyone. | An administrator with a valid access token calling `GET /users` (backend/src/route/user.route.js:37) | The guard checks the role of the stored user, so administrators pass and other users get 403 | not executed | Guard.GuardedRoutesRefuseEveryone | Guard.StoredAdminIsAdmitted |
| backend/src/controller/booking.controller.js:153-168 | `run` sends the 201 reply before `commitTransaction` is awaited. If the commit fails, the catch aborts and either answers 500 or, for a transaction error, runs the plain fallback, which writes a second booking and cannot reply again. | A valid booking request whose commit fails with a non-transaction error after `run` has replied, or with a `TransientTransactionError` | Commit the transaction, then reply, so a failed commit falls back or answers 500 before anything is sent | not executed | Bookings.ReplyBeforeCommitLosesBooking | Bookings.CreateBooking |
| backend/src/controller/route.controller.js:15-20 | `Route.findOne({ routeURL: slug })` filters on a path the route schema lacks (backend/src/model/route.model.js:3-23), and `strictQuery` is on (backend/src/utils/connectdb.js:7), so the filter is stripped to `{}`. Once any route is stored, every candidate counts as taken and the loop never ends. | Creating a second route, named `b`, while a route `a` is stored | The loop stops at the first candidate no stored route has as its slug | not executed | Slugs.SecondRouteNeverGetsSlug | Slugs.BuildUniqueSlug |

=== FILE: accounts.dfy ===
/** The user controller: registration, email verification, login and the
    refresh-token session, password reset with single-use expiring
    tokens, and the profile operations. Password hashing, token signing,
    random reset tokens and the clock are parameters or idealised
    constructors; mail delivery is `Mail.SendMail` with the transport's
    success as a parameter. */
module Accounts {
  import opened Wrappers
  import opened Seqs
  import opened Keyed
  import opened Text
  import opened Records
  import opened Tokens
  import opened Mail
  import opened Guard

  /** `email.trim().toLowerCase()`: how an email is stored and looked up. */
  function NormaliseEmail(e: string): (r: string)
    ensures |r| <= |e|
    ensures r == [] || (!IsSpace(r[0]) && !IsSpace(r[|r| - 1]))
    ensures forall i :: 0 <= i < |r| ==> !IsAsciiUpper(r[i])
  {
    ToLower(Trim(e))
  }

  /** A stored email normalises to itself. */
  lemma NormaliseEmailIdempotent(e: string)
    ensures NormaliseEmail(NormaliseEmail(e)) == NormaliseEmail(e)
  {
    var n := NormaliseEmail(e);
    TrimOfUnpadded(n);
    assert ToLower(n) == n;
  }

  /** `User.findOne({ email: e })`: the first user with exactly this email. */
  function FindUser(st: Store, e: string): (r: Option<nat>)
    ensures r.Some? ==> r.value < |st.users| && st.users[r.value].email == e
    ensures r.Some? ==> forall j :: 0 <= j < r.value ==> st.users[j].email != e
    ensures r.None? <==> !EmailTaken(st, e)
  {
    FirstIndex(st.users, (u: User) => u.email == e)
  }

  /** Some user has exactly the email `e`. */
  predicate EmailTaken(st: Store, e: string) {
    exists i :: 0 <= i < |st.users| && st.users[i].email == e
  }

  /** `comparePassword(plain, hash)`. */
  predicate Matches(plain: string, hash: Secret) {
    hash == Bcrypt(plain)
  }

  /** The `catch` branch of every user-controller handler: 500 with the
      controller's own message, and nothing written. */
  function InternalError(st: Store): (o: Outcome)
    ensures o.reply == Reply(500, "Internal server error", NoPayload) && o.store == st
  {
    Outcome(Reply(500, "Internal server error", NoPayload), st)
  }

  /** Stands for a rendered mail template, which is never empty. */
  const TemplateHtml := "<div/>"

  /** `sendMail(to, subject, template)` in the positional form, as the
      controller calls it. */
  function Notify(to: string, subject: string, mailOk: bool): (r: Sent)
    requires subject != ""
    ensures r.Delivered? <==> IsValidRecipient(Some(to)) && mailOk
  {
    SendMail(Recipient(Some(to)), Some(subject), Some(TemplateHtml), None, mailOk)
  }

  const WelcomeSubject := "Welcome to Our GoBus Service"
  const ResetSubject := "Reset Your Password"

  // ---------------------------------------------------------------- register

  /** The body of `POST /register`; `None` is a missing or empty field. */
  datatype Registration = Registration(username: Option<string>, password: Option<string>,
                                       email: Option<string>, phoneNumber: Option<string>)

  predicate Complete(f: Registration) {
    Truthy(f.username) && Truthy(f.password) && Truthy(f.email) && Truthy(f.phoneNumber)
  }

  /** The user `createUser` writes: normalised email, hashed password,
      the default role, and not yet verified. */
  function NewUser(st: Store, f: Registration): (u: User)
    requires Complete(f)
    ensures u.email == NormaliseEmail(f.email.value) && u.password == Bcrypt(f.password.value)
    ensures u.username == f.username.value && u.phoneNumber == f.phoneNumber.value
    ensures u.role == Member && !u.isVerified
    ensures u.resetPasswordToken.None? && u.resetPasswordExpires.None?
    ensures forall i :: 0 <= i < |st.users| ==> st.users[i].id != u.id
  {
    User(FreshId(st.users, UserId), f.username.value, NormaliseEmail(f.email.value), f.phoneNumber.value,
         Bcrypt(f.password.value), Member, false, None, None)
  }

  /** The registration gets past the duplicate checks and is written:
      neither the raw email (the controller's check) nor the normalised
      one (the unique index) is taken. */
  predicate Registers(st: Store, f: Registration) {
    && Complete(f)
    && !EmailTaken(st, f.email.value)
    && !EmailTaken(st, NormaliseEmail(f.email.value))
  }

  /** `createUser`: 400 unless all four fields are present; 409 only when
      a user has the raw email exactly; otherwise the user is written,
      unless the unique index refuses the normalised email (500, nothing
      written). The welcome mail is sent after the write, so when it
      fails the reply is 500 but the user stays. */
  function CreateUser(st: Store, f: Registration, mailOk: bool): (o: Outcome)
    ensures o.reply.status in {201, 400, 409, 500}
    ensures o.reply.status == 400 <==> !Complete(f)
    ensures o.reply.status == 409 <==> Complete(f) && EmailTaken(st, f.email.value)
    ensures Registers(st, f) ==> o.store == st.(users := st.users + [NewUser(st, f)])
    ensures !Registers(st, f) ==> o.store == st
    ensures o.reply.status == 201 <==> Registers(st, f) && IsValidRecipient(Some(NewUser(st, f).email)) && mailOk
    ensures o.reply.status == 201 ==>
              o.reply.payload == SignedUp(NewUser(st, f).id, NewUser(st, f).email, NewUser(st, f).username)
  {
    if !Complete(f) then Answer(st, 400, "All fields are required")
    else if EmailTaken(st, f.email.value) then Answer(st, 409, "Email already registered")
    else
      var u := NewUser(st, f);
      match SaveUnique(st.users, u, UserId, UserEmail)
      case None => InternalError(st)
      case Some(users) =>
        assert FindById(st.users, UserId, u.id).None?;
        var saved := st.(users := users);
        match Notify(u.email, WelcomeSubject, mailOk)
        case Threw(_) => InternalError(saved)
        case Delivered(_, _, _, _) => Outcome(Reply(201, "Verification mail sent", SignedUp(u.id, u.email, u.username)), saved)
  }

  /** `createUser` keeps user identifiers and emails unique. */
  lemma CreateUserKeepsUnique(st: Store, f: Registration, mailOk: bool)
    requires UniqueKeys(st.users, UserId) && UniqueKeys(st.users, UserEmail)
    ensures var o := CreateUser(st, f, mailOk);
            UniqueKeys(o.store.users, UserId) && UniqueKeys(o.store.users, UserEmail)
  {
    if Registers(st, f) {
      var u := NewUser(st, f);
      AppendKeepsUnique(st.users, u, UserId);
      AppendKeepsUnique(st.users, u, UserEmail);
    }
  }

  /** The duplicate check compares the raw email: an email that differs
      from a stored one only in case or surrounding blanks is not a 409
      but a refused write, answered with 500. */
  lemma NormalisedClashIs500(st: Store, f: Registration, mailOk: bool)
    requires Complete(f) && !EmailTaken(st, f.email.value)
    requires EmailTaken(st, NormaliseEmail(f.email.value))
    ensures CreateUser(st, f, mailOk).reply.status == 500
    ensures CreateUser(st, f, mailOk).store == st
  {
  }

  /** A registration whose email cannot receive mail (no "@", or an angle
      bracket) is written and answered with 500; registering again with
      the same (already normalised) email is then a 409. */
  lemma UnmailableRegistrationSticks(st: Store, f: Registration, mailOk: bool, mailOk2: bool)
    requires Registers(st, f) && NormaliseEmail(f.email.value) == f.email.value
    requires !IsValidRecipient(Some(f.email.value))
    ensures var o := CreateUser(st, f, mailOk);
            && o.reply.status == 500 && |o.store.users| == |st.users| + 1
            && CreateUser(o.store, f, mailOk2).reply.status == 409
  {
    var o := CreateUser(st, f, mailOk);
    assert o.store.users[|st.users|].email == f.email.value;
  }

  // ---------------------------------------------------------------- verify

  /** The token of a verification link decodes. */
  predicate Decodes(token: Option<Token>, secret: string, now: int) {
    token.Some? && VerifyToken(token.value, secret, now).Some?
  }

  /** `verifyEmail`: 400 without a token or with one that does not
      verify, 404 for an unknown user, 200 without a write when the user
      is already verified, otherwise the user becomes verified. */
  function VerifyEmail(st: Store, token: Option<Token>, secret: string, now: int): (o: Outcome)
    ensures o.reply.status in {200, 400, 404, 500}
    ensures o.reply.status == 400 <==> !Decodes(token, secret, now)
    ensures o.reply.status == 404 <==>
              Decodes(token, secret, now) && FindById(st.users, UserId, token.value.claims.id).None?
    ensures o.reply.status != 200 ==> o.store == st
    ensures o.reply.status == 200 ==>
              && Decodes(token, secret, now) && FindById(st.users, UserId, token.value.claims.id).Some?
              && var k := FindById(st.users, UserId, token.value.claims.id).value;
                 && (st.users[k].isVerified ==> o.store == st)
                 && (!st.users[k].isVerified ==> o.store == st.(users := st.users[k := st.users[k].(isVerified := true)]))
  {
    if token.None? then Answer(st, 400, "Verification token is required")
    else if VerifyToken(token.value, secret, now).None? then Answer(st, 400, "Invalid or expired token")
    else
      match FindById(st.users, UserId, token.value.claims.id)
      case None => Answer(st, 404, "User not found")
      case Some(k) =>
        var u := st.users[k];
        if u.isVerified then Answer(st, 200, "Email already verified")
        else
          var v := u.(isVerified := true);
          match SaveUnique(st.users, v, UserId, UserEmail)
          case None => InternalError(st)
          case Some(users) => Answer(st.(users := users), 200, "Email verified successfully")
  }

  /** Saving a user back with its email unchanged is never refused when
      the emails are unique; it replaces the user in place. */
  lemma SaveInPlace(users: seq<User>, k: nat, v: User)
    requires k < |users| && UniqueKeys(users, UserEmail)
    requires FindById(users, UserId, v.id) == Some(k) && v.email == users[k].email
    ensures SaveUnique(users, v, UserId, UserEmail) == Some(users[k := v])
  {
  }

  /** With unique emails, verification never fails on the save, and a
      second verification with the same link is an answered no-op. */
  lemma VerifyEmailIdempotent(st: Store, token: Option<Token>, secret: string, now: int)
    requires UniqueKeys(st.users, UserEmail)
    ensures var o := VerifyEmail(st, token, secret, now);
            && o.reply.status != 500
            && VerifyEmail(o.store, token, secret, now) == Answer(o.store, o.reply.status, if o.reply.status == 200 then "Email already verified" else o.reply.message)
  {
    var o := VerifyEmail(st, token, secret, now);
    if Decodes(token, secret, now) {
      var id := token.value.claims.id;
      match FindById(st.users, UserId, id)
      case None =>
      case Some(k) =>
        var u := st.users[k];
        if !u.isVerified {
          SaveInPlace(st.users, k, u.(isVerified := true));
          var users := st.users[k := u.(isVerified := true)];
          assert o.store.users == users;
          assert FindById(users, UserId, id) == Some(k) by {
            assert forall j :: 0 <= j < k ==> users[j] == st.users[j];
          }
        }
    }
  }

  // ---------------------------------------------------------------- sessions

  /** What a session handler leaves behind: its reply, the refresh-token
      set, and the `access_token` / `refresh_token` cookies it set. */
  datatype Session = Session(reply: Reply, refresh: RefreshSet, cookies: Option<(Token, Token)>)

  /** The user a login with this email addresses. */
  function LoginTarget(st: Store, email: Option<string>, password: Option<string>): Option<nat> {
    if !Truthy(email) || !Truthy(password) then None else FindUser(st, NormaliseEmail(email.value))
  }

  /** `loginUser`: 400 for a missing field, 404 for an unknown email, 401
      for a wrong password, 403 for an unverified user, in that order;
      otherwise both tokens are issued as cookies and the refresh token
      joins the set. */
  function LoginUser(st: Store, rs: RefreshSet, email: Option<string>, password: Option<string>,
                     secret: string, now: int): (s: Session)
    ensures s.reply.status in {200, 400, 401, 403, 404}
    ensures s.reply.status == 400 <==> !Truthy(email) || !Truthy(password)
    ensures s.reply.status == 404 <==>
              Truthy(email) && Truthy(password) && LoginTarget(st, email, password).None?
    ensures s.reply.status == 401 <==>
              LoginTarget(st, email, password).Some?
              && !Matches(password.value, st.users[LoginTarget(st, email, password).value].password)
    ensures s.reply.status == 403 <==>
              && LoginTarget(st, email, password).Some?
              && var u := st.users[LoginTarget(st, email, password).value];
                 Matches(password.value, u.password) && !u.isVerified
    ensures s.reply.status != 200 ==> s.refresh == rs && s.cookies.None?
    ensures s.reply.status == 200 ==>
              && LoginTarget(st, email, password).Some?
              && var u := st.users[LoginTarget(st, email, password).value];
                 && Matches(password.value, u.password) && u.isVerified
                 && s.reply.payload == LoggedIn(u.id, u.email, u.username, u.role)
                 && s.cookies.Some? && s.refresh == rs + {s.cookies.value.1}
                 && VerifyToken(s.cookies.value.0, secret, now) == Some(Claims(u.id, now, now + AccessTtl))
                 && VerifyRefreshToken(s.refresh, s.cookies.value.1, secret, now) == Some(Claims(u.id, now, now + RefreshTtl))
  {
    if !Truthy(email) || !Truthy(password) then
      Session(Reply(400, "All fields are required", NoPayload), rs, None)
    else
      match FindUser(st, NormaliseEmail(email.value))
      case None => Session(Reply(404, "User not found", NoPayload), rs, None)
      case Some(k) =>
        var u := st.users[k];
        if !Matches(password.value, u.password) then Session(Reply(401, "Invalid credentials", NoPayload), rs, None)
        else if !u.isVerified then Session(Reply(403, "Email not verified", NoPayload), rs, None)
        else
          var access := Sign(u.id, secret, now, AccessTtl);
          var (rs2, refresh) := GenerateRefreshToken(rs, u.id, secret, now);
          Session(Reply(200, "Login successful", LoggedIn(u.id, u.email, u.username, u.role)), rs2, Some((access, refresh)))
  }

  /** `refreshSession`: 401 without a refresh cookie or with one the set
      does not honour; otherwise a new access token for the same user.
      The refresh token is not rotated: the set never changes. */
  function RefreshSession(rs: RefreshSet, rt: Option<Token>, secret: string, now: int): (s: Session)
    ensures s.refresh == rs
    ensures s.reply.status in {200, 401}
    ensures s.reply.status == 200 <==> rt.Some? && VerifyRefreshToken(rs, rt.value, secret, now).Some?
    ensures s.reply.status == 200 ==>
              && rt.value in rs
              && s.cookies == Some((Sign(rt.value.claims.id, secret, now, AccessTtl), rt.value))
    ensures s.reply.status != 200 ==> s.cookies.None?
  {
    match rt
    case None => Session(Reply(401, "No refresh token", NoPayload), rs, None)
    case Some(t) =>
      match VerifyRefreshToken(rs, t, secret, now)
      case None => Session(Reply(401, "Invalid refresh token", NoPayload), rs, None)
      case Some(c) => Session(Reply(200, "Session refreshed", NoPayload), rs, Some((Sign(c.id, secret, now, AccessTtl), t)))
  }

  /** `logoutUser`: revokes the refresh cookie when there is one and
      answers 200 in any case. */
  function LogoutUser(rs: RefreshSet, rt: Option<Token>): (s: Session)
    ensures s.reply.status == 200 && s.cookies.None?
    ensures rt.Some? ==> rt.value !in s.refresh
    ensures forall t :: t in s.refresh <==> t in rs && rt != Some(t)
  {
    var rs2 := if rt.Some? then RevokeRefreshToken(rs, rt.value) else rs;
    Session(Reply(200, "Logged out", NoPayload), rs2, None)
  }

  /** A login's refresh token renews the session for seven days, and
      after logging out with it no longer does. */
  lemma LoginRefreshLogout(st: Store, rs: RefreshSet, email: Option<string>, password: Option<string>,
                           secret: string, now: int, at: int)
    requires LoginUser(st, rs, email, password, secret, now).reply.status == 200
    requires now <= at < now + RefreshTtl
    ensures var s := LoginUser(st, rs, email, password, secret, now);
            var rt := Some(s.cookies.value.1);
            && RefreshSession(s.refresh, rt, secret, at).reply.status == 200
            && RefreshSession(LogoutUser(s.refresh, rt).refresh, rt, secret, at).reply.status == 401
  {
  }

  /** A login addressing a user appended after every other email is
      decided by that user's verification flag alone. */
  lemma LoginOfAppended(st: Store, w: User, rs: RefreshSet, email: Option<string>, password: Option<string>,
                        secret: string, now: int)
    requires Truthy(email) && Truthy(password)
    requires NormaliseEmail(email.value) == w.email && !EmailTaken(st, w.email)
    requires Matches(password.value, w.password)
    ensures LoginUser(st.(users := st.users + [w]), rs, email, password, secret, now).reply.status
            == if w.isVerified then 200 else 403
  {
    var s := st.(users := st.users + [w]);
    assert s.users[|st.users|] == w;
    assert FindUser(s, w.email) == Some(|st.users|);
  }

  /** Verifying a freshly appended, unverified user with a token for its
      identifier flips its flag in place. */
  lemma VerifyOfAppended(st: Store, u: User, secret: string, now: int, at: int)
    requires forall i :: 0 <= i < |st.users| ==> st.users[i].id != u.id
    requires !EmailTaken(st, u.email) && !u.isVerified
    requires now <= at < now + AccessTtl
    ensures var v := VerifyEmail(st.(users := st.users + [u]), Some(Sign(u.id, secret, now, AccessTtl)), secret, at);
            v.reply.status == 200 && v.store == st.(users := st.users + [u.(isVerified := true)])
  {
    var users := st.users + [u];
    var n := |st.users|;
    var w := u.(isVerified := true);
    assert users[n] == u;
    var j := FindById(users, UserId, u.id);
    assert j.Some?;
    assert j.value == n;
    assert forall i :: 0 <= i < |users| && users[i].email == w.email ==> users[i].id == w.id;
    assert SaveUnique(users, w, UserId, UserEmail) == Some(users[n := w]);
    assert users[n := w] == st.users + [w];
  }

  /** The link mailed at registration verifies the new user within the hour. */
  lemma VerifyNewUser(st: Store, f: Registration, mailOk: bool, secret: string, now: int, at: int)
    requires CreateUser(st, f, mailOk).reply.status == 201
    requires now <= at < now + AccessTtl
    ensures var o := CreateUser(st, f, mailOk);
            var u := NewUser(st, f);
            var v := VerifyEmail(o.store, Some(Sign(u.id, secret, now, AccessTtl)), secret, at);
            v.reply.status == 200 && v.store == st.(users := st.users + [u.(isVerified := true)])
  {
    VerifyOfAppended(st, NewUser(st, f), secret, now, at);
  }

  /** A new account cannot log in until its email is verified; with the
      link's token, valid for an hour, it can. */
  lemma RegisterVerifyLogin(st: Store, f: Registration, mailOk: bool, rs: RefreshSet,
                            secret: string, now: int, at: int)
    requires CreateUser(st, f, mailOk).reply.status == 201
    requires now <= at < now + AccessTtl
    ensures var o := CreateUser(st, f, mailOk);
            var token := Some(Sign(NewUser(st, f).id, secret, now, AccessTtl));
            var v := VerifyEmail(o.store, token, secret, at);
            && LoginUser(o.store, rs, f.email, f.password, secret, at).reply.status == 403
            && v.reply.status == 200
            && LoginUser(v.store, rs, f.email, f.password, secret, at).reply.status == 200
  {
    var u := NewUser(st, f);
    LoginOfAppended(st, u, rs, f.email, f.password, secret, at);
    VerifyNewUser(st, f, mailOk, secret, now, at);
    LoginOfAppended(st, u.(isVerified := true), rs, f.email, f.password, secret, at);
  }

  // ---------------------------------------------------------------- reset

  /** The reset link is valid for fifteen minutes (the clock here is
      `Date.now()`, in milliseconds). */
  const ResetWindow := 1000 * 60 * 15

  /** The user after a reset request with raw token `raw` at `now`: the
      token's digest is stored, never the token itself. */
  function Armed(u: User, raw: string, now: int): (v: User)
    ensures v.resetPasswordToken == Some(Sha256(raw)) && v.resetPasswordExpires == Some(now + ResetWindow)
    ensures v == u.(resetPasswordToken := v.resetPasswordToken, resetPasswordExpires := v.resetPasswordExpires)
  {
    u.(resetPasswordToken := Some(Sha256(raw)), resetPasswordExpires := Some(now + ResetWindow))
  }

  /** `requestPasswordReset`: 400 without an email; 200 and no change for
      an unknown one; otherwise the digest of the fresh random token
      `raw` and its expiry are stored, then the link is mailed (a failed
      mail is a 500, the token stays stored). */
  function RequestPasswordReset(st: Store, email: Option<string>, raw: string, now: int, mailOk: bool): (o: Outcome)
    ensures o.reply.status in {200, 400, 500}
    ensures o.reply.status == 400 <==> !Truthy(email)
    ensures Truthy(email) && !EmailTaken(st, NormaliseEmail(email.value)) ==>
              o.reply.status == 200 && o.store == st
    ensures o.store != st ==>
              && Truthy(email) && FindUser(st, NormaliseEmail(email.value)).Some?
              && var k := FindUser(st, NormaliseEmail(email.value)).value;
                 o.store == st.(users := Upsert(st.users, Armed(st.users[k], raw, now), UserId))
  {
    if !Truthy(email) then Answer(st, 400, "Email is required")
    else
      match FindUser(st, NormaliseEmail(email.value))
      case None => Answer(st, 200, "If the email exists, a reset link was sent")
      case Some(k) =>
        var u := Armed(st.users[k], raw, now);
        match SaveUnique(st.users, u, UserId, UserEmail)
        case None => InternalError(st)
        case Some(users) =>
          var saved := st.(users := users);
          match Notify(u.email, ResetSubject, mailOk)
          case Threw(_) => InternalError(saved)
          case Delivered(_, _, _, _) => Answer(saved, 200, "a reset link was sent to your email address")
  }

  /** The user holds digest `d` with an expiry still in the future: the
      `findOne({ resetPasswordToken, resetPasswordExpires: { $gt: now } })`
      filter. */
  predicate HoldsReset(u: User, d: Digest, now: int) {
    u.resetPasswordToken == Some(d) && u.resetPasswordExpires.Some? && u.resetPasswordExpires.value > now
  }

  /** `req.body.token || req.query.token`. */
  function ResetTokenOf(bodyToken: Option<string>, queryToken: Option<string>): Option<string> {
    if Truthy(bodyToken) then bodyToken else queryToken
  }

  /** The user a reset with this token addresses. */
  function ResetTarget(st: Store, token: Option<string>, now: int): (r: Option<nat>)
    ensures r.Some? ==> token.Some? && r.value < |st.users| && HoldsReset(st.users[r.value], Sha256(token.value), now)
    ensures r.None? && token.Some? ==> forall i :: 0 <= i < |st.users| ==> !HoldsReset(st.users[i], Sha256(token.value), now)
    ensures r.Some? ==> forall j :: 0 <= j < r.value ==> !HoldsReset(st.users[j], Sha256(token.value), now)
  {
    if token.None? then None
    else FirstIndex(st.users, (u: User) => HoldsReset(u, Sha256(token.value), now))
  }

  /** The user after a successful reset: the new password, and the token
      and its expiry cleared. */
  function Reset(u: User, newPassword: string): (v: User)
    ensures v.password == Bcrypt(newPassword) && v.resetPasswordToken.None? && v.resetPasswordExpires.None?
    ensures v == u.(password := v.password, resetPasswordToken := None, resetPasswordExpires := None)
  {
    u.(password := Bcrypt(newPassword), resetPasswordToken := None, resetPasswordExpires := None)
  }

  /** `resetPassword`: 400 without a token or a new password, 400 unless
      some user holds the token's digest unexpired; otherwise that user
      gets the new password and loses the token. */
  function ResetPassword(st: Store, bodyToken: Option<string>, queryToken: Option<string>,
                         newPassword: Option<string>, now: int): (o: Outcome)
    ensures o.reply.status in {200, 400, 500}
    ensures o.reply.status == 400 <==>
              var token := ResetTokenOf(bodyToken, queryToken);
              !Truthy(token) || !Truthy(newPassword) || ResetTarget(st, token, now).None?
    ensures o.reply.status != 200 ==> o.store == st
    ensures o.reply.status == 200 ==>
              && var token := ResetTokenOf(bodyToken, queryToken);
                 && Truthy(newPassword) && ResetTarget(st, token, now).Some?
                 && var k := ResetTarget(st, token, now).value;
                    o.store == st.(users := Upsert(st.users, Reset(st.users[k], newPassword.value), UserId))
  {
    var token := ResetTokenOf(bodyToken, queryToken);
    if !Truthy(token) || !Truthy(newPassword) then Answer(st, 400, "Token and newPassword required")
    else
      match ResetTarget(st, token, now)
      case None => Answer(st, 400, "Invalid or expired token")
      case Some(k) =>
        var u := Reset(st.users[k], newPassword.value);
        match SaveUnique(st.users, u, UserId, UserEmail)
        case None => InternalError(st)
        case Some(users) => Answer(st.(users := users), 200, "Password has been reset")
  }

  /** A reset token works once: after a successful reset, the same token
      is refused, as long as no other user holds its digest. */
  lemma ResetIsSingleUse(st: Store, bodyToken: Option<string>, queryToken: Option<string>,
                         newPassword: Option<string>, now: int, later: int, again: Option<string>)
    requires UniqueKeys(st.users, UserId)
    requires ResetPassword(st, bodyToken, queryToken, newPassword, now).reply.status == 200
    requires var token := ResetTokenOf(bodyToken, queryToken);
             forall i :: 0 <= i < |st.users| && st.users[i].resetPasswordToken == Some(Sha256(token.value))
               ==> i == ResetTarget(st, token, now).value
    ensures var o := ResetPassword(st, bodyToken, queryToken, newPassword, now);
            ResetPassword(o.store, bodyToken, queryToken, again, later).reply.status == 400
  {
    var token := ResetTokenOf(bodyToken, queryToken);
    var k := ResetTarget(st, token, now).value;
    var o := ResetPassword(st, bodyToken, queryToken, newPassword, now);
    UpsertInPlace(st.users, Reset(st.users[k], newPassword.value), UserId, k);
    forall i | 0 <= i < |o.store.users|
      ensures !HoldsReset(o.store.users[i], Sha256(token.value), later)
    {
      if i != k {
        assert o.store.users[i] == st.users[i];
      }
    }
  }

  /** Replacing a user by one with the same identifier and email keeps
      both unique. */
  lemma ReplaceKeepsKeys(users: seq<User>, k: nat, v: User)
    requires k < |users| && v.id == users[k].id && v.email == users[k].email
    requires UniqueKeys(users, UserId) && UniqueKeys(users, UserEmail)
    ensures UniqueKeys(users[k := v], UserId) && UniqueKeys(users[k := v], UserEmail)
  {
    var r := users[k := v];
    assert forall j :: 0 <= j < |r| ==> r[j].id == users[j].id && r[j].email == users[j].email;
  }

  /** With unique identifiers and emails, a reset request for a known
      email arms that user in place, whether or not the link is mailed,
      and answers 200 exactly when the user's email is a valid recipient
      and the transport delivers, 500 otherwise. */
  lemma RequestArmsInPlace(st: Store, email: Option<string>, raw: string, now: int, mailOk: bool)
    requires UniqueKeys(st.users, UserId) && UniqueKeys(st.users, UserEmail)
    requires Truthy(email) && EmailTaken(st, NormaliseEmail(email.value))
    ensures var k := FindUser(st, NormaliseEmail(email.value)).value;
            RequestPasswordReset(st, email, raw, now, mailOk).store
            == st.(users := st.users[k := Armed(st.users[k], raw, now)])
    ensures var k := FindUser(st, NormaliseEmail(email.value)).value;
            var o := RequestPasswordReset(st, email, raw, now, mailOk);
            && o.reply.status in {200, 500}
            && (o.reply.status == 200 <==> IsValidRecipient(Some(st.users[k].email)) && mailOk)
  {
    var k := FindUser(st, NormaliseEmail(email.value)).value;
    var u := Armed(st.users[k], raw, now);
    UpsertInPlace(st.users, u, UserId, k);
    SaveInPlace(st.users, k, u);
  }

  /** When user `k` alone holds the digest of `raw`, a reset with `raw`
      succeeds exactly while that user's expiry is in the future. */
  lemma ResetBySoleHolder(st: Store, k: nat, raw: string, newPassword: string, at: int)
    requires UniqueKeys(st.users, UserId) && UniqueKeys(st.users, UserEmail)
    requires raw != "" && newPassword != ""
    requires k < |st.users| && st.users[k].resetPasswordToken == Some(Sha256(raw))
    requires st.users[k].resetPasswordExpires.Some?
    requires forall j :: 0 <= j < |st.users| && j != k ==> st.users[j].resetPasswordToken != Some(Sha256(raw))
    ensures ResetPassword(st, Some(raw), None, Some(newPassword), at).reply.status == 200
            <==> at < st.users[k].resetPasswordExpires.value
  {
    if at < st.users[k].resetPasswordExpires.value {
      assert ResetTarget(st, Some(raw), at) == Some(k);
      var v := Reset(st.users[k], newPassword);
      UpsertInPlace(st.users, v, UserId, k);
      SaveInPlace(st.users, k, v);
    } else {
      assert ResetTarget(st, Some(raw), at).None?;
    }
  }

  /** A reset requested at `now` can be completed with the mailed token
      exactly until fifteen minutes have passed, provided the random
      token's digest is held by no user yet. */
  lemma RequestThenReset(st: Store, email: Option<string>, raw: string, now: int, mailOk: bool,
                         newPassword: string, at: int)
    requires UniqueKeys(st.users, UserId) && UniqueKeys(st.users, UserEmail)
    requires Truthy(email) && EmailTaken(st, NormaliseEmail(email.value))
    requires raw != "" && newPassword != ""
    requires forall i :: 0 <= i < |st.users| ==> st.users[i].resetPasswordToken != Some(Sha256(raw))
    ensures var o := RequestPasswordReset(st, email, raw, now, mailOk);
            ResetPassword(o.store, Some(raw), None, Some(newPassword), at).reply.status == 200
            <==> at < now + ResetWindow
  {
    var k := FindUser(st, NormaliseEmail(email.value)).value;
    var u := Armed(st.users[k], raw, now);
    RequestArmsInPlace(st, email, raw, now, mailOk);
    ReplaceKeepsKeys(st.users, k, u);
    var armed := st.(users := st.users[k := u]);
    ResetBySoleHolder(armed, k, raw, newPassword, at);
  }

  // ---------------------------------------------------------------- profile

  /** `userProfile`: the requesting user, or 404; nothing is written. */
  function UserProfile(st: Store, userId: Id): (o: Outcome)
    ensures o.store == st
    ensures o.reply.status in {200, 404}
    ensures o.reply.status == 200 <==> FindById(st.users, UserId, userId).Some?
    ensures o.reply.status == 200 ==>
              o.reply.payload == ProfileBody(ProfileOf(st.users[FindById(st.users, UserId, userId).value]))
  {
    match FindById(st.users, UserId, userId)
    case None => Answer(st, 404, "User not found")
    case Some(k) => Outcome(Reply(200, "", ProfileBody(ProfileOf(st.users[k]))), st)
  }

  /** The user with the truthy fields of an update applied. */
  function Updated(u: User, username: Option<string>, phoneNumber: Option<string>): (v: User)
    ensures v.username == (if Truthy(username) then username.value else u.username)
    ensures v.phoneNumber == (if Truthy(phoneNumber) then phoneNumber.value else u.phoneNumber)
    ensures v == u.(username := v.username, phoneNumber := v.phoneNumber)
  {
    var named := if Truthy(username) then u.(username := username.value) else u;
    if Truthy(phoneNumber) then named.(phoneNumber := phoneNumber.value) else named
  }

  /** `updateUser`: 404 for an unknown user; otherwise only `username` and
      `phoneNumber` change, each only when given truthy. */
  function UpdateUser(st: Store, userId: Id, username: Option<string>, phoneNumber: Option<string>): (o: Outcome)
    ensures o.reply.status in {200, 404, 500}
    ensures o.reply.status == 404 <==> FindById(st.users, UserId, userId).None?
    ensures o.reply.status != 200 ==> o.store == st
    ensures o.reply.status == 200 ==>
              && FindById(st.users, UserId, userId).Some?
              && var k := FindById(st.users, UserId, userId).value;
                 && o.store == st.(users := st.users[k := Updated(st.users[k], username, phoneNumber)])
                 && o.reply.payload == UpdatedBody(userId, Updated(st.users[k], username, phoneNumber).username,
                                                   Updated(st.users[k], username, phoneNumber).phoneNumber)
  {
    match FindById(st.users, UserId, userId)
    case None => Answer(st, 404, "User not found")
    case Some(k) =>
      var v := Updated(st.users[k], username, phoneNumber);
      match SaveUnique(st.users, v, UserId, UserEmail)
      case None => InternalError(st)
      case Some(users) => Outcome(Reply(200, "User updated successfully", UpdatedBody(v.id, v.username, v.phoneNumber)), st.(users := users))
  }

  /** An update with nothing truthy in it rewrites the user unchanged. */
  lemma EmptyUpdateKeepsUser(st: Store, userId: Id, username: Option<string>, phoneNumber: Option<string>)
    requires !Truthy(username) && !Truthy(phoneNumber)
    requires UniqueKeys(st.users, UserEmail)
    ensures UpdateUser(st, userId, username, phoneNumber).store == st
  {
    match FindById(st.users, UserId, userId)
    case None =>
    case Some(k) =>
      SaveInPlace(st.users, k, st.users[k]);
      assert st.users[k := st.users[k]] == st.users;
  }

  /** `updatePassword`: 400 for a missing field, 404 for an unknown user,
      401 when the current password does not match, otherwise the new
      password is stored. */
  function UpdatePassword(st: Store, userId: Id, current: Option<string>, newPassword: Option<string>): (o: Outcome)
    ensures o.reply.status in {200, 400, 401, 404, 500}
    ensures o.reply.status == 400 <==> !Truthy(current) || !Truthy(newPassword)
    ensures o.reply.status == 404 <==>
              Truthy(current) && Truthy(newPassword) && FindById(st.users, UserId, userId).None?
    ensures o.reply.status == 401 <==>
              && Truthy(current) && Truthy(newPassword) && FindById(st.users, UserId, userId).Some?
              && !Matches(current.value, st.users[FindById(st.users, UserId, userId).value].password)
    ensures o.reply.status != 200 ==> o.store == st
    ensures o.reply.status == 200 ==>
              && Truthy(newPassword) && FindById(st.users, UserId, userId).Some?
              && var k := FindById(st.users, UserId, userId).value;
                 o.store == st.(users := st.users[k := st.users[k].(password := Bcrypt(newPassword.value))])
  {
    if !Truthy(current) || !Truthy(newPassword) then Answer(st, 400, "All fields are required")
    else
      match FindById(st.users, UserId, userId)
      case None => Answer(st, 404, "User not found")
      case Some(k) =>
        if !Matches(current.value, st.users[k].password) then Answer(st, 401, "Current password is incorrect")
        else
          var v := st.users[k].(password := Bcrypt(newPassword.value));
          match SaveUnique(st.users, v, UserId, UserEmail)
          case None => InternalError(st)
          case Some(users) => Answer(st.(users := users), 200, "Password updated successfully")
  }

  /** With unique identifiers and emails and a stored email in normal
      form, a changed password is the one login now accepts: the new
      password passes login's 401 gate and a different current password
      no longer does. */
  lemma UpdatedPasswordLogsIn(st: Store, userId: Id, current: Option<string>, newPassword: Option<string>,
                              rs: RefreshSet, secret: string, now: int)
    requires UniqueKeys(st.users, UserId) && UniqueKeys(st.users, UserEmail)
    requires forall i :: 0 <= i < |st.users| && st.users[i].id == userId ==>
               st.users[i].email != "" && NormaliseEmail(st.users[i].email) == st.users[i].email
    ensures var o := UpdatePassword(st, userId, current, newPassword);
            o.reply.status == 200 ==>
              var u := o.store.users[FindById(st.users, UserId, userId).value];
              && LoginUser(o.store, rs, Some(u.email), newPassword, secret, now).reply.status in {200, 403}
              && (current.value != newPassword.value ==>
                    LoginUser(o.store, rs, Some(u.email), current, secret, now).reply.status == 401)
  {
  }

  /** The requester may read or delete user `id`: it is the requester, or
      the requester's role (as `req.user` carries it) is "admin". */
  predicate SelfOrAdmin(requester: Principal, id: Id) {
    requester.id == id || requester.role == Some("admin")
  }

  /** `getUserById`: 404 for an unknown user, 403 unless self or admin. */
  function GetUserById(st: Store, requester: Principal, id: Id): (o: Outcome)
    ensures o.store == st
    ensures o.reply.status in {200, 403, 404}
    ensures o.reply.status == 404 <==> FindById(st.users, UserId, id).None?
    ensures o.reply.status == 403 <==> FindById(st.users, UserId, id).Some? && !SelfOrAdmin(requester, id)
    ensures o.reply.status == 200 ==>
              o.reply.payload == ProfileBody(ProfileOf(st.users[FindById(st.users, UserId, id).value]))
  {
    match FindById(st.users, UserId, id)
    case None => Answer(st, 404, "User not found")
    case Some(k) =>
      if !SelfOrAdmin(requester, id) then Answer(st, 403, "Forbidden")
      else Outcome(Reply(200, "", ProfileBody(ProfileOf(st.users[k]))), st)
  }

  /** `deleteUser`: 404 for an unknown user, 403 unless self or admin,
      otherwise that user is removed. */
  function DeleteUser(st: Store, requester: Principal, id: Id): (o: Outcome)
    ensures o.reply.status in {200, 403, 404}
    ensures o.reply.status == 404 <==> FindById(st.users, UserId, id).None?
    ensures o.reply.status == 403 <==> FindById(st.users, UserId, id).Some? && !SelfOrAdmin(requester, id)
    ensures o.reply.status != 200 ==> o.store == st
    ensures o.reply.status == 200 ==>
              o.store == st.(users := Remove(st.users, FindById(st.users, UserId, id).value))
  {
    match FindById(st.users, UserId, id)
    case None => Answer(st, 404, "User not found")
    case Some(k) =>
      if !SelfOrAdmin(requester, id) then Answer(st, 403, "Forbidden")
      else Answer(st.(users := Remove(st.users, k)), 200, "User deleted")
  }

  /** With unique identifiers, a deleted user is gone: reading it back is
      a 404. */
  lemma DeletedUserIsGone(st: Store, requester: Principal, id: Id, reader: Principal)
    requires UniqueKeys(st.users, UserId)
    requires DeleteUser(st, requester, id).reply.status == 200
    ensures GetUserById(DeleteUser(st, requester, id).store, reader, id).reply.status == 404
  {
    var k := FindById(st.users, UserId, id).value;
    var r := Remove(st.users, k);
    forall i | 0 <= i < |r| ensures r[i].id != id {
      if i < k {
        assert r[i] == st.users[i];
      } else {
        assert r[i] == st.users[i + 1];
      }
    }
  }
}

=== FILE: admin.dfy ===
/** The start-up bootstrap that makes sure an administrator account exists,
    configured by the ADMIN_EMAIL, ADMIN_PASSWORD and ADMIN_USERNAME
    environment variables. */
module AdminBootstrap {
  import opened Wrappers
  import opened Keyed
  import opened Records
  import opened Accounts

  /** The three environment variables; `None` is an unset one. */
  datatype AdminEnv = AdminEnv(email: Option<string>, password: Option<string>, username: Option<string>)

  const DefaultAdminName := "Administrator"
  const AdminPhone := "0000000000"

  /** `(ADMIN_EMAIL || "").trim().toLowerCase()`. */
  function AdminEmail(env: AdminEnv): string {
    NormaliseEmail(env.email.GetOr(""))
  }

  /** The bootstrap runs at all: a non-empty email and password. */
  predicate Configured(env: AdminEnv) {
    AdminEmail(env) != "" && Truthy(env.password)
  }

  /** The administrator created when none has the email: the configured
      or default name, the fixed phone number, verified. */
  function NewAdmin(st: Store, env: AdminEnv): (u: User)
    requires Configured(env)
    ensures u.email == AdminEmail(env) && u.role == Admin && u.isVerified
    ensures u.phoneNumber == AdminPhone && u.password == Bcrypt(env.password.value)
    ensures u.username == (if Truthy(env.username) then env.username.value else DefaultAdminName)
    ensures forall i :: 0 <= i < |st.users| ==> st.users[i].id != u.id
  {
    var name := if Truthy(env.username) then env.username.value else DefaultAdminName;
    User(FreshId(st.users, UserId), name, AdminEmail(env), AdminPhone, Bcrypt(env.password.value),
         Admin, true, None, None)
  }

  /** The store after the bootstrap, and whether it attempted a save. */
  datatype Bootstrap = Bootstrap(store: Store, wrote: bool)

  /** `ensureAdminUser`: nothing without an email and password; creates
      the administrator when no user has the email; otherwise makes that
      user an administrator and verified, attempting a save only when one
      of the two was not already so. A refused save is logged and changes
      nothing, so `wrote` means a save was attempted, not that the store
      changed. */
  function EnsureAdmin(st: Store, env: AdminEnv): (r: Bootstrap)
    ensures !Configured(env) ==> r == Bootstrap(st, false)
    ensures Configured(env) && !EmailTaken(st, AdminEmail(env)) ==>
              r == Bootstrap(st.(users := st.users + [NewAdmin(st, env)]), true)
    ensures Configured(env) && EmailTaken(st, AdminEmail(env)) ==>
              var k := FindUser(st, AdminEmail(env)).value;
              var u := st.users[k];
              && (r.wrote <==> u.role != Admin || !u.isVerified)
              && (r.store == st || r.store == st.(users := Upsert(st.users, u.(role := Admin, isVerified := true), UserId)))
  {
    if !Configured(env) then Bootstrap(st, false)
    else
      var email := AdminEmail(env);
      match FindUser(st, email)
      case None =>
        var u := NewAdmin(st, env);
        assert FindById(st.users, UserId, u.id).None?;
        assert SaveUnique(st.users, u, UserId, UserEmail).Some?;
        Bootstrap(st.(users := st.users + [u]), true)
      case Some(k) =>
        var u := st.users[k];
        if u.role == Admin && u.isVerified then Bootstrap(st, false)
        else
          var v := u.(role := Admin, isVerified := true);
          match SaveUnique(st.users, v, UserId, UserEmail)
          case None => Bootstrap(st, true)
          case Some(users) => Bootstrap(st.(users := users), true)
  }

  /** With unique identifiers and emails, an existing user with the
      administrator email is elevated in place. */
  lemma ElevatedInPlace(st: Store, env: AdminEnv, k: nat)
    requires Configured(env) && FindUser(st, AdminEmail(env)) == Some(k)
    requires UniqueKeys(st.users, UserId) && UniqueKeys(st.users, UserEmail)
    ensures EnsureAdmin(st, env).store == st.(users := st.users[k := st.users[k].(role := Admin, isVerified := true)])
  {
    var u := st.users[k];
    var v := u.(role := Admin, isVerified := true);
    if u.role == Admin && u.isVerified {
      assert v == u;
      assert st.users[k := v] == st.users;
    } else {
      UpsertInPlace(st.users, v, UserId, k);
      SaveInPlace(st.users, k, v);
    }
  }

  /** The first user carrying an email is the one `FindUser` returns. */
  lemma FirstWithEmail(s: Store, e: string, k: nat)
    requires k < |s.users| && s.users[k].email == e
    requires forall j :: 0 <= j < k ==> s.users[j].email != e
    ensures FindUser(s, e) == Some(k)
  {
    assert EmailTaken(s, e);
  }

  /** After a configured bootstrap with unique emails, the user with the
      administrator email is an administrator and verified. */
  lemma BootstrapLeavesAdmin(st: Store, env: AdminEnv)
    requires Configured(env)
    requires UniqueKeys(st.users, UserId) && UniqueKeys(st.users, UserEmail)
    ensures var s := EnsureAdmin(st, env).store;
            && FindUser(s, AdminEmail(env)).Some?
            && s.users[FindUser(s, AdminEmail(env)).value].role == Admin
            && s.users[FindUser(s, AdminEmail(env)).value].isVerified
  {
    var email := AdminEmail(env);
    var s := EnsureAdmin(st, env).store;
    match FindUser(st, email)
    case None =>
      var n := |st.users|;
      assert s.users == st.users + [NewAdmin(st, env)];
      assert forall j :: 0 <= j < n ==> s.users[j] == st.users[j];
      FirstWithEmail(s, email, n);
    case Some(k) =>
      ElevatedInPlace(st, env, k);
      assert forall j :: 0 <= j < k ==> s.users[j] == st.users[j];
      FirstWithEmail(s, email, k);
  }

  /** The bootstrap is idempotent: with unique emails and identifiers, a
      second run writes nothing and leaves the store as the first left it. */
  lemma EnsureAdminIdempotent(st: Store, env: AdminEnv)
    requires UniqueKeys(st.users, UserId) && UniqueKeys(st.users, UserEmail)
    ensures var s := EnsureAdmin(st, env).store;
            EnsureAdmin(s, env) == Bootstrap(s, false)
  {
    if Configured(env) {
      BootstrapLeavesAdmin(st, env);
      var s := EnsureAdmin(st, env).store;
      assert EmailTaken(s, AdminEmail(env));
    }
  }
}

=== FILE: bookings.dfy ===
/** The booking controller: creation (checked inside a transaction, with a
    single non-transactional retry), cancellation and payment marking, as
    pure functions from a request and a store to a reply and a new store. */
module Bookings {
  import opened Wrappers
  import opened Seqs
  import opened Keyed
  import opened Text
  import opened Records
  import opened Seats

  /** The flat rate per seat. */
  const PerSeat: nat := 10

  /** `calcPrice`: the total for `seatCount` seats. The bus and the route
      are accepted by the source but do not affect the price. */
  function CalcPrice(seatCount: nat): (p: nat)
    ensures p % PerSeat == 0 && p / PerSeat == seatCount
  {
    seatCount * PerSeat
  }

  /** `isTxnError`: the errors after which the transactional attempt is
      abandoned for a plain one: code 251, code name `NoSuchTransaction`,
      or the `TransientTransactionError` label. */
  predicate IsTxnError(e: DbError) {
    || e.code == Some(251)
    || e.codeName == Some("NoSuchTransaction")
    || "TransientTransactionError" in e.labels
  }

  /** The date field after `normalizeDate`: a calendar day, or a value
      `new Date` cannot parse. */
  datatype DateInput = Calendar(day: Day) | Unparseable

  /** The body of `POST /bookings`. `None` stands for a missing or falsy
      field; for `notes` it stands for any value that is not a string. */
  datatype BookingRequest = BookingRequest(
    busId: Option<Id>,
    routeId: Option<Id>,
    travelDate: Option<DateInput>,
    seatNumber: Option<SeatInput>,
    notes: Option<string>)

  /** The end of one run of the check-then-write sequence: a reply was sent,
      or the storage layer threw. */
  datatype RunResult = Responded(outcome: Outcome) | Threw(error: DbError)

  /** The record `run` writes on success. */
  function NewBooking(st: Store, user: Id, bus: Id, route: Id, day: Day, seats: seq<int>,
                      notes: Option<string>, reference: string): (b: Booking)
    ensures b.status == Booked && b.paymentStatus == Pending
    ensures b.totalPrice == PerSeat * |seats|
    ensures b.seatNumber == seats && b.bookingReference == reference
    ensures b.user == user && b.bus == bus && b.route == route && b.travelDate == day
    ensures notes.None? ==> b.notes.None?
    ensures notes.Some? ==> b.notes == Some(Trim(notes.value))
    ensures forall i :: 0 <= i < |st.bookings| ==> st.bookings[i].id != b.id
  {
    Booking(FreshId(st.bookings, BookingId), user, bus, route, day, seats, CalcPrice(|seats|),
            Booked, Pending, reference,
            match notes case Some(n) => Some(Trim(n)) case None => None)
  }

  /** The bus, route and user of a request exist and the route belongs to the bus. */
  predicate Located(st: Store, busId: Id, routeId: Id, userId: Id) {
    && FindById(st.buses, BusId, busId).Some?
    && FindById(st.routes, RouteId, routeId).Some?
    && FindById(st.users, UserId, userId).Some?
    && st.routes[FindById(st.routes, RouteId, routeId).value].bus == busId
  }

  /** Every requested seat is at most the capacity of the bus `busId`. */
  predicate WithinCapacity(st: Store, busId: Id, seats: seq<int>)
    requires FindById(st.buses, BusId, busId).Some?
  {
    forall i :: 0 <= i < |seats| ==> seats[i] <= st.buses[FindById(st.buses, BusId, busId).value].capacity
  }

  /** No requested seat is held by a "booked" booking of the bus on that day. */
  predicate Free(st: Store, busId: Id, day: Day, seats: seq<int>) {
    forall i, k :: 0 <= i < |seats| && 0 <= k < |st.bookings| && Holds(st.bookings[k], busId, day)
      ==> seats[i] !in st.bookings[k].seatNumber
  }

  /** The bus, route and user of a request all exist. */
  predicate Found(st: Store, busId: Id, routeId: Id, userId: Id) {
    && FindById(st.buses, BusId, busId).Some?
    && FindById(st.routes, RouteId, routeId).Some?
    && FindById(st.users, UserId, userId).Some?
  }

  const RouteMismatch := "Route does not belong to bus"
  const InvalidSeatsPrefix := "Invalid seat numbers: "

  /** The whole check `run` makes before it writes. */
  predicate Admissible(st: Store, busId: Id, routeId: Id, userId: Id, day: Day, seats: seq<int>) {
    Located(st, busId, routeId, userId) && WithinCapacity(st, busId, seats) && Free(st, busId, day, seats)
  }

  /** No stored booking carries `reference` yet. */
  predicate ReferenceFree(bs: seq<Booking>, reference: string) {
    forall i :: 0 <= i < |bs| ==> bs[i].bookingReference != reference
  }

  /** `run`: look the bus, route and user up, check that the route belongs to
      the bus and that every seat is within capacity, compute the taken
      seats, refuse clashes, and write the booking. The write goes through
      the unique index on `bookingReference`, whose violation throws. */
  function Run(st: Store, busId: Id, routeId: Id, userId: Id, day: Day, seats: seq<int>,
               notes: Option<string>, reference: string): (r: RunResult)
    ensures r.Threw? ==> r.error == DuplicateKey
    ensures r.Responded? && r.outcome.reply.status != 201 ==> r.outcome.store == st
    ensures r.Responded? ==> r.outcome.reply.status in {201, 400, 404, 409}
    ensures (r.Responded? && r.outcome.reply.status == 404) <==> !Found(st, busId, routeId, userId)
    ensures (r.Responded? && r.outcome.reply.status == 400 && r.outcome.reply.message == RouteMismatch)
              <==> Found(st, busId, routeId, userId) && !Located(st, busId, routeId, userId)
    ensures (r.Responded? && r.outcome.reply.status == 400)
              <==> (Found(st, busId, routeId, userId) && !Located(st, busId, routeId, userId))
                   || (Located(st, busId, routeId, userId) && !WithinCapacity(st, busId, seats))
    ensures r.Responded? && r.outcome.reply.status == 400 ==>
              r.outcome.reply.message == RouteMismatch || InvalidSeatsPrefix <= r.outcome.reply.message
    ensures (r.Responded? && r.outcome.reply.status == 201)
              <==> Admissible(st, busId, routeId, userId, day, seats) && ReferenceFree(st.bookings, reference)
    ensures r.Threw? <==>
              Admissible(st, busId, routeId, userId, day, seats) && !ReferenceFree(st.bookings, reference)
    ensures (r.Responded? && r.outcome.reply.status == 409)
              <==> Located(st, busId, routeId, userId) && WithinCapacity(st, busId, seats)
                   && !Free(st, busId, day, seats)
    ensures r.Responded? && r.outcome.reply.status == 409 ==>
              r.outcome.reply.payload == SeatList(Clashes(seats, TakenSeats(st.bookings, busId, day)))
  {
    match FindById(st.buses, BusId, busId)
    case None => Responded(Answer(st, 404, "Bus not found"))
    case Some(bi) =>
      match FindById(st.routes, RouteId, routeId)
      case None => Responded(Answer(st, 404, "Route not found"))
      case Some(ri) =>
        match FindById(st.users, UserId, userId)
        case None => Responded(Answer(st, 404, "User not found"))
        case Some(_) =>
          var bus := st.buses[bi];
          if st.routes[ri].bus != bus.id then
            Responded(Answer(st, 400, RouteMismatch))
          else
            var invalid := OverCapacity(seats, bus.capacity);
            if |invalid| > 0 then
              var message := InvalidSeatsPrefix + JoinNumbers(invalid, ",");
              assert message[0] != RouteMismatch[0];
              Responded(Outcome(Reply(400, message, NoPayload), st))
            else
              var clashes := Clashes(seats, TakenSeats(st.bookings, bus.id, day));
              if |clashes| > 0 then
                Responded(Outcome(Reply(409, "Seats already booked", SeatList(clashes)), st))
              else
                var b := NewBooking(st, userId, bus.id, routeId, day, seats, notes, reference);
                match SaveUnique(st.bookings, b, BookingId, BookingRef)
                case None => Threw(DuplicateKey)
                case Some(bs) =>
                  Responded(Outcome(Reply(201, "Booking created", BookingBody(b)),
                                    st.(bookings := bs)))
  }

  /** The four fields `createBooking` requires are present and truthy. */
  predicate FieldsPresent(req: BookingRequest) {
    req.busId.Some? && req.routeId.Some? && req.travelDate.Some? && req.seatNumber.Some?
  }

  const MissingFields := "busId, routeId, travelDate, seatNumber required"
  const NoValidSeats := "Valid seatNumber array required"
  const InvalidDate := "Invalid travelDate"

  /** `createBooking`, with the transaction committed before the reply is
      sent. The request is validated before any storage access; then `run`
      is attempted inside a transaction. `txnFault` is the error the storage
      layer throws during that attempt or at its commit, if any (the
      transaction is then aborted, so the store is as before). After an `IsTxnError`
      error, and only then, `run` is repeated once without a transaction,
      where `fallbackFault` is the error thrown during that second attempt.
      Every other error ends in 500. `txnRef` and `fallbackRef` are the
      references `generateBookingRef` draws in the two attempts. */
  function CreateBooking(st: Store, req: BookingRequest, userId: Option<Id>,
                         txnRef: string, fallbackRef: string,
                         txnFault: Option<DbError>, fallbackFault: Option<DbError>): (o: Outcome)
    ensures o.reply.status in {201, 400, 401, 404, 409, 500}
    ensures o.reply.status != 201 ==> o.store == st
    ensures o.reply.status == 201 ==>
              o.reply.payload.BookingBody? && o.store == st.(bookings := st.bookings + [o.reply.payload.booking])
  {
    if !FieldsPresent(req) then Answer(st, 400, MissingFields)
    else
      var seats := CleanSeats(req.seatNumber.value);
      if |seats| == 0 then Answer(st, 400, NoValidSeats)
      else if req.travelDate.value.Unparseable? then Answer(st, 400, InvalidDate)
      else if userId.None? then Answer(st, 401, "Unauthorized")
      else
        var day := req.travelDate.value.day;
        var attempt :=
          if txnFault.Some? then Threw(txnFault.value)
          else Run(st, req.busId.value, req.routeId.value, userId.value, day, seats, req.notes, txnRef);
        match attempt
        case Responded(o) => RunAppends(st, req.busId.value, req.routeId.value, userId.value, day, seats, req.notes, txnRef); o
        case Threw(e) =>
          if IsTxnError(e) then
            var fallback :=
              if fallbackFault.Some? then Threw(fallbackFault.value)
              else Run(st, req.busId.value, req.routeId.value, userId.value, day, seats, req.notes, fallbackRef);
            match fallback
            case Responded(o) => RunAppends(st, req.busId.value, req.routeId.value, userId.value, day, seats, req.notes, fallbackRef); o
            case Threw(_) => ServerError(st)
          else ServerError(st)
  }

  /** The checks `createBooking` makes before any storage access, in
      order: a missing field, no valid seat, an unparseable date (each a
      400 with its own message), then no authenticated user (401). */
  lemma ValidationReplies(st: Store, req: BookingRequest, userId: Option<Id>,
                          txnRef: string, fallbackRef: string,
                          txnFault: Option<DbError>, fallbackFault: Option<DbError>)
    ensures var o := CreateBooking(st, req, userId, txnRef, fallbackRef, txnFault, fallbackFault);
            && (!FieldsPresent(req) ==> o.reply == Reply(400, MissingFields, NoPayload))
            && (FieldsPresent(req) && |CleanSeats(req.seatNumber.value)| == 0 ==>
                  o.reply == Reply(400, NoValidSeats, NoPayload))
            && (FieldsPresent(req) && |CleanSeats(req.seatNumber.value)| > 0 && req.travelDate.value.Unparseable? ==>
                  o.reply == Reply(400, InvalidDate, NoPayload))
    ensures CreateBooking(st, req, userId, txnRef, fallbackRef, txnFault, fallbackFault).reply.status == 401
            <==> && FieldsPresent(req) && |CleanSeats(req.seatNumber.value)| > 0
                 && req.travelDate.value.Calendar? && userId.None?
  {
  }

  /** A validation 400 is sent exactly when the request fails one of the
      checks before the user check: no later reply reuses their messages. */
  lemma ValidationIs400(st: Store, req: BookingRequest, userId: Option<Id>,
                        txnRef: string, fallbackRef: string,
                        txnFault: Option<DbError>, fallbackFault: Option<DbError>)
    ensures var o := CreateBooking(st, req, userId, txnRef, fallbackRef, txnFault, fallbackFault);
            (o.reply.status == 400 && o.reply.message in {MissingFields, NoValidSeats, InvalidDate})
            <==> !WellFormed(req, userId) && o.reply.status != 401
  {
    if WellFormed(req, userId) {
      var o := CreateBooking(st, req, userId, txnRef, fallbackRef, txnFault, fallbackFault);
      var day := req.travelDate.value.day;
      var seats := CleanSeats(req.seatNumber.value);
      // The validation messages are neither `run`'s mismatch message nor
      // prefixed like its seat message: they differ at the prefix's last
      // position, or are shorter than the prefix.
      assert InvalidSeatsPrefix[21] == ' ' && MissingFields[21] == 'l' && NoValidSeats[21] == 'y';
      if o.reply.status == 400 {
        var first := if txnFault.Some? then Threw(txnFault.value)
                     else Run(st, req.busId.value, req.routeId.value, userId.value, day, seats, req.notes, txnRef);
        var second := if fallbackFault.Some? then Threw(fallbackFault.value)
                      else Run(st, req.busId.value, req.routeId.value, userId.value, day, seats, req.notes, fallbackRef);
        assert (first.Responded? && o == first.outcome) || (second.Responded? && o == second.outcome);
      }
    }
  }

  /** `createBooking` as written: `run` sends its reply inside the
      transaction, and the commit comes after it. A `commitFault` at that
      commit can no longer change the reply; the transaction is aborted,
      and after an `IsTxnError` error `run` is repeated without a
      transaction, whose writes stay while its own reply is refused because
      the headers were already sent. */
  function CreateBookingAsWritten(st: Store, req: BookingRequest, userId: Option<Id>,
                                  txnRef: string, fallbackRef: string, txnFault: Option<DbError>,
                                  commitFault: Option<DbError>, fallbackFault: Option<DbError>): (o: Outcome)
    ensures o.reply == CreateBooking(st, req, userId, txnRef, fallbackRef, txnFault, fallbackFault).reply
    ensures commitFault.None? ==> o == CreateBooking(st, req, userId, txnRef, fallbackRef, txnFault, fallbackFault)
    ensures commitFault.Some? && txnFault.None? && !IsTxnError(commitFault.value) ==> o.store == st
  {
    var o := CreateBooking(st, req, userId, txnRef, fallbackRef, txnFault, fallbackFault);
    if commitFault.None? || txnFault.Some? || !WellFormed(req, userId) then o
    else
      var day := req.travelDate.value.day;
      var seats := CleanSeats(req.seatNumber.value);
      var first := Run(st, req.busId.value, req.routeId.value, userId.value, day, seats, req.notes, txnRef);
      if first.Threw? then o
      else
        UnfaultedIsRun(st, req, userId, txnRef, fallbackRef, fallbackFault);
        if !IsTxnError(commitFault.value) then Outcome(first.outcome.reply, st)
        else
          var again :=
            if fallbackFault.Some? then Threw(fallbackFault.value)
            else Run(st, req.busId.value, req.routeId.value, userId.value, day, seats, req.notes, fallbackRef);
          Outcome(first.outcome.reply, if again.Responded? then again.outcome.store else st)
  }

  /** As written, a commit that fails with an error other than a
      transaction error leaves a client told 201 "Booking created" with
      nothing stored. */
  lemma ReplyBeforeCommitLosesBooking(st: Store, req: BookingRequest, userId: Option<Id>,
                                      txnRef: string, fallbackRef: string, e: DbError,
                                      fallbackFault: Option<DbError>)
    ensures var sent := CreateBookingAsWritten(st, req, userId, txnRef, fallbackRef, None, Some(e), fallbackFault);
            CreateBooking(st, req, userId, txnRef, fallbackRef, None, fallbackFault).reply.status == 201
              && !IsTxnError(e)
            ==> sent.reply.status == 201 && sent.reply.payload.BookingBody? && sent.store == st
                && sent.reply.payload.booking !in sent.store.bookings
  {
    var o := CreateBooking(st, req, userId, txnRef, fallbackRef, None, fallbackFault);
    if o.reply.status == 201 && !IsTxnError(e) {
      CreatedByRun(st, req, userId, txnRef, fallbackRef, None, fallbackFault);
      var busId, routeId, uid := req.busId.value, req.routeId.value, userId.value;
      var day, seats := req.travelDate.value.day, CleanSeats(req.seatNumber.value);
      UnfaultedIsRun(st, req, userId, txnRef, fallbackRef, fallbackFault);
      RunAppends(st, busId, routeId, uid, day, seats, req.notes, txnRef);
      var b := NewBooking(st, uid, busId, routeId, day, seats, req.notes, txnRef);
      assert forall i :: 0 <= i < |st.bookings| ==> st.bookings[i].id != b.id;
    }
  }

  /** As written, a commit that fails with a transaction error stores the
      booking of the retry, under the retry's reference, while the client
      holds the booking of the first attempt, which is not stored. */
  lemma CommitRetryStoresOtherBooking(st: Store, req: BookingRequest, userId: Option<Id>,
                                      txnRef: string, fallbackRef: string, e: DbError)
    requires IsTxnError(e) && txnRef != fallbackRef
    ensures var sent := CreateBookingAsWritten(st, req, userId, txnRef, fallbackRef, None, Some(e), None);
            CreateBooking(st, req, userId, txnRef, fallbackRef, None, None).reply.status == 201
              && ReferenceFree(st.bookings, fallbackRef)
            ==> && sent.reply.status == 201 && sent.reply.payload.BookingBody?
                && sent.reply.payload.booking.bookingReference == txnRef
                && |sent.store.bookings| == |st.bookings| + 1
                && sent.store.bookings[|st.bookings|].bookingReference == fallbackRef
  {
    var o := CreateBooking(st, req, userId, txnRef, fallbackRef, None, None);
    if o.reply.status == 201 && ReferenceFree(st.bookings, fallbackRef) {
      var busId, routeId, uid := req.busId.value, req.routeId.value, userId.value;
      var day, seats := req.travelDate.value.day, CleanSeats(req.seatNumber.value);
      UnfaultedIsRun(st, req, userId, txnRef, fallbackRef, None);
      RunAppends(st, busId, routeId, uid, day, seats, req.notes, txnRef);
      RunAppends(st, busId, routeId, uid, day, seats, req.notes, fallbackRef);
    }
  }

  /** A successful run appends exactly the booking it replies with, and
      that booking is one `NewBooking` built from the request. */
  lemma RunAppends(st: Store, busId: Id, routeId: Id, userId: Id, day: Day, seats: seq<int>,
                   notes: Option<string>, reference: string)
    ensures var r := Run(st, busId, routeId, userId, day, seats, notes, reference);
            r.Responded? && r.outcome.reply.status == 201 ==>
              && r.outcome.reply.payload == BookingBody(NewBooking(st, userId, busId, routeId, day, seats, notes, reference))
              && r.outcome.store == st.(bookings := st.bookings + [NewBooking(st, userId, busId, routeId, day, seats, notes, reference)])
  {
    var b := NewBooking(st, userId, busId, routeId, day, seats, notes, reference);
    assert FindById(st.bookings, BookingId, b.id).None?;
  }

  /** Appending a booking whose seats no "booked" booking of the same bus
      and day holds keeps the store free of double bookings. */
  lemma AppendKeepsNoDoubleBooking(bs: seq<Booking>, b: Booking)
    requires NoDoubleBooking(bs)
    requires forall k, s :: 0 <= k < |bs| && Holds(bs[k], b.bus, b.travelDate) && s in bs[k].seatNumber
               ==> s !in b.seatNumber
    ensures NoDoubleBooking(bs + [b])
  {
    var r := bs + [b];
    forall i, j, s | 0 <= i < j < |r| && Holds(r[i], r[j].bus, r[j].travelDate)
      && Holds(r[j], r[j].bus, r[j].travelDate) && s in r[i].seatNumber
      ensures s !in r[j].seatNumber
    {
      if j == |bs| {
        assert r[i] == bs[i];
      } else {
        assert r[i] == bs[i] && r[j] == bs[j];
      }
    }
  }

  /** A run that replies keeps the bookings collection valid (unique
      identifiers and references, schema-valid documents, no seat held
      twice), provided the seats it was given are clean; the other
      collections are untouched. */
  lemma RunKeepsValid(st: Store, busId: Id, routeId: Id, userId: Id, day: Day, seats: seq<int>,
                      notes: Option<string>, reference: string)
    requires BookingsValid(st.bookings)
    requires |seats| > 0 && forall i :: 0 <= i < |seats| ==> seats[i] > 0
    ensures var r := Run(st, busId, routeId, userId, day, seats, notes, reference);
            r.Responded? ==>
              && BookingsValid(r.outcome.store.bookings)
              && r.outcome.store.(bookings := st.bookings) == st
  {
    var r := Run(st, busId, routeId, userId, day, seats, notes, reference);
    if r.Responded? && r.outcome.reply.status == 201 {
      RunAppends(st, busId, routeId, userId, day, seats, notes, reference);
      var b := NewBooking(st, userId, busId, routeId, day, seats, notes, reference);
      var bs := st.bookings + [b];
      assert Free(st, busId, day, seats);
      AppendKeepsNoDoubleBooking(st.bookings, b);
      var saved := SaveUnique(st.bookings, b, BookingId, BookingRef);
      assert saved.Some?;
      assert forall i :: 0 <= i < |bs| ==> BookingSchemaValid(bs[i]) by {
        forall i | 0 <= i < |bs| ensures BookingSchemaValid(bs[i]) {
          if i < |st.bookings| { assert bs[i] == st.bookings[i]; }
        }
      }
    }
  }

  /** `createBooking` keeps the bookings collection valid on every path:
      the sequential no-double-booking invariant in particular is
      preserved. It never touches users, buses or routes. */
  lemma CreateKeepsValid(st: Store, req: BookingRequest, userId: Option<Id>,
                         txnRef: string, fallbackRef: string,
                         txnFault: Option<DbError>, fallbackFault: Option<DbError>)
    requires BookingsValid(st.bookings)
    ensures var o := CreateBooking(st, req, userId, txnRef, fallbackRef, txnFault, fallbackFault);
            BookingsValid(o.store.bookings) && o.store.(bookings := st.bookings) == st
  {
    var o := CreateBooking(st, req, userId, txnRef, fallbackRef, txnFault, fallbackFault);
    CreatedByRun(st, req, userId, txnRef, fallbackRef, txnFault, fallbackFault);
    if o.reply.status == 201 {
      var seats := CleanSeats(req.seatNumber.value);
      var day := req.travelDate.value.day;
      var reference := if RunCreated(st, req, userId, txnRef, o) then txnRef else fallbackRef;
      RunKeepsValid(st, req.busId.value, req.routeId.value, userId.value, day, seats, req.notes, reference);
    }
  }

  /** A request that passes the validation done before any storage access. */
  predicate WellFormed(req: BookingRequest, userId: Option<Id>) {
    && FieldsPresent(req)
    && |CleanSeats(req.seatNumber.value)| > 0 && req.travelDate.value.Calendar? && userId.Some?
  }

  /** `o` is the 201 outcome of a run of the request with `reference`. */
  predicate RunCreated(st: Store, req: BookingRequest, userId: Option<Id>, reference: string, o: Outcome)
    requires WellFormed(req, userId)
  {
    var r := Run(st, req.busId.value, req.routeId.value, userId.value, req.travelDate.value.day,
                 CleanSeats(req.seatNumber.value), req.notes, reference);
    r.Responded? && r.outcome == o && o.reply.status == 201
  }

  /** A 201 from `createBooking` comes from a well-formed request and is the
      reply of one of its two runs. */
  lemma CreatedByRun(st: Store, req: BookingRequest, userId: Option<Id>,
                     txnRef: string, fallbackRef: string,
                     txnFault: Option<DbError>, fallbackFault: Option<DbError>)
    ensures var o := CreateBooking(st, req, userId, txnRef, fallbackRef, txnFault, fallbackFault);
            o.reply.status == 201 ==>
              WellFormed(req, userId)
              && (RunCreated(st, req, userId, txnRef, o) || RunCreated(st, req, userId, fallbackRef, o))
  {
  }

  /** A run that creates a booking replies with the `NewBooking` of the
      request, none of whose seats is already taken on that bus and day. */
  lemma RunCreatesFreeBooking(st: Store, busId: Id, routeId: Id, userId: Id, day: Day, seats: seq<int>,
                              notes: Option<string>, reference: string)
    ensures var r := Run(st, busId, routeId, userId, day, seats, notes, reference);
            r.Responded? && r.outcome.reply.status == 201 ==>
              && r.outcome.reply.payload == BookingBody(NewBooking(st, userId, busId, routeId, day, seats, notes, reference))
              && forall s :: s in seats ==> s !in TakenSeats(st.bookings, busId, day)
  {
    var r := Run(st, busId, routeId, userId, day, seats, notes, reference);
    RunAppends(st, busId, routeId, userId, day, seats, notes, reference);
    if r.Responded? && r.outcome.reply.status == 201 {
      assert Free(st, busId, day, seats);
      forall s | s in seats ensures s !in TakenSeats(st.bookings, busId, day) {
        var i :| 0 <= i < |seats| && seats[i] == s;
        assert forall k :: 0 <= k < |st.bookings| && Holds(st.bookings[k], busId, day)
                 ==> s !in st.bookings[k].seatNumber;
      }
    }
  }

  /** The booking a successful `createBooking` writes: status "booked",
      payment "pending", the cleaned seats, ten per seat, the notes trimmed
      when they are a string, on the requested bus, route and day for the
      requesting user; and it holds none of the seats already taken. */
  lemma CreatedBooking(st: Store, req: BookingRequest, userId: Option<Id>,
                       txnRef: string, fallbackRef: string,
                       txnFault: Option<DbError>, fallbackFault: Option<DbError>)
    ensures var o := CreateBooking(st, req, userId, txnRef, fallbackRef, txnFault, fallbackFault);
            o.reply.status == 201 ==>
              var b := o.reply.payload.booking;
              && WellFormed(req, userId)
              && b.status == Booked && b.paymentStatus == Pending
              && b.seatNumber == CleanSeats(req.seatNumber.value)
              && b.totalPrice == PerSeat * |CleanSeats(req.seatNumber.value)|
              && (req.notes.Some? ==> b.notes == Some(Trim(req.notes.value)))
              && (req.notes.None? ==> b.notes.None?)
              && b.bus == req.busId.value && b.route == req.routeId.value
              && b.travelDate == req.travelDate.value.day && b.user == userId.value
              && BookingSchemaValid(b)
              && (forall s :: s in b.seatNumber ==> s !in TakenSeats(st.bookings, b.bus, b.travelDate))
  {
    var o := CreateBooking(st, req, userId, txnRef, fallbackRef, txnFault, fallbackFault);
    CreatedByRun(st, req, userId, txnRef, fallbackRef, txnFault, fallbackFault);
    if o.reply.status == 201 {
      var seats := CleanSeats(req.seatNumber.value);
      var day := req.travelDate.value.day;
      var reference := if RunCreated(st, req, userId, txnRef, o) then txnRef else fallbackRef;
      RunCreatesFreeBooking(st, req.busId.value, req.routeId.value, userId.value, day, seats, req.notes, reference);
    }
  }

  /** When the transactional attempt fails with a transaction error and the
      plain attempt runs through, the reply and the store are exactly those a
      transactional attempt with the same reference would have produced. */
  lemma FallbackMatchesTransaction(st: Store, req: BookingRequest, userId: Option<Id>,
                                   txnRef: string, fallbackRef: string, e: DbError, otherRef: string)
    requires IsTxnError(e)
    ensures CreateBooking(st, req, userId, txnRef, fallbackRef, Some(e), None)
         == CreateBooking(st, req, userId, fallbackRef, otherRef, None, None)
  {
  }

  /** Without a storage fault, a well-formed request whose transactional
      run replies ends with that reply. */
  lemma UnfaultedIsRun(st: Store, req: BookingRequest, userId: Option<Id>,
                       txnRef: string, fallbackRef: string, fallbackFault: Option<DbError>)
    requires WellFormed(req, userId)
    ensures var r := Run(st, req.busId.value, req.routeId.value, userId.value, req.travelDate.value.day,
                         CleanSeats(req.seatNumber.value), req.notes, txnRef);
            r.Responded? ==> CreateBooking(st, req, userId, txnRef, fallbackRef, None, fallbackFault) == r.outcome
  {
  }

  /** Any error other than a transaction error, and any error in the plain
      retry, ends a well-formed request in 500 without a write. */
  lemma ErrorsEndIn500(st: Store, req: BookingRequest, userId: Option<Id>,
                       txnRef: string, fallbackRef: string, e: DbError, e2: DbError)
    requires WellFormed(req, userId)
    ensures !IsTxnError(e) ==>
              CreateBooking(st, req, userId, txnRef, fallbackRef, Some(e), None) == ServerError(st)
    ensures IsTxnError(e) ==>
              CreateBooking(st, req, userId, txnRef, fallbackRef, Some(e), Some(e2)) == ServerError(st)
  {
  }

  /** A duplicate booking reference is not a transaction error, so the
      unique-index failure is never retried: it ends in 500. */
  lemma DuplicateReferenceIs500(st: Store, req: BookingRequest, userId: Option<Id>,
                                txnRef: string, fallbackRef: string, fallbackFault: Option<DbError>)
    ensures && WellFormed(req, userId)
            && Admissible(st, req.busId.value, req.routeId.value, userId.value,
                          req.travelDate.value.day, CleanSeats(req.seatNumber.value))
            && !ReferenceFree(st.bookings, txnRef)
            ==> CreateBooking(st, req, userId, txnRef, fallbackRef, None, fallbackFault) == ServerError(st)
  {
    assert !IsTxnError(DuplicateKey);
  }

  /** A well-formed request whose seats meet a seat already taken on that
      bus and day is refused with 409 carrying exactly the clashing seats in
      request order, and nothing is written. */
  lemma ConflictIs409(st: Store, req: BookingRequest, userId: Option<Id>,
                      txnRef: string, fallbackRef: string, fallbackFault: Option<DbError>)
    ensures && WellFormed(req, userId)
            && Located(st, req.busId.value, req.routeId.value, userId.value)
            && WithinCapacity(st, req.busId.value, CleanSeats(req.seatNumber.value))
            && !Free(st, req.busId.value, req.travelDate.value.day, CleanSeats(req.seatNumber.value))
            ==> var o := CreateBooking(st, req, userId, txnRef, fallbackRef, None, fallbackFault);
                && o.reply.status == 409 && o.store == st
                && o.reply.payload == SeatList(Clashes(CleanSeats(req.seatNumber.value),
                                                        TakenSeats(st.bookings, req.busId.value, req.travelDate.value.day)))
                && var seats := CleanSeats(req.seatNumber.value);
                   var listed := o.reply.payload.seats;
                   && NoDuplicates(listed)
                   && forall i, j :: 0 <= i < j < |listed| ==> IndexOf(seats, listed[i]) < IndexOf(seats, listed[j])
  {
    if WellFormed(req, userId) {
      UnfaultedIsRun(st, req, userId, txnRef, fallbackRef, fallbackFault);
    }
  }

  /** A well-formed request with a seat above the capacity is refused with
      400 listing exactly the seats above capacity. */
  lemma OverCapacityIs400(st: Store, req: BookingRequest, userId: Option<Id>,
                          txnRef: string, fallbackRef: string, fallbackFault: Option<DbError>)
    requires WellFormed(req, userId)
    requires Located(st, req.busId.value, req.routeId.value, userId.value)
    requires !WithinCapacity(st, req.busId.value, CleanSeats(req.seatNumber.value))
    ensures var o := CreateBooking(st, req, userId, txnRef, fallbackRef, None, fallbackFault);
            var bus := st.buses[FindById(st.buses, BusId, req.busId.value).value];
            && o.reply.status == 400 && o.store == st
            && o.reply.payload == NoPayload
            && o.reply.message == "Invalid seat numbers: " + JoinNumbers(OverCapacity(CleanSeats(req.seatNumber.value), bus.capacity), ",")
  {
    UnfaultedIsRun(st, req, userId, txnRef, fallbackRef, fallbackFault);
  }

  /** `cancelBooking`: 404 for an unknown booking; 403 unless the requester
      owns it or is an admin by the role stored for them; an already
      cancelled booking is answered 200 without a save; otherwise only its
      status flips to "cancelled". */
  function CancelBooking(st: Store, bookingId: Id, requester: Id): (o: Outcome)
    ensures o.reply.status in {200, 403, 404}
    ensures o.store.(bookings := st.bookings) == st && |o.store.bookings| == |st.bookings|
    ensures o.reply.status == 404 <==> FindById(st.bookings, BookingId, bookingId).None?
    ensures o.reply.status != 200 ==> o.store == st
    ensures o.reply.status == 403 <==>
              && FindById(st.bookings, BookingId, bookingId).Some?
              && st.bookings[FindById(st.bookings, BookingId, bookingId).value].user != requester
              && !IsAdmin(st, requester)
    ensures o.reply.status == 200 ==>
              var k := FindById(st.bookings, BookingId, bookingId).value;
              && (st.bookings[k].user == requester || IsAdmin(st, requester))
              && o.store.bookings == st.bookings[k := st.bookings[k].(status := Cancelled)]
              && o.reply.payload == BookingBody(st.bookings[k].(status := Cancelled))
  {
    match FindById(st.bookings, BookingId, bookingId)
    case None => Answer(st, 404, "Not found")
    case Some(k) =>
      var b := st.bookings[k];
      if b.user != requester && !IsAdmin(st, requester) then Answer(st, 403, "Forbidden")
      else if b.status == Cancelled then Outcome(Reply(200, "Already cancelled", BookingBody(b)), st)
      else
        var c := b.(status := Cancelled);
        Outcome(Reply(200, "Booking cancelled", BookingBody(c)), st.(bookings := st.bookings[k := c]))
  }

  /** The requester's stored role is "admin" (a missing user is not). */
  predicate IsAdmin(st: Store, requester: Id) {
    match FindById(st.users, UserId, requester)
    case Some(u) => st.users[u].role == Admin
    case None => false
  }

  /** Cancelling twice is the same as cancelling once, and the second call
      answers 200 "Already cancelled" without writing. */
  lemma CancelIdempotent(st: Store, bookingId: Id, requester: Id)
    requires UniqueKeys(st.bookings, BookingId)
    ensures var once := CancelBooking(st, bookingId, requester);
            var twice := CancelBooking(once.store, bookingId, requester);
            && twice.store == once.store
            && (once.reply.status == 200 ==> twice.reply.status == 200 && twice.reply.message == "Already cancelled")
  {
    var once := CancelBooking(st, bookingId, requester);
    match FindById(st.bookings, BookingId, bookingId)
    case None =>
    case Some(k) =>
      if once.reply.status == 200 {
        assert FindById(once.store.bookings, BookingId, bookingId) == Some(k) by {
          assert once.store.bookings[k].id == bookingId;
        }
        assert once.store.users == st.users;
      }
  }

  /** Replacing one booking by a copy that holds no more seats keeps the
      store free of double bookings. */
  lemma ReplaceKeepsValid(bs: seq<Booking>, k: nat, c: Booking)
    requires BookingsValid(bs) && k < |bs|
    requires c.id == bs[k].id && c.bookingReference == bs[k].bookingReference
    requires c.seatNumber == bs[k].seatNumber && c.totalPrice == bs[k].totalPrice
    requires c.bus == bs[k].bus && c.travelDate == bs[k].travelDate
    requires c.status == Booked ==> bs[k].status == Booked
    ensures BookingsValid(bs[k := c])
  {
    var r := bs[k := c];
    forall i, j, s | 0 <= i < j < |r| && Holds(r[i], r[j].bus, r[j].travelDate)
      && Holds(r[j], r[j].bus, r[j].travelDate) && s in r[i].seatNumber
      ensures s !in r[j].seatNumber
    {
      assert Holds(bs[i], bs[j].bus, bs[j].travelDate) && Holds(bs[j], bs[j].bus, bs[j].travelDate);
    }
  }

  /** Cancelling keeps the bookings collection valid. */
  lemma CancelKeepsValid(st: Store, bookingId: Id, requester: Id)
    requires BookingsValid(st.bookings)
    ensures BookingsValid(CancelBooking(st, bookingId, requester).store.bookings)
  {
    match FindById(st.bookings, BookingId, bookingId)
    case None =>
    case Some(k) =>
      ReplaceKeepsValid(st.bookings, k, st.bookings[k].(status := Cancelled));
  }

  /** Once a "booked" booking is cancelled its seats are no longer taken on
      that bus and day: no separate release step is needed. */
  lemma CancelReleasesSeats(st: Store, bookingId: Id, requester: Id)
    requires BookingsValid(st.bookings)
    ensures var o := CancelBooking(st, bookingId, requester);
            o.reply.status == 200 ==>
              var b := st.bookings[FindById(st.bookings, BookingId, bookingId).value];
              b.status == Booked ==>
                forall s :: s in b.seatNumber ==> s !in TakenSeats(o.store.bookings, b.bus, b.travelDate)
  {
    var o := CancelBooking(st, bookingId, requester);
    if o.reply.status == 200 && st.bookings[FindById(st.bookings, BookingId, bookingId).value].status == Booked {
      var k := FindById(st.bookings, BookingId, bookingId).value;
      var b := st.bookings[k];
      var r := o.store.bookings;
      forall s | s in b.seatNumber
        ensures s !in TakenSeats(r, b.bus, b.travelDate)
      {
        forall j | 0 <= j < |r| && Holds(r[j], b.bus, b.travelDate)
          ensures s !in r[j].seatNumber
        {
          assert j != k;
          assert r[j] == st.bookings[j];
          assert Holds(b, b.bus, b.travelDate);
          if j < k {
            assert Holds(st.bookings[j], st.bookings[k].bus, st.bookings[k].travelDate);
          } else {
            assert Holds(st.bookings[k], st.bookings[j].bus, st.bookings[j].travelDate);
          }
        }
      }
    }
  }

  /** `markBookingPaid`: 404 for an unknown booking, otherwise the payment
      status becomes "paid" whatever the booking status; nothing else of
      the booking changes. */
  function MarkBookingPaid(st: Store, bookingId: Id): (o: Outcome)
    ensures o.reply.status in {200, 404}
    ensures o.reply.status == 404 <==> FindById(st.bookings, BookingId, bookingId).None?
    ensures o.reply.status == 404 ==> o.store == st
    ensures o.reply.status == 200 ==>
              var k := FindById(st.bookings, BookingId, bookingId).value;
              o.store == st.(bookings := st.bookings[k := st.bookings[k].(paymentStatus := Paid)])
  {
    match FindById(st.bookings, BookingId, bookingId)
    case None => Answer(st, 404, "Not found")
    case Some(k) =>
      var p := st.bookings[k].(paymentStatus := Paid);
      Outcome(Reply(200, "Payment updated", BookingBody(p)), st.(bookings := st.bookings[k := p]))
  }

  /** Marking paid keeps the bookings collection valid and never changes a
      booking's status: a cancelled booking can be paid. */
  lemma MarkPaidKeepsValid(st: Store, bookingId: Id)
    requires BookingsValid(st.bookings)
    ensures var o := MarkBookingPaid(st, bookingId);
            && BookingsValid(o.store.bookings)
            && |o.store.bookings| == |st.bookings|
            && forall i :: 0 <= i < |st.bookings| ==> o.store.bookings[i].status == st.bookings[i].status
  {
    match FindById(st.bookings, BookingId, bookingId)
    case None =>
    case Some(k) =>
      ReplaceKeepsValid(st.bookings, k, st.bookings[k].(paymentStatus := Paid));
  }
}

=== FILE: buses.dfy ===
/** The bus controller: creation and partial update of buses, with the bus
    number normalised to trimmed upper case, and deletion. */
module Buses {
  import opened Wrappers
  import opened Keyed
  import opened Text
  import opened Records

  /** `busNumber.trim().toUpperCase()`. */
  function NormaliseNumber(s: string): (r: string)
    ensures |r| <= |s|
    ensures r == [] || (!IsSpace(r[0]) && !IsSpace(r[|r| - 1]))
    ensures forall i :: 0 <= i < |r| ==> !IsAsciiLower(r[i])
  {
    ToUpper(Trim(s))
  }

  /** Normalising a normalised number changes nothing, so a number read
      back from the store normalises to itself. */
  lemma NormaliseIdempotent(s: string)
    ensures NormaliseNumber(NormaliseNumber(s)) == NormaliseNumber(s)
  {
    var n := NormaliseNumber(s);
    TrimOfUnpadded(n);
    assert ToUpper(n) == n;
  }

  /** `Number(capacity)` is finite and positive. `None` stands for a value
      that is not a finite number. */
  predicate PositiveCapacity(c: Option<int>) {
    c.Some? && c.value > 0
  }

  /** The body of `POST /buses`. `capacity` is `None` when the field is
      missing or empty, otherwise what `Number` makes of it. */
  datatype BusForm = BusForm(busNumber: Option<string>, route: Option<Id>, capacity: Option<Option<int>>)

  /** The form passes every check `createBus` makes before it looks at the store. */
  predicate Acceptable(f: BusForm, file: Option<Upload>) {
    Truthy(f.busNumber) && f.route.Some? && f.capacity.Some?
    && PositiveCapacity(f.capacity.value) && file.Some?
  }

  /** A stored bus already has the number `n`. */
  predicate NumberTaken(st: Store, n: string) {
    exists i :: 0 <= i < |st.buses| && st.buses[i].busNumber == n
  }

  /** The bus `createBus` writes: no name, an empty description. */
  function NewBus(st: Store, f: BusForm, file: Upload): (b: Bus)
    requires Acceptable(f, Some(file))
    ensures b.busNumber == NormaliseNumber(f.busNumber.value)
    ensures b.route == f.route && b.capacity == f.capacity.value.value && b.capacity > 0
    ensures b.imageUrl == file.path && b.imagePublicId == file.filename
    ensures b.busName == "" && b.description == ""
    ensures forall i :: 0 <= i < |st.buses| ==> st.buses[i].id != b.id
  {
    Bus(FreshId(st.buses, BusId), "", NormaliseNumber(f.busNumber.value), f.route,
        f.capacity.value.value, file.path, file.filename, "")
  }

  /** `createBus`: 400 for a missing number, route or capacity, for a
      capacity that is not a positive number and for a missing image; 409
      when a bus has the normalised number; otherwise the bus is written. */
  function CreateBus(st: Store, f: BusForm, file: Option<Upload>): (o: Outcome)
    ensures o.reply.status in {201, 400, 409, 500}
    ensures o.reply.status != 201 ==> o.store == st
    ensures o.reply.status == 400 <==> !Acceptable(f, file)
    ensures o.reply.status == 409 <==>
              Acceptable(f, file) && NumberTaken(st, NormaliseNumber(f.busNumber.value))
    ensures o.reply.status == 201 ==>
              && Acceptable(f, file) && o.reply.payload.BusBody?
              && o.reply.payload.bus == NewBus(st, f, file.value)
              && o.store == st.(buses := st.buses + [o.reply.payload.bus])
              && !NumberTaken(st, o.reply.payload.bus.busNumber)
  {
    if !Truthy(f.busNumber) || f.route.None? || f.capacity.None? then
      Answer(st, 400, "busNumber, route, capacity are required")
    else if !PositiveCapacity(f.capacity.value) then
      Answer(st, 400, "capacity must be a positive number")
    else if file.None? then Answer(st, 400, "Image is required")
    else if NumberTaken(st, NormaliseNumber(f.busNumber.value)) then
      Answer(st, 409, "Bus number already exists")
    else
      var bus := NewBus(st, f, file.value);
      match SaveUnique(st.buses, bus, BusId, BusNumber)
      case None => ServerError(st)
      case Some(bs) =>
        assert FindById(st.buses, BusId, bus.id).None?;
        Outcome(Reply(201, "Bus created", BusBody(bus)), st.(buses := bs))
  }

  /** Since the controller checks the normalised number first, the unique
      index on the bus number never refuses a `createBus` write. (The
      schema's required-field validators, which are not modelled, would.) */
  lemma CreateBusNever500(st: Store, f: BusForm, file: Option<Upload>)
    ensures CreateBus(st, f, file).reply.status != 500
  {
    if Acceptable(f, file) && !NumberTaken(st, NormaliseNumber(f.busNumber.value)) {
      var bus := NewBus(st, f, file.value);
      assert SaveUnique(st.buses, bus, BusId, BusNumber).Some?;
    }
  }

  /** `createBus` keeps the bus identifiers and numbers unique. */
  lemma CreateBusKeepsUnique(st: Store, f: BusForm, file: Option<Upload>)
    requires UniqueKeys(st.buses, BusId) && UniqueKeys(st.buses, BusNumber)
    ensures var o := CreateBus(st, f, file);
            UniqueKeys(o.store.buses, BusId) && UniqueKeys(o.store.buses, BusNumber)
  {
    var o := CreateBus(st, f, file);
    if o.reply.status == 201 {
      AppendKeepsUnique(st.buses, o.reply.payload.bus, BusId);
      AppendKeepsUnique(st.buses, o.reply.payload.bus, BusNumber);
    }
  }

  /** The body of `PUT /buses/:id`: every field optional. `capacity` is
      `None` when it is `undefined`, otherwise what `Number` makes of it. */
  datatype BusPatch = BusPatch(busNumber: Option<string>, route: Option<Id>, capacity: Option<Option<int>>)

  /** The patch gives a number that differs, once normalised, from the
      stored one. */
  predicate Renumbers(p: BusPatch, cur: Bus) {
    Truthy(p.busNumber) && NormaliseNumber(p.busNumber.value) != cur.busNumber
  }

  /** The bus with the supplied fields applied. */
  function PatchedBus(cur: Bus, p: BusPatch, file: Option<Upload>): (b: Bus)
    requires p.capacity.Some? ==> PositiveCapacity(p.capacity.value)
    ensures b.id == cur.id && b.busName == cur.busName && b.description == cur.description
    ensures b.busNumber == (if Renumbers(p, cur) then NormaliseNumber(p.busNumber.value) else cur.busNumber)
    ensures b.capacity == (if p.capacity.Some? then p.capacity.value.value else cur.capacity)
    ensures b.route == (if p.route.Some? then p.route else cur.route)
    ensures file.None? ==> b.imageUrl == cur.imageUrl && b.imagePublicId == cur.imagePublicId
    ensures file.Some? ==> b.imageUrl == file.value.path && b.imagePublicId == file.value.filename
  {
    var numbered := if Renumbers(p, cur) then cur.(busNumber := NormaliseNumber(p.busNumber.value)) else cur;
    var sized := if p.capacity.Some? then numbered.(capacity := p.capacity.value.value) else numbered;
    var routed := if p.route.Some? then sized.(route := p.route) else sized;
    match file
    case Some(u) => routed.(imageUrl := u.path, imagePublicId := u.filename)
    case None => routed
  }

  /** `updateBus`: 404 for an unknown bus; 409 when the number changes to
      one another bus has (checked before the capacity); 400 when a
      capacity is given that is not a positive number; otherwise the
      supplied fields are applied and saved. */
  function UpdateBus(st: Store, id: Id, p: BusPatch, file: Option<Upload>): (o: Outcome)
    ensures o.reply.status in {200, 400, 404, 409, 500}
    ensures o.reply.status != 200 ==> o.store == st
    ensures o.reply.status == 404 <==> FindById(st.buses, BusId, id).None?
    ensures o.reply.status == 409 <==>
              FindById(st.buses, BusId, id).Some?
              && Renumbers(p, st.buses[FindById(st.buses, BusId, id).value])
              && NumberTaken(st, NormaliseNumber(p.busNumber.value))
    ensures o.reply.status == 400 ==> p.capacity.Some? && !PositiveCapacity(p.capacity.value)
    ensures o.reply.status == 200 ==>
              && FindById(st.buses, BusId, id).Some?
              && (p.capacity.Some? ==> PositiveCapacity(p.capacity.value))
              && var k := FindById(st.buses, BusId, id).value;
                 && o.reply.payload == BusBody(PatchedBus(st.buses[k], p, file))
                 && o.store == st.(buses := st.buses[k := PatchedBus(st.buses[k], p, file)])
  {
    match FindById(st.buses, BusId, id)
    case None => Answer(st, 404, "Bus not found")
    case Some(k) =>
      var cur := st.buses[k];
      if Renumbers(p, cur) && NumberTaken(st, NormaliseNumber(p.busNumber.value)) then
        Answer(st, 409, "Bus number already exists")
      else if p.capacity.Some? && !PositiveCapacity(p.capacity.value) then
        Answer(st, 400, "capacity must be positive")
      else
        var b := PatchedBus(cur, p, file);
        match SaveUnique(st.buses, b, BusId, BusNumber)
        case None => ServerError(st)
        case Some(bs) =>
          assert FindById(st.buses, BusId, b.id) == Some(k);
          Outcome(Reply(200, "Bus updated", BusBody(b)), st.(buses := bs))
  }

  /** Re-submitting the bus's own number, in any letter case and with any
      surrounding blanks, is not a conflict; with a valid capacity the
      update succeeds on a store whose numbers are unique. */
  lemma SameNumberSucceeds(st: Store, id: Id, p: BusPatch, file: Option<Upload>)
    requires UniqueKeys(st.buses, BusId) && UniqueKeys(st.buses, BusNumber)
    requires FindById(st.buses, BusId, id).Some?
    requires p.busNumber.Some?
    requires NormaliseNumber(p.busNumber.value) == st.buses[FindById(st.buses, BusId, id).value].busNumber
    requires p.capacity.Some? ==> PositiveCapacity(p.capacity.value)
    ensures UpdateBus(st, id, p, file).reply.status == 200
  {
    var k := FindById(st.buses, BusId, id).value;
    var b := PatchedBus(st.buses[k], p, file);
    assert b.busNumber == st.buses[k].busNumber;
    assert SaveUnique(st.buses, b, BusId, BusNumber).Some?;
  }

  /** A capacity that is not a positive number is refused, and nothing is
      saved, unless the bus is unknown or the number conflicts first. */
  lemma BadCapacityIs400(st: Store, id: Id, p: BusPatch, file: Option<Upload>)
    requires FindById(st.buses, BusId, id).Some?
    requires !(Renumbers(p, st.buses[FindById(st.buses, BusId, id).value])
               && NumberTaken(st, NormaliseNumber(p.busNumber.value)))
    requires p.capacity.Some? && !PositiveCapacity(p.capacity.value)
    ensures UpdateBus(st, id, p, file).reply.status == 400
    ensures UpdateBus(st, id, p, file).store == st
  {
  }

  /** `updateBus` keeps the bus identifiers and numbers unique. */
  lemma UpdateBusKeepsUnique(st: Store, id: Id, p: BusPatch, file: Option<Upload>)
    requires UniqueKeys(st.buses, BusId) && UniqueKeys(st.buses, BusNumber)
    ensures var o := UpdateBus(st, id, p, file);
            UniqueKeys(o.store.buses, BusId) && UniqueKeys(o.store.buses, BusNumber)
  {
    var o := UpdateBus(st, id, p, file);
    if o.reply.status == 200 {
      var k := FindById(st.buses, BusId, id).value;
      var b := PatchedBus(st.buses[k], p, file);
      var saved := SaveUnique(st.buses, b, BusId, BusNumber);
      assert saved.Some? && saved.value == st.buses[k := b];
    }
  }

  /** `deleteBus`: 404 for an unknown bus, otherwise it is removed. */
  function DeleteBus(st: Store, id: Id): (o: Outcome)
    ensures o.reply.status == 200 || o.reply.status == 404
    ensures o.reply.status == 404 <==> FindById(st.buses, BusId, id).None?
    ensures o.reply.status == 404 ==> o.store == st
    ensures o.reply.status == 200 ==>
              o.store == st.(buses := Remove(st.buses, FindById(st.buses, BusId, id).value))
              && (UniqueKeys(st.buses, BusId) ==> forall i :: 0 <= i < |o.store.buses| ==> o.store.buses[i].id != id)
  {
    match FindById(st.buses, BusId, id)
    case None => Answer(st, 404, "Bus not found")
    case Some(k) =>
      var bs := Remove(st.buses, k);
      assert UniqueKeys(st.buses, BusId) ==> forall i :: 0 <= i < |bs| ==> bs[i].id != id by {
        if UniqueKeys(st.buses, BusId) {
          forall i | 0 <= i < |bs| ensures bs[i].id != id {
            if i < k { assert BusId(st.buses[i]) != BusId(st.buses[k]); }
            else { assert BusId(st.buses[k]) != BusId(st.buses[i + 1]); }
          }
        }
      }
      Answer(st.(buses := bs), 200, "Bus deleted")
  }
}

=== FILE: listing.dfy ===
/** The list endpoints' query arithmetic: page/limit defaults and clamping,
    the skip they give, the page count, and the `sort` query parsed into an
    ordered field-to-direction object. */
module Listing {
  import opened Wrappers
  import opened Seqs
  import opened Text

  /** `Number(v) || d` for a query value: `None` is a value `Number` turns
      into `NaN`, and `0` is falsy as well; both give the default. */
  function NumberOr(v: Option<int>, d: int): (r: int)
    ensures v.Some? && v.value != 0 ==> r == v.value
    ensures v.None? || v.value == 0 ==> r == d
  {
    match v
    case Some(n) => if n != 0 then n else d
    case None => d
  }

  /** The page, the page size and the number of documents skipped. */
  datatype Paging = Paging(page: int, limit: int, skip: int)

  /** `readRoute` (and `listBookings`): page at least 1 (default 1), limit
      clamped into 1..100 (default 20), skip the documents of the earlier
      pages. */
  function ClampedPaging(page: Option<int>, limit: Option<int>): (p: Paging)
    ensures p.page >= 1 && 1 <= p.limit <= 100
    ensures p.skip == (p.page - 1) * p.limit && p.skip >= 0
    ensures page.Some? && page.value >= 1 ==> p.page == page.value
    ensures page.None? || page.value < 1 ==> p.page == 1
    ensures limit.Some? && 1 <= limit.value <= 100 ==> p.limit == limit.value
    ensures limit.None? || limit.value == 0 ==> p.limit == 20
    ensures limit.Some? && limit.value > 100 ==> p.limit == 100
    ensures limit.Some? && limit.value < 0 ==> p.limit == 1
  {
    var pg := Max(1, NumberOr(page, 1));
    var lim := Min(100, Max(1, NumberOr(limit, 20)));
    Paging(pg, lim, (pg - 1) * lim)
  }

  /** `readBus`: page as in `readRoute`, but the limit is only capped at
      100 (default 10), never raised to 1, so a negative limit passes
      through and makes the skip negative from page 2 on. */
  function BusPaging(page: Option<int>, limit: Option<int>): (p: Paging)
    ensures p.page >= 1 && p.limit <= 100 && p.limit != 0
    ensures p.skip == (p.page - 1) * p.limit
    ensures page.Some? && page.value >= 1 ==> p.page == page.value
    ensures page.None? || page.value < 1 ==> p.page == 1
    ensures limit.Some? && limit.value != 0 && limit.value <= 100 ==> p.limit == limit.value
    ensures limit.None? || limit.value == 0 ==> p.limit == 10
    ensures limit.Some? && limit.value > 100 ==> p.limit == 100
  {
    var pg := Max(1, NumberOr(page, 1));
    var lim := Min(100, NumberOr(limit, 10));
    Paging(pg, lim, (pg - 1) * lim)
  }

  function Max(a: int, b: int): int { if a >= b then a else b }
  function Min(a: int, b: int): int { if a <= b then a else b }

  /** The next page starts where the previous one ended. */
  lemma PagesTile(n: nat, limit: Option<int>)
    requires n >= 1
    ensures var p, q := ClampedPaging(Some(n), limit), ClampedPaging(Some(n + 1), limit);
            q.skip == p.skip + p.limit && q.limit == p.limit
  {
  }

  /** With a negative limit, every page after the first skips a negative
      number of documents. */
  lemma BusNegativeLimit(n: int, limit: int)
    requires n >= 2 && limit < 0
    ensures BusPaging(Some(n), Some(limit)).limit == limit
    ensures BusPaging(Some(n), Some(limit)).skip < 0
  {
    var p := BusPaging(Some(n), Some(limit));
    assert p.skip == (n - 1) * limit;
    MulNegative(n - 1, limit);
  }

  lemma MulNegative(a: int, b: int)
    requires a > 0 && b < 0
    ensures a * b < 0
  {
  }

  /** `Math.ceil(total / limit)` for a non-zero integer limit. For a
      positive limit it is the number of pages `total` documents fill; for
      a negative one the quotient is negative and is rounded towards zero. */
  function TotalPages(total: nat, limit: int): (r: int)
    requires limit != 0
    ensures limit > 0 ==> r >= 0 && (r - 1) * limit < total <= r * limit
    ensures limit < 0 ==> r <= 0 && -r * -limit <= total < (-r + 1) * -limit
  {
    if limit > 0 then (total + limit - 1) / limit else -(total / -limit)
  }

  /** The page that holds the `i`-th document, counted from 0, exists and
      its window covers `i`. */
  lemma PageOf(i: nat, total: nat, limit: Option<int>)
    requires i < total
    ensures var lim := ClampedPaging(None, limit).limit;
            var p := ClampedPaging(Some(i / lim + 1), limit);
            p.skip <= i < p.skip + p.limit && p.page <= TotalPages(total, lim)
  {
    var lim := ClampedPaging(None, limit).limit;
    PageCovers(i, total, lim);
  }

  lemma PageCovers(i: nat, total: nat, lim: int)
    requires i < total && lim >= 1
    ensures (i / lim) * lim <= i < (i / lim) * lim + lim
    ensures i / lim + 1 <= TotalPages(total, lim)
  {
    var q := i / lim;
    var t := TotalPages(total, lim);
    assert i == q * lim + i % lim;
    if t <= q {
      MulMonotone(t, q, lim);
    }
  }

  lemma MulMonotone(a: int, b: int, c: nat)
    requires a <= b
    ensures a * c <= b * c
  {
  }

  /** One entry of the sort object: a field and its direction, -1 or 1. */
  datatype SortKey = SortKey(field: string, dir: int)

  /** The direction the object gives `f`, if it has the key. */
  function Lookup(obj: seq<SortKey>, f: string): (r: Option<int>)
    ensures r.None? <==> forall i :: 0 <= i < |obj| ==> obj[i].field != f
  {
    match FirstIndex(obj, (e: SortKey) => e.field == f)
    case Some(i) => Some(obj[i].dir)
    case None => None
  }

  /** The keys of the object in their order, which is MongoDB's sort
      precedence. */
  function Fields(obj: seq<SortKey>): (fs: seq<string>)
    ensures |fs| == |obj| && forall i :: 0 <= i < |obj| ==> fs[i] == obj[i].field
  {
    seq(|obj|, i requires 0 <= i < |obj| => obj[i].field)
  }

  /** A JavaScript object has each key once. */
  predicate UniqueFields(obj: seq<SortKey>) {
    forall i, j :: 0 <= i < j < |obj| ==> obj[i].field != obj[j].field
  }

  /** `sortObj[k.field] = k.dir`: an existing key keeps its place and takes
      the new value; a new key is added after the existing ones. This is
      the order JavaScript gives string keys; an integer-like field name
      would be placed before them instead, which the model does not
      distinguish. */
  function Assign(obj: seq<SortKey>, k: SortKey): (r: seq<SortKey>)
    requires UniqueFields(obj)
    ensures UniqueFields(r)
    ensures Lookup(r, k.field) == Some(k.dir)
    ensures forall f :: f != k.field ==> Lookup(r, f) == Lookup(obj, f)
    ensures Fields(r) == if k.field in Fields(obj) then Fields(obj) else Fields(obj) + [k.field]
  {
    match FirstIndex(obj, (e: SortKey) => e.field == k.field)
    case Some(i) =>
      var r := obj[i := k];
      assert Fields(r) == Fields(obj);
      assert Fields(obj)[i] == k.field;
      forall f | f != k.field
        ensures Lookup(r, f) == Lookup(obj, f)
      {
        LookupSameFields(obj, r, f);
      }
      LookupUnique(r, i);
      r
    case None =>
      var r := obj + [k];
      assert Fields(r) == Fields(obj) + [k.field];
      assert forall j :: 0 <= j < |obj| ==> Fields(obj)[j] != k.field;
      forall f | f != k.field
        ensures Lookup(r, f) == Lookup(obj, f)
      {
        LookupAppend(obj, k, f);
      }
      LookupUnique(r, |obj|);
      r
  }

  /** In an object with unique keys, the key at position `i` looks up the
      direction stored there. */
  lemma LookupUnique(obj: seq<SortKey>, i: nat)
    requires UniqueFields(obj) && i < |obj|
    ensures Lookup(obj, obj[i].field) == Some(obj[i].dir)
  {
  }

  lemma LookupSameFields(a: seq<SortKey>, b: seq<SortKey>, f: string)
    requires |a| == |b|
    requires forall i :: 0 <= i < |a| ==> (a[i].field == f) == (b[i].field == f)
    requires forall i :: 0 <= i < |a| && a[i].field == f ==> a[i] == b[i]
    ensures Lookup(a, f) == Lookup(b, f)
  {
    match FirstIndex(a, (e: SortKey) => e.field == f)
    case None =>
    case Some(i) =>
      var j := FirstIndex(b, (e: SortKey) => e.field == f).value;
      assert a[j].field == f;
      assert b[i].field == f;
  }

  lemma LookupAppend(obj: seq<SortKey>, k: SortKey, f: string)
    requires f != k.field
    ensures Lookup(obj + [k], f) == Lookup(obj, f)
  {
    match FirstIndex(obj, (e: SortKey) => e.field == f)
    case None =>
    case Some(i) =>
      assert (obj + [k])[i] == obj[i];
      var j := FirstIndex(obj + [k], (e: SortKey) => e.field == f).value;
      assert j < |obj|;
      assert (obj + [k])[j] == obj[j];
  }

  /** One token of the sort spec: a leading `-` means descending. */
  function Directive(t: string): (k: SortKey)
    ensures k.dir == -1 || k.dir == 1
    ensures (k.dir == -1) == StartsWith(t, "-")
    ensures t == (if k.dir == -1 then "-" else "") + k.field
  {
    if StartsWith(t, "-") then
      assert t == "-" + t[1..];
      SortKey(t[1..], -1)
    else SortKey(t, 1)
  }

  /** `forEach` over the tokens, in order, into an empty object. */
  function SortObject(toks: seq<string>): (r: seq<SortKey>)
    ensures UniqueFields(r)
    decreases |toks|
  {
    if |toks| == 0 then []
    else Assign(SortObject(toks[..|toks| - 1]), Directive(toks[|toks| - 1]))
  }

  /** A field named by some token takes the direction of its LAST token. */
  lemma {:induction false} SortLastWins(toks: seq<string>, f: string, i: nat)
    requires i < |toks| && Directive(toks[i]).field == f
    requires forall j :: i < j < |toks| ==> Directive(toks[j]).field != f
    ensures Lookup(SortObject(toks), f) == Some(Directive(toks[i]).dir)
    decreases |toks|
  {
    var init := toks[..|toks| - 1];
    if i < |toks| - 1 {
      assert forall j :: i < j < |init| ==> init[j] == toks[j];
      SortLastWins(init, f, i);
    }
  }

  /** The field each token names, in token order. */
  function TokenFields(toks: seq<string>): (fs: seq<string>)
    ensures |fs| == |toks| && forall i :: 0 <= i < |toks| ==> fs[i] == Directive(toks[i]).field
  {
    seq(|toks|, i requires 0 <= i < |toks| => Directive(toks[i]).field)
  }

  /** The keys of the sort object are the fields the tokens name, each
      once, in the order of its first token: a later token for a field
      changes its direction but not its precedence. */
  lemma {:induction false} SortKeyOrder(toks: seq<string>)
    ensures Fields(SortObject(toks)) == Dedup(TokenFields(toks))
    decreases |toks|
  {
    if |toks| > 0 {
      var init := toks[..|toks| - 1];
      var k := Directive(toks[|toks| - 1]);
      var fs := TokenFields(toks);
      assert fs[..|fs| - 1] == TokenFields(init);
      SortKeyOrder(init);
      var d := Dedup(TokenFields(init));
      assert Fields(SortObject(init)) == d;
      assert SortObject(toks) == Assign(SortObject(init), k);
      assert Dedup(fs) == if k.field in d then d else d + [k.field];
    }
  }

  /** A field named by no token is not a key. */
  lemma {:induction false} SortAbsent(toks: seq<string>, f: string)
    requires forall j :: 0 <= j < |toks| ==> Directive(toks[j]).field != f
    ensures Lookup(SortObject(toks), f) == None
    decreases |toks|
  {
    if |toks| > 0 {
      var init := toks[..|toks| - 1];
      assert forall j :: 0 <= j < |init| ==> init[j] == toks[j];
      SortAbsent(init, f);
    }
  }

  /** The tokens of a sort spec: split on commas, each piece trimmed, the
      empty ones dropped. */
  function SortTokens(spec: string): (r: seq<string>)
    ensures forall t :: t in r ==> |t| > 0 && t == Trim(t)
  {
    var pieces := Split(spec, ',');
    var trimmed := seq(|pieces|, i requires 0 <= i < |pieces| => Trim(pieces[i]));
    forall t | t in trimmed ensures t == Trim(t) {
      var i :| 0 <= i < |pieces| && t == Trim(pieces[i]);
      TrimIdempotent(pieces[i]);
    }
    Filter(trimmed, (t: string) => |t| > 0)
  }

  /** The default sort, applied when the query has no `sort`. */
  const DefaultSort := "-createdAt"

  /** The `sort` query parsed: `None` when the parameter is absent. */
  function ParseSort(sort: Option<string>): (r: seq<SortKey>)
    ensures UniqueFields(r)
    ensures Fields(r) == Dedup(TokenFields(SortTokens(sort.GetOr(DefaultSort))))
    ensures sort == Some("") ==> r == []
  {
    var toks := SortTokens(sort.GetOr(DefaultSort));
    SortKeyOrder(toks);
    assert Split("", ',') == [""];
    SortObject(toks)
  }

  /** Without a `sort` parameter the routes come newest first. */
  lemma DefaultSortNewestFirst()
    ensures ParseSort(None) == [SortKey("createdAt", -1)]
  {
    var s := DefaultSort;
    assert s[0] == '-' && s[1..] == "createdAt";
    assert ',' !in s && !IsSpace(s[|s| - 1]);
    DescendingField(s);
  }

  /** A spec naming one field, descending, sorts on that field alone. */
  lemma DescendingField(s: string)
    requires |s| > 1 && s[0] == '-' && ',' !in s && !IsSpace(s[|s| - 1])
    ensures ParseSort(Some(s)) == [SortKey(s[1..], -1)]
  {
    SplitWithoutSeparator(s, ',');
    TrimOfUnpadded(s);
    SingleToken(s);
    SortObjectSingle(s);
    assert StartsWith(s, "-");
  }

  lemma SortObjectSingle(t: string)
    ensures SortObject([t]) == [Directive(t)]
  {
    assert [t][..0] == [];
  }

  /** A spec that is one trimmed, non-empty piece is one token. */
  lemma SingleToken(s: string)
    requires Split(s, ',') == [s] && Trim(s) == s && |s| > 0
    ensures SortTokens(s) == [s]
  {
    var trimmed := seq(1, i requires 0 <= i < 1 => Trim([s][i]));
    assert trimmed == [s];
  }
}

=== FILE: mail.dfy ===
/** The mail helpers: recipient validation, the two calling conventions of
    `sendMail` and its checks, and the booking-confirmation template's
    dispatch between its two forms. The transport and the HTML bodies are
    not modelled; whether the transport delivers is a parameter. */
module Mail {
  import opened Wrappers
  import opened Text
  import opened Records

  /** `isValidRecipient`: a string (`None` is any non-string value) that
      contains "@" and neither "<" nor ">". */
  predicate IsValidRecipient(to: Option<string>) {
    to.Some? && '@' in to.value && '<' !in to.value && '>' !in to.value
  }

  /** `isValidRecipient` computed in one pass, as the `includes` call and
      the `/[<>]/` test scan the string. */
  method CheckRecipient(to: Option<string>) returns (ok: bool)
    ensures ok <==> IsValidRecipient(to)
  {
    if to.None? {
      return false;
    }
    var s := to.value;
    var at, angle := false, false;
    var i := 0;
    while i < |s|
      invariant 0 <= i <= |s|
      invariant at <==> '@' in s[..i]
      invariant angle <==> '<' in s[..i] || '>' in s[..i]
    {
      assert s[..i + 1] == s[..i] + [s[i]];
      if s[i] == '@' {
        at := true;
      }
      if s[i] == '<' || s[i] == '>' {
        angle := true;
      }
      i := i + 1;
    }
    assert s[..i] == s;
    ok := at && !angle;
  }

  /** The mail fields `sendMail` works with. `None` is an absent (or, for
      `to`, non-string) value. */
  datatype Message = Message(to: Option<string>, subject: Option<string>, html: Option<string>, text: Option<string>)

  /** The first argument of `sendMail`: an object carrying the fields, or
      any other value, which is then the recipient. */
  datatype MailArg = Fields(message: Message) | Recipient(to: Option<string>)

  /** The argument normalisation at the top of `sendMail`: the object form
      is destructured and the positional arguments are then ignored;
      otherwise the arguments are taken positionally. */
  function Normalise(arg1: MailArg, subject: Option<string>, html: Option<string>, text: Option<string>): Message {
    match arg1
    case Fields(m) => m
    case Recipient(to) => Message(to, subject, html, text)
  }

  /** The object form and the positional form of the same mail are the
      same call. */
  lemma FormsAgree(m: Message, subject: Option<string>, html: Option<string>, text: Option<string>)
    ensures Normalise(Fields(m), subject, html, text) == Normalise(Recipient(m.to), m.subject, m.html, m.text)
  {
  }

  /** Why `sendMail` throws. */
  datatype MailError = InvalidRecipient | MissingContent | TransportFailed

  /** The outcome of `sendMail`: a mail handed to the transport, or the
      error it throws. */
  datatype Sent = Delivered(to: string, subject: string, html: string, text: Option<string>) | Threw(error: MailError)

  /** The transport was asked to send something. */
  predicate Attempted(r: Sent) {
    r.Delivered? || r.error == TransportFailed
  }

  /** `sendMail`: an invalid recipient throws first; then a missing
      subject or html (the empty string counts as missing); only then is
      the transport called, and whether it delivers is `transportOk`. */
  function SendMail(arg1: MailArg, subject: Option<string>, html: Option<string>, text: Option<string>,
                    transportOk: bool): (r: Sent)
    ensures var m := Normalise(arg1, subject, html, text);
            && (r == Threw(InvalidRecipient) <==> !IsValidRecipient(m.to))
            && (r == Threw(MissingContent) <==> IsValidRecipient(m.to) && (!Truthy(m.subject) || !Truthy(m.html)))
            && (Attempted(r) <==> IsValidRecipient(m.to) && Truthy(m.subject) && Truthy(m.html))
            && (r.Delivered? <==> Attempted(r) && transportOk)
            && (r.Delivered? ==> r == Delivered(m.to.value, m.subject.value, m.html.value, m.text))
  {
    var m := Normalise(arg1, subject, html, text);
    if !IsValidRecipient(m.to) then Threw(InvalidRecipient)
    else if !Truthy(m.subject) || !Truthy(m.html) then Threw(MissingContent)
    else if !transportOk then Threw(TransportFailed)
    else Delivered(m.to.value, m.subject.value, m.html.value, m.text)
  }

  /** The details the object form of `bookingConfirmationTemplate`
      destructures; `None` is an `undefined` property, which takes the
      default. */
  datatype Details = Details(name: Option<string>, bookingRef: Option<string>, bus: Option<string>,
                             route: Option<string>, seatNumbers: Option<seq<int>>)

  /** The first argument of the template: an object (`null` included,
      since `typeof null` is "object") or a plain value such as a user
      name. */
  datatype TemplateArg = DetailsArg(details: Details) | NullArg | NameArg(username: string)

  /** What the template returns: the preferred form's subject, greeting
      name and seat list (the HTML, date and price rendering are not
      modelled), or the legacy form's HTML, of which only the seat list is
      modelled. */
  datatype Rendered =
    | Composed(subject: string, name: string, seatList: string)
    | LegacyHtml(seatList: string)

  /** `seatNumbers.join(", ")`. */
  function SeatList(seats: seq<int>): string {
    JoinNumbers(seats, ", ")
  }

  /** `bookingConfirmationTemplate(arg1, arg2)`: the object form exactly
      when `arg1` is an object and `arg2` is falsy (`None`), with the
      defaults "Customer", "" and []; the legacy form otherwise, reading
      the seats from `arg2 || {}`. */
  function BookingConfirmation(arg1: TemplateArg, arg2: Option<Details>): (r: Rendered)
    ensures r.Composed? <==> !arg1.NameArg? && arg2.None?
    ensures r.Composed? ==>
              var d := if arg1.DetailsArg? then arg1.details else Details(None, None, None, None, None);
              && r.subject == "Your booking " + d.bookingRef.GetOr("")
              && r.name == d.name.GetOr("Customer")
              && r.seatList == SeatList(d.seatNumbers.GetOr([]))
    ensures r.LegacyHtml? ==>
              r.seatList == (if arg2.Some? && arg2.value.seatNumbers.Some? then SeatList(arg2.value.seatNumbers.value) else "")
  {
    if !arg1.NameArg? && arg2.None? then
      var d := if arg1.DetailsArg? then arg1.details else Details(None, None, None, None, None);
      var seats := d.seatNumbers.GetOr([]);
      Composed("Your booking " + d.bookingRef.GetOr(""), d.name.GetOr("Customer"), SeatList(seats))
    else
      var seats := if arg2.Some? && arg2.value.seatNumbers.Some? then SeatList(arg2.value.seatNumbers.value) else "";
      LegacyHtml(seats)
  }

  /** Occurrences of `c` in `s`. */
  function Count(s: string, c: char): nat {
    if |s| == 0 then 0 else (if s[0] == c then 1 else 0) + Count(s[1..], c)
  }

  lemma {:induction false} CountAppend(a: string, b: string, c: char)
    ensures Count(a + b, c) == Count(a, c) + Count(b, c)
    decreases |a|
  {
    if |a| > 0 {
      assert (a + b)[1..] == a[1..] + b;
      CountAppend(a[1..], b, c);
    } else {
      assert a + b == b;
    }
  }

  lemma {:induction false} CountAbsent(s: string, c: char)
    requires c !in s
    ensures Count(s, c) == 0
    decreases |s|
  {
    if |s| > 0 {
      assert c !in s[1..];
      CountAbsent(s[1..], c);
    }
  }

  lemma NumberHasNoComma(i: int)
    ensures ',' !in IntToString(i)
  {
    var r := IntToString(i);
    if i < 0 {
      assert r == "-" + NatToString(-i);
      assert forall k :: 1 <= k < |r| ==> r[k] == NatToString(-i)[k - 1];
    }
  }

  /** Joining pieces free of commas with ", " puts exactly one comma
      between consecutive pieces. */
  lemma {:induction false} JoinCommas(parts: seq<string>)
    requires forall k :: 0 <= k < |parts| ==> ',' !in parts[k]
    ensures Count(Join(parts, ", "), ',') == if |parts| == 0 then 0 else |parts| - 1
    decreases |parts|
  {
    if |parts| == 1 {
      CountAbsent(parts[0], ',');
    } else if |parts| > 1 {
      JoinCommas(parts[1..]);
      CountAbsent(parts[0], ',');
      CountAppend(parts[0], ", ", ',');
      CountAppend(parts[0] + ", ", Join(parts[1..], ", "), ',');
      assert Count(", ", ',') == 1;
    }
  }

  /** The seat list of a confirmation has one comma fewer than there are
      seats (and none when there are none). */
  lemma SeatListCommas(seats: seq<int>)
    ensures Count(SeatList(seats), ',') == if |seats| == 0 then 0 else |seats| - 1
  {
    var parts := seq(|seats|, i requires 0 <= i < |seats| => IntToString(seats[i]));
    forall k | 0 <= k < |parts| ensures ',' !in parts[k] {
      NumberHasNoComma(seats[k]);
    }
    JoinCommas(parts);
  }

  /** The seat list of a confirmation names every seat, in order: split on
      ",", its pieces are the seats in decimal, each after the first behind
      the one space of the ", " separator. With no seats it is empty. */
  lemma SeatListNamesEverySeat(seats: seq<int>)
    ensures |seats| == 0 ==> SeatList(seats) == ""
    ensures |seats| > 0 ==>
              && var pieces := Split(SeatList(seats), ',');
                 && |pieces| == |seats|
                 && pieces[0] == IntToString(seats[0])
                 && forall i :: 0 < i < |seats| ==> pieces[i] == " " + IntToString(seats[i])
  {
    if |seats| > 0 {
      var parts := seq(|seats|, i requires 0 <= i < |seats| => IntToString(seats[i]));
      forall k | 0 <= k < |parts| ensures ',' !in parts[k] {
        NumberHasNoComma(seats[k]);
      }
      JoinCommaSpace(parts);
      var spaced := Spaced(parts);
      forall k | 0 <= k < |spaced| ensures ',' !in spaced[k] {
        assert k > 0 ==> spaced[k] == " " + parts[k];
      }
      SplitJoin(spaced, ',');
    }
  }
}

=== FILE: reconnect.dfy ===
/** The retry loop of `connectDB`: how many connection attempts are made
    and how long the loop waits between them. The driver call is a
    parameter: `connect(n)` says whether the n-th attempt (from 0)
    succeeds. */
module Reconnect {

  /** The default `retries` argument. */
  const DefaultRetries := 5

  /** The cap on a single wait, in milliseconds. */
  const MaxDelay := 30000

  function Pow2(n: nat): (r: nat)
    ensures r >= 1
  {
    if n == 0 then 1 else 2 * Pow2(n - 1)
  }

  /** The wait after the `attempt`-th failure (from 1):
      `min(30000, 1000 * 2 ** (attempt - 1))` milliseconds. */
  function Delay(attempt: nat): (d: nat)
    requires attempt >= 1
    ensures 1000 <= d <= MaxDelay
    ensures d == MaxDelay || d == 1000 * Pow2(attempt - 1)
    ensures d <= 1000 * Pow2(attempt - 1)
  {
    var raw := 1000 * Pow2(attempt - 1);
    if raw < MaxDelay then raw else MaxDelay
  }

  lemma {:induction false} Pow2Monotone(m: nat, n: nat)
    requires m <= n
    ensures Pow2(m) <= Pow2(n)
    decreases n
  {
    if m < n {
      Pow2Monotone(m, n - 1);
    }
  }

  /** The waits never shrink from one failure to the next. */
  lemma DelayMonotone(a: nat, b: nat)
    requires 1 <= a <= b
    ensures Delay(a) <= Delay(b)
  {
    Pow2Monotone(a - 1, b - 1);
  }

  /** From the sixth failure on, every wait is the 30-second cap; before
      it the wait doubles each time. */
  lemma {:induction false} DelaySchedule(attempt: nat)
    requires attempt >= 1
    ensures attempt >= 6 ==> Delay(attempt) == MaxDelay
    ensures attempt <= 5 ==> Delay(attempt) == 1000 * Pow2(attempt - 1)
  {
    if attempt >= 6 {
      Pow2Monotone(5, attempt - 1);
      assert Pow2(5) == 32;
    } else {
      Pow2Monotone(attempt - 1, 4);
      assert Pow2(4) == 16;
    }
  }

  /** `connectDB(retries = 5)` with the driver `connect`: tries until an
      attempt succeeds or the failure counter exceeds `retries`, waiting
      `Delay(n)` after the n-th failure when it may still retry. Returns
      whether it connected (otherwise the last error is rethrown), how
      many attempts it made, and the waits in order. */
  method ConnectDB(connect: nat -> bool, retries: int := DefaultRetries) returns (connected: bool, attempts: nat, waits: seq<nat>)
    ensures 1 <= attempts <= (if retries > 0 then retries else 0) + 1
    ensures forall n :: 0 <= n < attempts - 1 ==> !connect(n)
    ensures connected <==> connect(attempts - 1)
    ensures !connected ==> attempts == (if retries > 0 then retries else 0) + 1
    ensures |waits| == attempts - 1
    ensures forall n :: 0 <= n < |waits| ==> waits[n] == Delay(n + 1)
  {
    var attempt: nat := 0;
    waits := [];
    while true
      invariant attempt <= (if retries > 0 then retries else 0)
      invariant forall n :: 0 <= n < attempt ==> !connect(n)
      invariant |waits| == attempt
      invariant forall n :: 0 <= n < |waits| ==> waits[n] == Delay(n + 1)
      decreases (if retries > 0 then retries else 0) - attempt
    {
      if connect(attempt) {
        return true, attempt + 1, waits;
      }
      attempt := attempt + 1;
      var canRetry := attempt <= retries;
      if !canRetry {
        return false, attempt, waits;
      }
      waits := waits + [Delay(attempt)];
    }
  }
}

=== FILE: records.dfy ===
/** The stored documents (the four Mongoose schemas), the abstract store
    that holds them, the storage errors the controllers see, and the HTTP
    reply a handler produces. */
module Records {
  import opened Wrappers
  import opened Keyed

  /** A calendar day: the travel date after local-midnight truncation. */
  type Day = int

  /** `role` of a user: the enum `["admin", "user"]`, default `"user"`. */
  datatype Role = Admin | Member

  function RoleName(r: Role): string {
    match r
    case Admin => "admin"
    case Member => "user"
  }

  /** A bcrypt hash of a password (salt and cost not modelled). */
  datatype Secret = Bcrypt(plain: string)

  /** The hex SHA-256 digest of a reset token. */
  datatype Digest = Sha256(raw: string)

  /** A user document: username, email, phone and password are required,
      email is unique, the reset token and its expiry are optional. */
  datatype User = User(
    id: Id,
    username: string,
    email: string,
    phoneNumber: string,
    password: Secret,
    role: Role,
    isVerified: bool,
    resetPasswordToken: Option<Digest>,
    resetPasswordExpires: Option<int>)

  /** A bus document. `busName` is the empty string when the controller did
      not supply one; `description` defaults to the empty string. */
  datatype Bus = Bus(
    id: Id,
    busName: string,
    busNumber: string,
    route: Option<Id>,
    capacity: int,
    imageUrl: string,
    imagePublicId: string,
    description: string)

  /** A route document: `routeName` is unique, the bus reference required;
      `routeURL` is the slug the controller derives from the name. */
  datatype Route = Route(
    id: Id,
    routeName: string,
    startLocation: string,
    endLocation: string,
    distance: int,
    bus: Id,
    routeURL: string,
    routeMapUrl: string,
    routeMapPublicId: string)

  /** `status`: the enum `["booked", "cancelled"]`, default `"booked"`. */
  datatype BookingStatus = Booked | Cancelled

  /** `paymentStatus`: the enum `["pending", "paid", "refunded"]`, default `"pending"`. */
  datatype PaymentStatus = Pending | Paid | Refunded

  /** A booking document; `user`, `bus`, `route` and `travelDate` are
      required references / values. */
  datatype Booking = Booking(
    id: Id,
    user: Id,
    bus: Id,
    route: Id,
    travelDate: Day,
    seatNumber: seq<int>,
    totalPrice: int,
    status: BookingStatus,
    paymentStatus: PaymentStatus,
    bookingReference: string,
    notes: Option<string>)

  /** The validators of the booking schema: a non-empty array of positive
      integer seats and a non-negative total price. Duplicate seats are not
      rejected by the schema. */
  predicate BookingSchemaValid(b: Booking) {
    && |b.seatNumber| > 0
    && (forall i :: 0 <= i < |b.seatNumber| ==> b.seatNumber[i] > 0)
    && b.totalPrice >= 0
  }

  function UserId(u: User): Id { u.id }
  function UserEmail(u: User): string { u.email }
  function BusId(b: Bus): Id { b.id }
  function BusNumber(b: Bus): string { b.busNumber }
  function RouteId(r: Route): Id { r.id }
  function RouteName(r: Route): string { r.routeName }
  function BookingId(b: Booking): Id { b.id }
  function BookingRef(b: Booking): string { b.bookingReference }

  /** The database: one collection per model, each in natural order. */
  datatype Store = Store(
    users: seq<User>,
    buses: seq<Bus>,
    routes: seq<Route>,
    bookings: seq<Booking>)

  /** Booking `b` holds its seats on `bus` and `day`. */
  predicate Holds(b: Booking, bus: Id, day: Day) {
    b.status == Booked && b.bus == bus && b.travelDate == day
  }

  /** No two "booked" bookings for the same bus and day share a seat. */
  ghost predicate NoDoubleBooking(bs: seq<Booking>) {
    forall i, j, s ::
      (0 <= i < j < |bs| && Holds(bs[i], bs[j].bus, bs[j].travelDate) && Holds(bs[j], bs[j].bus, bs[j].travelDate)
       && s in bs[i].seatNumber) ==> s !in bs[j].seatNumber
  }

  /** The bookings collection as the booking controller keeps it: unique
      identifiers and references (the unique index), schema-valid
      documents, and no seat held twice. */
  ghost predicate BookingsValid(bs: seq<Booking>) {
    && UniqueKeys(bs, BookingId)
    && UniqueKeys(bs, BookingRef)
    && (forall i :: 0 <= i < |bs| ==> BookingSchemaValid(bs[i]))
    && NoDoubleBooking(bs)
  }

  /** Every unique index of the schemas holds, and identifiers are unique. */
  ghost predicate Valid(st: Store) {
    && UniqueKeys(st.users, UserId) && UniqueKeys(st.users, UserEmail)
    && UniqueKeys(st.buses, BusId) && UniqueKeys(st.buses, BusNumber)
    && UniqueKeys(st.routes, RouteId) && UniqueKeys(st.routes, RouteName)
    && BookingsValid(st.bookings)
  }

  /** A form field read with `!field`: `None` when it is missing, and the
      empty string is falsy as well. */
  predicate Truthy(s: Option<string>) {
    s.Some? && s.value != ""
  }

  /** The file multer stored for the request (`req.file`): its URL and
      its public identifier at the image host. */
  datatype Upload = Upload(path: string, filename: string)

  /** An error thrown by the storage driver: numeric `code`, `codeName`,
      and the error-label set. */
  datatype DbError = DbError(code: Option<int>, codeName: Option<string>, labels: set<string>)

  /** What a write refused by a unique index throws (E11000). */
  const DuplicateKey := DbError(Some(11000), Some("DuplicateKey"), {})

  /** A user document read with `.select("-password")`: every field but
      the password hash. */
  datatype Profile = Profile(
    id: Id,
    username: string,
    email: string,
    phoneNumber: string,
    role: Role,
    isVerified: bool,
    resetPasswordToken: Option<Digest>,
    resetPasswordExpires: Option<int>)

  /** The profile of a user: the stored fields, without the password. */
  function ProfileOf(u: User): (p: Profile)
    ensures p.id == u.id && p.username == u.username && p.email == u.email
    ensures p.phoneNumber == u.phoneNumber && p.role == u.role && p.isVerified == u.isVerified
    ensures p.resetPasswordToken == u.resetPasswordToken && p.resetPasswordExpires == u.resetPasswordExpires
  {
    Profile(u.id, u.username, u.email, u.phoneNumber, u.role, u.isVerified,
            u.resetPasswordToken, u.resetPasswordExpires)
  }

  /** The profile does not depend on the password: two users that differ
      only in their password hash show the same profile. */
  lemma ProfileHidesPassword(u: User, other: Secret)
    ensures ProfileOf(u.(password := other)) == ProfileOf(u)
  {
  }

  /** The body of a JSON reply, beside its `message`. */
  datatype Payload =
    | NoPayload
    | SeatList(seats: seq<int>)
    | BookingBody(booking: Booking)
    | SignedUp(id: Id, email: string, username: string)
    | LoggedIn(id: Id, email: string, username: string, role: Role)
    | ProfileBody(profile: Profile)
    | UpdatedBody(id: Id, username: string, phoneNumber: string)
    | BusBody(bus: Bus)
    | RouteBody(route: Route)

  /** `res.status(status).json({ message, ... })`. */
  datatype Reply = Reply(status: nat, message: string, payload: Payload)

  /** What a handler leaves behind: the reply it sent and the new store. */
  datatype Outcome = Outcome(reply: Reply, store: Store)

  /** The usual `catch` branch of a handler: 500 and nothing written. */
  function ServerError(st: Store): (o: Outcome)
    ensures o.reply.status == 500 && o.store == st
  {
    Outcome(Reply(500, "Server error", NoPayload), st)
  }

  /** A reply that writes nothing. */
  function Answer(st: Store, status: nat, message: string): (o: Outcome)
    ensures o.reply.status == status && o.store == st
  {
    Outcome(Reply(status, message, NoPayload), st)
  }
}

=== FILE: routes.dfy ===
/** The route controller: creation and partial update of routes, with the
    URL slug derived from the name, and the look-ups by identifier. */
module Routes {
  import opened Wrappers
  import opened Seqs
  import opened Keyed
  import opened Text
  import opened Records
  import opened Slugs

  /** `parsePositiveNumber`: `Number(val)` when it is finite and positive,
      otherwise `null`. `None` in the input stands for a value `Number`
      turns into `NaN` or an infinity. */
  function ParsePositiveNumber(val: Option<int>): (r: Option<int>)
    ensures r.Some? <==> val.Some? && val.value > 0
    ensures r.Some? ==> r.value == val.value
  {
    match val
    case Some(n) => if n > 0 then Some(n) else None
    case None => None
  }

  /** The slugs already taken by stored routes. */
  function TakenSlugs(routes: seq<Route>): (r: set<string>)
    ensures forall i :: 0 <= i < |routes| ==> routes[i].routeURL in r
  {
    set i | 0 <= i < |routes| :: routes[i].routeURL
  }

  /** Another route than `self` has these name and endpoints. */
  predicate SameIdentifiers(r: Route, name: string, start: string, end: string) {
    r.routeName == name && r.startLocation == start && r.endLocation == end
  }

  /** The body of `POST /routes`. `distance` is `None` when the field is
      missing or empty, `Some(None)` when `Number` does not give a finite
      value. */
  datatype RouteForm = RouteForm(
    routeName: Option<string>,
    startLocation: Option<string>,
    endLocation: Option<string>,
    distance: Option<Option<int>>,
    busId: Option<Id>)

  /** Every field `createRoute` requires is present and non-empty. */
  predicate Complete(f: RouteForm) {
    Truthy(f.routeName) && Truthy(f.startLocation) && Truthy(f.endLocation)
    && f.distance.Some? && f.busId.Some?
  }

  /** The form passes every check `createRoute` makes before it looks at
      the store. */
  predicate Acceptable(f: RouteForm, file: Option<Upload>) {
    Complete(f) && file.Some? && ParsePositiveNumber(f.distance.value).Some?
  }

  /** A stored route already has the trimmed name and endpoints of `f`. */
  predicate DuplicateOf(st: Store, f: RouteForm)
    requires Complete(f)
  {
    exists i :: 0 <= i < |st.routes|
      && SameIdentifiers(st.routes[i], Trim(f.routeName.value), Trim(f.startLocation.value), Trim(f.endLocation.value))
  }

  /** The route `createRoute` writes. */
  function NewRoute(st: Store, f: RouteForm, file: Upload): (r: Route)
    requires Acceptable(f, Some(file))
    ensures r.routeName == Trim(f.routeName.value)
    ensures r.startLocation == Trim(f.startLocation.value) && r.endLocation == Trim(f.endLocation.value)
    ensures r.distance == f.distance.value.value && r.distance > 0
    ensures r.bus == f.busId.value
    ensures r.routeURL !in TakenSlugs(st.routes)
    ensures r.routeMapUrl == file.path && r.routeMapPublicId == file.filename
    ensures forall i :: 0 <= i < |st.routes| ==> st.routes[i].id != r.id
  {
    var name := Trim(f.routeName.value);
    Route(FreshId(st.routes, RouteId), name, Trim(f.startLocation.value), Trim(f.endLocation.value),
          f.distance.value.value, f.busId.value,
          NewSlug(st, name), file.path, file.filename)
  }

  /** `createRoute`: 400 for a missing field, a missing map image or a
      distance that is not positive; 404 for an unknown bus; 409 when a
      route with the same trimmed name and endpoints exists; otherwise the
      route is written with a fresh slug. The write goes through the unique
      index on `routeName`, so a route with the same name but other
      endpoints makes it throw, which ends in 500. */
  function CreateRoute(st: Store, f: RouteForm, file: Option<Upload>): (o: Outcome)
    ensures o.reply.status in {201, 400, 404, 409, 500}
    ensures o.reply.status != 201 ==> o.store == st
    ensures o.reply.status == 400 <==> !Acceptable(f, file)
    ensures o.reply.status == 404 <==>
              Acceptable(f, file) && FindById(st.buses, BusId, f.busId.value).None?
    ensures o.reply.status == 409 <==>
              Acceptable(f, file) && FindById(st.buses, BusId, f.busId.value).Some? && DuplicateOf(st, f)
    ensures o.reply.status == 201 ==>
              && Acceptable(f, file) && o.reply.payload.RouteBody?
              && o.reply.payload.route == NewRoute(st, f, file.value)
              && o.store == st.(routes := st.routes + [o.reply.payload.route])
              && forall i :: 0 <= i < |st.routes| ==> st.routes[i].routeName != o.reply.payload.route.routeName
    ensures o.reply.status == 201 <==>
              && Acceptable(f, file) && FindById(st.buses, BusId, f.busId.value).Some? && !DuplicateOf(st, f)
              && forall i :: 0 <= i < |st.routes| ==> st.routes[i].routeName != Trim(f.routeName.value)
  {
    if !Complete(f) then
      Answer(st, 400, "routeName, startLocation, endLocation, distance, busId are required")
    else if file.None? then Answer(st, 400, "Route map image (routeMap) is required")
    else if ParsePositiveNumber(f.distance.value).None? then
      Answer(st, 400, "distance must be a positive number")
    else if FindById(st.buses, BusId, f.busId.value).None? then Answer(st, 404, "Bus not found")
    else
      if DuplicateOf(st, f) then Answer(st, 409, "Route with same name and endpoints exists")
      else
        var route := NewRoute(st, f, file.value);
        match SaveUnique(st.routes, route, RouteId, RouteName)
        case None => ServerError(st)
        case Some(rs) =>
          SavedNewIsAppended(st.routes, route, RouteId, RouteName);
          Outcome(Reply(201, "Route created", RouteBody(route)), st.(routes := rs))
  }

  /** The controller's duplicate check is weaker than the schema's unique
      index: a new route whose name is taken by a route with other
      endpoints passes the check and is refused by the index, with 500. */
  lemma NameTakenIs500(st: Store, f: RouteForm, file: Option<Upload>, k: nat)
    requires Acceptable(f, file) && FindById(st.buses, BusId, f.busId.value).Some?
    requires !DuplicateOf(st, f)
    requires k < |st.routes| && st.routes[k].routeName == Trim(f.routeName.value)
    ensures CreateRoute(st, f, file).reply.status == 500
    ensures CreateRoute(st, f, file).store == st
  {
    var route := NewRoute(st, f, file.value);
    assert st.routes[k].id != route.id;
  }

  /** `createRoute` keeps identifiers, names and slugs of the routes unique. */
  lemma CreateRouteKeepsUnique(st: Store, f: RouteForm, file: Option<Upload>)
    requires UniqueKeys(st.routes, RouteId) && UniqueKeys(st.routes, RouteName)
    requires UniqueKeys(st.routes, RouteSlug)
    ensures var o := CreateRoute(st, f, file);
            UniqueKeys(o.store.routes, RouteId) && UniqueKeys(o.store.routes, RouteName)
            && UniqueKeys(o.store.routes, RouteSlug)
  {
    var o := CreateRoute(st, f, file);
    if o.reply.status == 201 {
      var route := o.reply.payload.route;
      AppendKeepsUnique(st.routes, route, RouteId);
      AppendKeepsUnique(st.routes, route, RouteName);
      AppendKeepsUnique(st.routes, route, RouteSlug);
    }
  }

  function RouteSlug(r: Route): string { r.routeURL }

  /** `findRouteOr404`: 400 without an identifier, 404 when no route has it. */
  function FindRoute(st: Store, id: Option<Id>): (r: Result)
    ensures r.Found? <==> id.Some? && FindById(st.routes, RouteId, id.value).Some?
    ensures r.Found? ==> r.index < |st.routes| && st.routes[r.index].id == id.value
    ensures r.Missing? ==> r.outcome.store == st && r.outcome.reply.status == (if id.None? then 400 else 404)
  {
    match id
    case None => Missing(Answer(st, 400, "Route ID required"))
    case Some(k) =>
      match FindById(st.routes, RouteId, k)
      case None => Missing(Answer(st, 404, "Route not found"))
      case Some(i) => Found(i)
  }

  /** A look-up: the position of the document, or the reply already sent. */
  datatype Result = Found(index: nat) | Missing(outcome: Outcome)

  /** The body of `PUT /routes/:id`: every field optional. `routeName`,
      `startLocation` and `endLocation` are `None` when missing; `distance`
      is `None` when it is `undefined`, otherwise what `Number` makes of it. */
  datatype RoutePatch = RoutePatch(
    routeName: Option<string>,
    startLocation: Option<string>,
    endLocation: Option<string>,
    distance: Option<Option<int>>,
    busId: Option<Id>)

  /** The name is replaced, and the slug recomputed, only when the given
      name is non-blank and differs from the stored one as written,
      untrimmed. */
  predicate Renames(p: RoutePatch, cur: Route) {
    Truthy(p.routeName) && Trim(p.routeName.value) != "" && p.routeName.value != cur.routeName
  }

  /** `x?.trim()` when that is truthy: the trimmed value of a non-blank field. */
  function Filled(x: Option<string>): (r: Option<string>)
    ensures r.Some? <==> x.Some? && Trim(x.value) != ""
    ensures r.Some? ==> r.value == Trim(x.value)
  {
    if x.Some? && Trim(x.value) != "" then Some(Trim(x.value)) else None
  }

  /** The slug a renamed route gets. */
  function NewSlug(st: Store, name: string): (u: string)
    ensures u !in TakenSlugs(st.routes)
  {
    UniqueSlug(Slugify(name), TakenSlugs(st.routes))
  }

  /** The name and slug after the update. */
  function Renamed(st: Store, cur: Route, p: RoutePatch): (r: Route)
    ensures Renames(p, cur) ==> r == cur.(routeName := Trim(p.routeName.value), routeURL := NewSlug(st, p.routeName.value))
    ensures !Renames(p, cur) ==> r == cur
  {
    if Renames(p, cur) then cur.(routeName := Trim(p.routeName.value), routeURL := NewSlug(st, p.routeName.value))
    else cur
  }

  /** The other supplied fields applied. */
  function Touched(r: Route, p: RoutePatch, file: Option<Upload>): (t: Route)
    requires p.distance.Some? ==> p.distance.value.Some?
    ensures t.id == r.id && t.routeName == r.routeName && t.routeURL == r.routeURL
    ensures t.startLocation == Filled(p.startLocation).GetOr(r.startLocation)
    ensures t.endLocation == Filled(p.endLocation).GetOr(r.endLocation)
    ensures t.distance == (if p.distance.Some? then p.distance.value.value else r.distance)
    ensures t.bus == p.busId.GetOr(r.bus)
    ensures file.None? ==> t.routeMapUrl == r.routeMapUrl && t.routeMapPublicId == r.routeMapPublicId
    ensures file.Some? ==> t.routeMapUrl == file.value.path && t.routeMapPublicId == file.value.filename
  {
    var measured := if p.distance.Some? then r.(distance := p.distance.value.value) else r;
    var moved := measured.(startLocation := Filled(p.startLocation).GetOr(r.startLocation),
                           endLocation := Filled(p.endLocation).GetOr(r.endLocation),
                           bus := p.busId.GetOr(r.bus));
    match file
    case Some(u) => moved.(routeMapUrl := u.path, routeMapPublicId := u.filename)
    case None => moved
  }

  /** The route with the supplied fields applied, before the checks that
      may still refuse it: a field that is not supplied keeps its value. */
  function Patched(st: Store, cur: Route, p: RoutePatch, file: Option<Upload>): (r: Route)
    requires p.distance.Some? ==> ParsePositiveNumber(p.distance.value).Some?
    ensures r.id == cur.id
    ensures Renames(p, cur) ==>
              r.routeName == Trim(p.routeName.value) && r.routeURL == NewSlug(st, p.routeName.value)
    ensures !Renames(p, cur) ==> r.routeName == cur.routeName && r.routeURL == cur.routeURL
    ensures r.startLocation == Filled(p.startLocation).GetOr(cur.startLocation)
    ensures r.endLocation == Filled(p.endLocation).GetOr(cur.endLocation)
    ensures r.distance == (if p.distance.Some? then p.distance.value.value else cur.distance)
    ensures r.bus == p.busId.GetOr(cur.bus)
    ensures file.None? ==> r.routeMapUrl == cur.routeMapUrl && r.routeMapPublicId == cur.routeMapPublicId
    ensures file.Some? ==> r.routeMapUrl == file.value.path && r.routeMapPublicId == file.value.filename
  {
    Touched(Renamed(st, cur, p), p, file)
  }

  /** The distance, when given, is a positive number. */
  predicate DistanceValid(p: RoutePatch) {
    p.distance.Some? ==> ParsePositiveNumber(p.distance.value).Some?
  }

  /** The supplied distance and bus pass `updateRoute`'s checks. */
  predicate PatchValid(st: Store, p: RoutePatch) {
    DistanceValid(p) && (p.busId.Some? ==> FindById(st.buses, BusId, p.busId.value).Some?)
  }

  /** Another route (by identifier) has the identifiers of `r`. */
  predicate Clashes(st: Store, r: Route) {
    exists i :: 0 <= i < |st.routes| && st.routes[i].id != r.id
      && SameIdentifiers(st.routes[i], r.routeName, r.startLocation, r.endLocation)
  }

  /** `updateRoute`: look the route up (400/404); apply the supplied name
      (with a new slug), endpoints, distance (400 when not positive), bus
      (404 when unknown) and map image; refuse with 409 when another route
      has the resulting name and endpoints; save through the unique index
      on `routeName` (500 when another route has the name). */
  function UpdateRoute(st: Store, id: Option<Id>, p: RoutePatch, file: Option<Upload>): (o: Outcome)
    ensures o.reply.status in {200, 400, 404, 409, 500}
    ensures o.reply.status != 200 ==> o.store == st
    ensures o.reply.status == 400 <==>
              id.None? || (FindRoute(st, id).Found? && p.distance.Some? && ParsePositiveNumber(p.distance.value).None?)
    ensures o.reply.status == 404 <==>
              (id.Some? && FindRoute(st, id).Missing?)
              || (FindRoute(st, id).Found? && DistanceValid(p) && p.busId.Some?
                  && FindById(st.buses, BusId, p.busId.value).None?)
    ensures o.reply.status == 409 <==>
              FindRoute(st, id).Found? && PatchValid(st, p)
              && Clashes(st, Patched(st, st.routes[FindRoute(st, id).index], p, file))
    ensures o.reply.status == 200 ==>
              && FindRoute(st, id).Found? && PatchValid(st, p)
              && var k := FindRoute(st, id).index;
                 && o.reply.payload == RouteBody(Patched(st, st.routes[k], p, file))
                 && o.store == st.(routes := st.routes[k := Patched(st, st.routes[k], p, file)])
  {
    match FindRoute(st, id)
    case Missing(o) => o
    case Found(k) =>
      if p.distance.Some? && ParsePositiveNumber(p.distance.value).None? then
        Answer(st, 400, "distance must be positive number")
      else if p.busId.Some? && FindById(st.buses, BusId, p.busId.value).None? then
        Answer(st, 404, "Bus not found")
      else
        var r := Patched(st, st.routes[k], p, file);
        if Clashes(st, r) then Answer(st, 409, "Another route with same identifiers exists")
        else
          match SaveUnique(st.routes, r, RouteId, RouteName)
          case None => ServerError(st)
          case Some(rs) =>
            assert FindById(st.routes, RouteId, r.id) == Some(k) by {
              assert FindRoute(st, id).index == k;
            }
            Outcome(Reply(200, "Route updated", RouteBody(r)), st.(routes := rs))
  }

  /** An update that supplies nothing changes nothing: the route itself is
      not counted as its own duplicate, and the save writes the same route
      back. */
  lemma EmptyUpdateIsNoop(st: Store, id: Id)
    requires UniqueKeys(st.routes, RouteId) && UniqueKeys(st.routes, RouteName)
    requires FindById(st.routes, RouteId, id).Some?
    ensures var o := UpdateRoute(st, Some(id), RoutePatch(None, None, None, None, None), None);
            o.reply.status == 200 && o.store == st
  {
    var k := FindById(st.routes, RouteId, id).value;
    var r := st.routes[k];
    var p := RoutePatch(None, None, None, None, None);
    assert Patched(st, r, p, None) == r;
    forall i | 0 <= i < |st.routes| && st.routes[i].id != r.id
      ensures !SameIdentifiers(st.routes[i], r.routeName, r.startLocation, r.endLocation)
    {
      if i < k { assert RouteName(st.routes[i]) != RouteName(st.routes[k]); }
      else if i > k { assert RouteName(st.routes[k]) != RouteName(st.routes[i]); }
    }
    assert st.routes[k := r] == st.routes;
  }

  /** Re-submitting the stored name, exactly as stored, keeps the slug. A
      name that differs only in surrounding blanks is a rename: it is
      trimmed back to the same name, yet the slug is recomputed against a
      set that contains the route's own slug. */
  lemma SameNameKeepsSlug(st: Store, id: Id, p: RoutePatch, file: Option<Upload>)
    requires FindById(st.routes, RouteId, id).Some?
    requires p.routeName == Some(st.routes[FindById(st.routes, RouteId, id).value].routeName)
    ensures var o := UpdateRoute(st, Some(id), p, file);
            o.reply.status == 200 ==>
              o.reply.payload.route.routeURL == st.routes[FindById(st.routes, RouteId, id).value].routeURL
  {
  }

  /** A name that trims to the stored one but is written differently
      counts as a rename: the name stays the same, yet the route moves to
      another slug, because its own slug is among those taken. */
  lemma PaddedNameMovesSlug(st: Store, id: Id, p: RoutePatch, file: Option<Upload>)
    requires FindById(st.routes, RouteId, id).Some?
    requires var cur := st.routes[FindById(st.routes, RouteId, id).value];
             p.routeName.Some? && Trim(p.routeName.value) == cur.routeName != ""
             && p.routeName.value != cur.routeName
    ensures var cur := st.routes[FindById(st.routes, RouteId, id).value];
            var o := UpdateRoute(st, Some(id), p, file);
            o.reply.status == 200 ==>
              o.reply.payload.route.routeName == cur.routeName
              && o.reply.payload.route.routeURL != cur.routeURL
  {
    var k := FindById(st.routes, RouteId, id).value;
    assert st.routes[k].routeURL in TakenSlugs(st.routes);
  }

  /** `updateRoute` keeps identifiers and names of the routes unique. */
  lemma UpdateRouteKeepsUnique(st: Store, id: Option<Id>, p: RoutePatch, file: Option<Upload>)
    requires UniqueKeys(st.routes, RouteId) && UniqueKeys(st.routes, RouteName)
    ensures var o := UpdateRoute(st, id, p, file);
            UniqueKeys(o.store.routes, RouteId) && UniqueKeys(o.store.routes, RouteName)
    ensures UniqueKeys(st.routes, RouteSlug) ==>
              UniqueKeys(UpdateRoute(st, id, p, file).store.routes, RouteSlug)
  {
    var o := UpdateRoute(st, id, p, file);
    if o.reply.status == 200 {
      var k := FindRoute(st, id).index;
      var r := Patched(st, st.routes[k], p, file);
      var saved := SaveUnique(st.routes, r, RouteId, RouteName);
      assert saved.Some? && saved.value == st.routes[k := r];
      if UniqueKeys(st.routes, RouteSlug) {
        var rs := st.routes[k := r];
        forall i, j | 0 <= i < j < |rs|
          ensures RouteSlug(rs[i]) != RouteSlug(rs[j])
        {
          if i == k || j == k {
            if Renames(p, st.routes[k]) {
              assert r.routeURL !in TakenSlugs(st.routes);
            }
          }
        }
      }
    }
  }

  /** `deleteRoute`: look the route up (400/404) and remove it. */
  function DeleteRoute(st: Store, id: Option<Id>): (o: Outcome)
    ensures o.reply.status in {200, 400, 404}
    ensures o.reply.status != 200 ==> o.store == st
    ensures o.reply.status == 200 <==> id.Some? && FindById(st.routes, RouteId, id.value).Some?
    ensures o.reply.status == 200 ==>
              o.store == st.(routes := Remove(st.routes, FindById(st.routes, RouteId, id.value).value))
  {
    match FindRoute(st, id)
    case Missing(o) => o
    case Found(k) => Answer(st.(routes := Remove(st.routes, k)), 200, "Route deleted")
  }

  /** With unique identifiers, a deleted route is gone and every other
      route is still stored. */
  lemma DeletedRouteIsGone(st: Store, id: Id)
    requires UniqueKeys(st.routes, RouteId)
    ensures var o := DeleteRoute(st, Some(id));
            o.reply.status == 200 ==>
              && FindById(o.store.routes, RouteId, id).None?
              && forall j :: 0 <= j < |st.routes| && st.routes[j].id != id ==> st.routes[j] in o.store.routes
  {
    if DeleteRoute(st, Some(id)).reply.status == 200 {
      var k := FindById(st.routes, RouteId, id).value;
      var r := Remove(st.routes, k);
      forall i | 0 <= i < |r| ensures r[i].id != id {
        if i < k { assert r[i] == st.routes[i]; } else { assert r[i] == st.routes[i + 1]; }
      }
      forall j | 0 <= j < |st.routes| && st.routes[j].id != id ensures st.routes[j] in r {
        if j < k { assert r[j] == st.routes[j]; } else { assert r[j - 1] == st.routes[j]; }
      }
    }
  }
}

=== FILE: seats.dfy ===
/** Seat arithmetic of the booking controller: cleaning the requested seat
    list, the seats already taken on a bus and day, and the two filters
    (over capacity, clashing) the request is checked against. */
module Seats {
  import opened Wrappers
  import opened Seqs
  import opened Keyed
  import opened Records

  /** The result of `Number(x)` on one requested element: an integral
      number, or anything else (a fraction, `NaN`, an infinity). Values that
      are not integers are all dropped, so they need not be told apart. */
  datatype NumValue = Int(i: int) | NonInteger

  /** `seatNumber` as it arrives: an array, or a single value that the
      controller wraps into a one-element list. */
  datatype SeatInput = List(items: seq<NumValue>) | Single(item: NumValue)

  function AsList(x: SeatInput): (r: seq<NumValue>)
    ensures x.Single? ==> r == [x.item]
  {
    match x
    case List(items) => items
    case Single(item) => [item]
  }

  predicate IsPositiveInt(v: NumValue) {
    v.Int? && v.i > 0
  }

  /** The positive integers of `vs`, in order. */
  function Positives(vs: seq<NumValue>): (r: seq<int>)
    ensures |r| <= |vs|
    ensures forall n :: n in r <==> n > 0 && Int(n) in vs
    ensures forall i :: 0 <= i < |r| ==> r[i] > 0
    decreases |vs|
  {
    if |vs| == 0 then []
    else
      var init := vs[..|vs| - 1];
      var last := vs[|vs| - 1];
      assert vs == init + [last];
      if IsPositiveInt(last) then Positives(init) + [last.i] else Positives(init)
  }

  /** Filtering a list without duplicates keeps it free of duplicates. */
  lemma {:induction false} PositivesDistinct(vs: seq<NumValue>)
    requires NoDuplicates(vs)
    ensures NoDuplicates(Positives(vs))
    decreases |vs|
  {
    if |vs| > 0 {
      var init := vs[..|vs| - 1];
      var last := vs[|vs| - 1];
      assert vs == init + [last];
      assert NoDuplicates(init);
      PositivesDistinct(init);
      if IsPositiveInt(last) {
        assert last !in init;
        assert last.i !in Positives(init);
      }
    }
  }

  /** A value of `init` keeps its first position when `last` is appended. */
  lemma IndexInPrefix(init: seq<NumValue>, last: NumValue, x: NumValue)
    requires x in init
    ensures IndexOf(init + [last], x) == IndexOf(init, x) < |init|
  {
    var i := IndexOf(init, x);
    var vs := init + [last];
    assert vs[i] == x;
    assert vs[..i] == init[..i];
  }

  /** Filtering a list without duplicates keeps the surviving elements in
      their original order. */
  lemma {:induction false} PositivesKeepOrder(vs: seq<NumValue>)
    requires NoDuplicates(vs)
    ensures forall i, j :: 0 <= i < j < |Positives(vs)| ==>
              IndexOf(vs, Int(Positives(vs)[i])) < IndexOf(vs, Int(Positives(vs)[j]))
    decreases |vs|
  {
    if |vs| > 0 {
      var init := vs[..|vs| - 1];
      var last := vs[|vs| - 1];
      assert vs == init + [last];
      assert NoDuplicates(init);
      PositivesKeepOrder(init);
      var p := Positives(init);
      var r := Positives(vs);
      assert r == if IsPositiveInt(last) then p + [last.i] else p;
      forall i, j | 0 <= i < j < |r|
        ensures IndexOf(vs, Int(r[i])) < IndexOf(vs, Int(r[j]))
      {
        var x := Int(p[i]);
        assert x in init && r[i] == p[i];
        IndexInPrefix(init, last, x);
        if j < |p| {
          var y := Int(p[j]);
          assert y in init && r[j] == p[j];
          IndexInPrefix(init, last, y);
        } else {
          assert Int(r[j]) == last;
          assert last !in init;
          assert vs[..|vs| - 1] == init;
          assert IndexOf(vs, last) == |vs| - 1;
        }
      }
    }
  }

  /** `getCleanSeats`: `[...new Set(nums.map(Number))]` filtered to the
      positive integers. The result has no duplicates and only positive
      seats, holds exactly the positive integers of the input, and keeps
      them in the order of their first occurrence: it is not sorted. */
  function CleanSeats(x: SeatInput): (r: seq<int>)
    ensures NoDuplicates(r)
    ensures forall i :: 0 <= i < |r| ==> r[i] > 0
    ensures forall n :: n in r <==> n > 0 && Int(n) in AsList(x)
    ensures forall i, j :: 0 <= i < j < |r| ==>
              IndexOf(AsList(x), Int(r[i])) < IndexOf(AsList(x), Int(r[j]))
  {
    var d := Dedup(AsList(x));
    CleanOrder(AsList(x));
    Positives(d)
  }

  /** The order argument behind `CleanSeats`: de-duplication keeps first
      occurrences in order and filtering keeps that order. */
  lemma CleanOrder(s: seq<NumValue>)
    ensures NoDuplicates(Positives(Dedup(s)))
    ensures forall i, j :: 0 <= i < j < |Positives(Dedup(s))| ==>
              IndexOf(s, Int(Positives(Dedup(s))[i])) < IndexOf(s, Int(Positives(Dedup(s))[j]))
  {
    var d := Dedup(s);
    var r := Positives(d);
    PositivesDistinct(d);
    PositivesKeepOrder(d);
    forall i, j | 0 <= i < j < |r|
      ensures IndexOf(s, Int(r[i])) < IndexOf(s, Int(r[j]))
    {
      var a, b := IndexOf(d, Int(r[i])), IndexOf(d, Int(r[j]));
      assert d[a] == Int(r[i]) && d[b] == Int(r[j]);
    }
  }

  /** A list of seat numbers as the values `Number` gives back for them. */
  function Numbers(seats: seq<int>): (vs: seq<NumValue>)
    ensures |vs| == |seats|
    ensures forall i :: 0 <= i < |seats| ==> vs[i] == Int(seats[i])
  {
    seq(|seats|, i requires 0 <= i < |seats| => Int(seats[i]))
  }

  /** Cleaning an already clean list gives it back unchanged. */
  lemma CleanSeatsOfClean(seats: seq<int>)
    requires NoDuplicates(seats)
    requires forall i :: 0 <= i < |seats| ==> seats[i] > 0
    ensures CleanSeats(List(Numbers(seats))) == seats
  {
    var vs := Numbers(seats);
    assert NoDuplicates(vs);
    DedupOfDistinct(vs);
    PositivesOfPositive(seats);
  }

  lemma {:induction false} PositivesOfPositive(seats: seq<int>)
    requires forall i :: 0 <= i < |seats| ==> seats[i] > 0
    ensures Positives(Numbers(seats)) == seats
    decreases |seats|
  {
    if |seats| > 0 {
      var vs := Numbers(seats);
      var init := seats[..|seats| - 1];
      PositivesOfPositive(init);
      assert vs[..|vs| - 1] == Numbers(init);
      assert seats == init + [seats[|seats| - 1]];
    }
  }

  /** The taken-seat set of the aggregation: the union of `seatNumber` over
      the "booked" bookings of `bus` on `day`. Cancelled bookings and other
      buses or days never contribute. */
  function TakenSeats(bs: seq<Booking>, bus: Id, day: Day): (taken: set<int>)
    ensures forall s :: s in taken <==>
              exists k :: 0 <= k < |bs| && Holds(bs[k], bus, day) && s in bs[k].seatNumber
    decreases |bs|
  {
    if |bs| == 0 then {}
    else
      var init := bs[..|bs| - 1];
      var last := bs[|bs| - 1];
      var t := TakenSeats(init, bus, day);
      assert forall k :: 0 <= k < |init| ==> init[k] == bs[k];
      if Holds(last, bus, day) then t + set s | s in last.seatNumber else t
  }

  /** The seats of a request that lie above the bus capacity, in request
      order. A seat equal to the capacity is accepted. */
  function OverCapacity(seats: seq<int>, capacity: int): (r: seq<int>)
    ensures forall s :: s in r <==> s in seats && s > capacity
    ensures |r| == 0 <==> forall i :: 0 <= i < |seats| ==> seats[i] <= capacity
    ensures forall s :: multiset(r)[s] == if s > capacity then multiset(seats)[s] else 0
    ensures NoDuplicates(seats) ==>
              && NoDuplicates(r)
              && forall i, j :: 0 <= i < j < |r| ==> IndexOf(seats, r[i]) < IndexOf(seats, r[j])
  {
    var r := Filter(seats, (s: int) => s > capacity);
    FilterKeepsOrder(seats, (s: int) => s > capacity);
    assert |r| > 0 ==> r[0] in r;
    assert forall i :: 0 <= i < |seats| ==> seats[i] in seats;
    r
  }

  /** The requested seats already taken, in request order. */
  function Clashes(seats: seq<int>, taken: set<int>): (r: seq<int>)
    ensures forall s :: s in r <==> s in seats && s in taken
    ensures |r| == 0 <==> forall i :: 0 <= i < |seats| ==> seats[i] !in taken
    ensures forall s :: multiset(r)[s] == if s in taken then multiset(seats)[s] else 0
    ensures NoDuplicates(seats) ==>
              && NoDuplicates(r)
              && forall i, j :: 0 <= i < j < |r| ==> IndexOf(seats, r[i]) < IndexOf(seats, r[j])
  {
    var r := Filter(seats, (s: int) => s in taken);
    FilterKeepsOrder(seats, (s: int) => s in taken);
    assert |r| > 0 ==> r[0] in r;
    assert forall i :: 0 <= i < |seats| ==> seats[i] in seats;
    r
  }
}

=== FILE: seqs.dfy ===
/** Generic sequence helpers: the `findOne` / `filter` / `new Set(...)`
    operations the controllers apply to stored documents and to arrays. */
module Seqs {
  import opened Wrappers

  /** Index of the first element satisfying `p`, as a `findOne` over a
      collection kept in natural (insertion) order. */
  function FirstIndex<T>(s: seq<T>, p: T -> bool): (r: Option<nat>)
    ensures r.Some? ==> r.value < |s| && p(s[r.value])
    ensures r.Some? ==> forall j :: 0 <= j < r.value ==> !p(s[j])
    ensures r.None? ==> forall j :: 0 <= j < |s| ==> !p(s[j])
  {
    if |s| == 0 then None
    else if p(s[0]) then Some(0)
    else match FirstIndex(s[1..], p)
      case None => None
      case Some(k) => Some(k + 1)
  }

  /** `Array.prototype.filter`: the elements satisfying `p`, in order. */
  function Filter<T(==,!new)>(s: seq<T>, p: T -> bool): (r: seq<T>)
    ensures |r| <= |s|
    ensures forall x :: x in r <==> x in s && p(x)
    ensures forall x :: multiset(r)[x] == if p(x) then multiset(s)[x] else 0
    decreases |s|
  {
    if |s| == 0 then []
    else
      assert s == s[..|s| - 1] + [s[|s| - 1]];
      if p(s[|s| - 1]) then Filter(s[..|s| - 1], p) + [s[|s| - 1]]
      else Filter(s[..|s| - 1], p)
  }

  /** On a list without repetitions, `Filter` keeps the relative order of
      the elements it keeps, and repeats none of them. */
  lemma {:induction false} FilterKeepsOrder<T(!new)>(s: seq<T>, p: T -> bool)
    ensures NoDuplicates(s) ==>
              && NoDuplicates(Filter(s, p))
              && forall i, j :: 0 <= i < j < |Filter(s, p)| ==>
                   IndexOf(s, Filter(s, p)[i]) < IndexOf(s, Filter(s, p)[j])
    decreases |s|
  {
    if |s| > 0 && NoDuplicates(s) {
      var init, last := s[..|s| - 1], s[|s| - 1];
      assert s == init + [last];
      assert NoDuplicates(init);
      FilterKeepsOrder(init, p);
      LastIsNew(s);
      var fi := Filter(init, p);
      if p(last) {
        assert Filter(s, p) == fi + [last];
        OrderedAppend(init, last, fi);
      } else {
        assert Filter(s, p) == fi;
        OrderedExtend(init, last, fi);
      }
    }
  }

  /** The last element of a list without repetitions occurs nowhere
      before it. */
  lemma LastIsNew<T>(s: seq<T>)
    requires |s| > 0 && NoDuplicates(s)
    ensures s[|s| - 1] !in s[..|s| - 1]
  {
    var init := s[..|s| - 1];
    forall i | 0 <= i < |init|
      ensures init[i] != s[|s| - 1]
    {
      assert init[i] == s[i];
    }
  }

  /** Order by first occurrence survives appending a new element at the
      end of the list. */
  lemma OrderedExtend<T>(init: seq<T>, last: T, fi: seq<T>)
    requires forall x :: x in fi ==> x in init
    requires forall i, j :: 0 <= i < j < |fi| ==> IndexOf(init, fi[i]) < IndexOf(init, fi[j])
    ensures forall i, j :: 0 <= i < j < |fi| ==> IndexOf(init + [last], fi[i]) < IndexOf(init + [last], fi[j])
  {
    IndexOfExtend(init, last);
    forall i, j | 0 <= i < j < |fi|
      ensures IndexOf(init + [last], fi[i]) < IndexOf(init + [last], fi[j])
    {
      assert fi[i] in init && fi[j] in init;
    }
  }

  /** A new element appended at the end is first found at the end. */
  lemma NewLastIndex<T>(init: seq<T>, last: T)
    requires last !in init
    ensures IndexOf(init + [last], last) == |init|
  {
    var s := init + [last];
    forall k | 0 <= k < |init|
      ensures s[k] != last
    {
      assert s[k] == init[k];
    }
  }

  /** Appending the new last element to a selection of earlier elements
      repeats nothing. */
  lemma DistinctAppend<T>(init: seq<T>, last: T, fi: seq<T>)
    requires last !in init && forall x :: x in fi ==> x in init
    requires NoDuplicates(fi)
    ensures NoDuplicates(fi + [last])
  {
    var r := fi + [last];
    forall i, j | 0 <= i < j < |r|
      ensures r[i] != r[j]
    {
      assert r[i] == fi[i] && fi[i] in init;
      if j < |fi| {
        assert r[j] == fi[j];
      }
    }
  }

  /** Appending the new last element to an ordered selection keeps it
      ordered and free of repetitions. */
  lemma OrderedAppend<T>(init: seq<T>, last: T, fi: seq<T>)
    requires last !in init && forall x :: x in fi ==> x in init
    requires NoDuplicates(fi)
    requires forall i, j :: 0 <= i < j < |fi| ==> IndexOf(init, fi[i]) < IndexOf(init, fi[j])
    ensures NoDuplicates(fi + [last])
    ensures forall i, j :: 0 <= i < j < |fi + [last]| ==>
              IndexOf(init + [last], (fi + [last])[i]) < IndexOf(init + [last], (fi + [last])[j])
  {
    DistinctAppend(init, last, fi);
    OrderedExtend(init, last, fi);
    NewLastIndex(init, last);
    IndexOfExtend(init, last);
    var s, r := init + [last], fi + [last];
    forall i, j | 0 <= i < j < |r|
      ensures IndexOf(s, r[i]) < IndexOf(s, r[j])
    {
      assert r[i] == fi[i] && fi[i] in init;
      if j < |fi| {
        assert r[j] == fi[j];
      } else {
        assert r[j] == last;
      }
    }
  }

  predicate NoDuplicates<T(==)>(s: seq<T>) {
    forall i, j :: 0 <= i < j < |s| ==> s[i] != s[j]
  }

  /** Position of the first occurrence of `x` in `s`. */
  function IndexOf<T(==)>(s: seq<T>, x: T): (i: nat)
    requires x in s
    ensures i < |s| && s[i] == x
    ensures x !in s[..i]
  {
    if s[0] == x then 0
    else
      assert x in s[1..];
      var k := IndexOf(s[1..], x);
      assert s[1..][..k] == s[1..k + 1];
      k + 1
  }

  /** Elements of `a` appear in `a` in the order of their first occurrence in `s`. */
  ghost predicate FirstOccurrenceOrder<T>(a: seq<T>, s: seq<T>)
    requires forall x :: x in a ==> x in s
  {
    forall i, j :: 0 <= i < j < |a| ==> IndexOf(s, a[i]) < IndexOf(s, a[j])
  }

  /** The spreading of `new Set(s)` back into an array: every distinct value
      once, at the place of its first occurrence. */
  function Dedup<T(==,!new)>(s: seq<T>): (r: seq<T>)
    ensures NoDuplicates(r)
    ensures forall x :: x in r <==> x in s
    ensures FirstOccurrenceOrder(r, s)
    decreases |s|
  {
    if |s| == 0 then []
    else
      var init := s[..|s| - 1];
      var last := s[|s| - 1];
      var d := Dedup(init);
      assert s == init + [last];
      IndexOfExtend(init, last);
      if last in d then d
      else
        d + [last]
  }

  /** A list without duplicates is its own de-duplication. */
  lemma {:induction false} DedupOfDistinct<T(!new)>(s: seq<T>)
    requires NoDuplicates(s)
    ensures Dedup(s) == s
    decreases |s|
  {
    if |s| > 0 {
      var init := s[..|s| - 1];
      assert NoDuplicates(init);
      DedupOfDistinct(init);
      assert s[|s| - 1] !in init;
      assert s == init + [s[|s| - 1]];
    }
  }

  /** Appending an element does not move the first occurrence of a value
      that already occurred. */
  lemma IndexOfExtend<T>(s: seq<T>, y: T)
    ensures forall x :: x in s ==> x in s + [y] && IndexOf(s + [y], x) == IndexOf(s, x)
  {
    forall x | x in s
      ensures IndexOf(s + [y], x) == IndexOf(s, x)
    {
      var i := IndexOf(s, x);
      assert (s + [y])[i] == x;
    }
  }
}

/** Keyed collections: the document-store operations `save` (insert or
    replace by `_id`) and the unique-index check that guards it. */
module Keyed {
  import opened Wrappers
  import opened Seqs

  type Id = nat

  /** No two elements of `s` share a `key`. */
  ghost predicate UniqueKeys<T, K>(s: seq<T>, key: T -> K) {
    forall i, j :: 0 <= i < j < |s| ==> key(s[i]) != key(s[j])
  }

  /** An identifier larger than every identifier in `s` (a freshly minted `_id`). */
  function FreshId<T>(s: seq<T>, id: T -> Id): (r: Id)
    ensures forall i :: 0 <= i < |s| ==> id(s[i]) < r
  {
    if |s| == 0 then 0
    else
      var rest := FreshId(s[1..], id);
      var r := if id(s[0]) + 1 > rest then id(s[0]) + 1 else rest;
      assert forall i :: 1 <= i < |s| ==> s[i] == s[1..][i - 1];
      r
  }

  /** Position of the element with identifier `k`, as `findById`. */
  function FindById<T>(s: seq<T>, id: T -> Id, k: Id): (r: Option<nat>)
    ensures r.Some? ==> r.value < |s| && id(s[r.value]) == k
    ensures r.None? ==> forall i :: 0 <= i < |s| ==> id(s[i]) != k
  {
    FirstIndex(s, (x: T) => id(x) == k)
  }

  /** `document.save()`: replaces the element with the same identifier, or
      appends when there is none. */
  function Upsert<T>(s: seq<T>, x: T, id: T -> Id): (r: seq<T>)
    ensures FindById(s, id, id(x)).Some? ==> |r| == |s| && r == s[FindById(s, id, id(x)).value := x]
    ensures FindById(s, id, id(x)).None? ==> r == s + [x]
    ensures x in r
  {
    match FindById(s, id, id(x))
    case Some(k) => assert s[k := x][k] == x; s[k := x]
    case None => s + [x]
  }

  /** With unique identifiers, upserting an element under the identifier
      held at position `k` replaces position `k`. */
  lemma UpsertInPlace<T>(s: seq<T>, x: T, id: T -> Id, k: nat)
    requires k < |s| && UniqueKeys(s, id) && id(x) == id(s[k])
    ensures FindById(s, id, id(x)) == Some(k)
    ensures Upsert(s, x, id) == s[k := x]
  {
  }

  /** Saving through a unique index on `key`: refused (a duplicate-key
      error, `None`) exactly when another element already holds `x`'s key;
      otherwise the save keeps both the identifiers and the keys unique. */
  function SaveUnique<T, K(==)>(s: seq<T>, x: T, id: T -> Id, key: T -> K): (r: Option<seq<T>>)
    ensures r.None? <==> exists i :: 0 <= i < |s| && key(s[i]) == key(x) && id(s[i]) != id(x)
    ensures r.Some? ==> x in r.value
    ensures r.Some? && UniqueKeys(s, id) && UniqueKeys(s, key) ==>
              UniqueKeys(r.value, id) && UniqueKeys(r.value, key)
  {
    match FirstIndex(s, (y: T) => key(y) == key(x) && id(y) != id(x))
    case Some(_) => None
    case None =>
      UpsertKeepsUnique(s, x, id, key);
      Some(Upsert(s, x, id))
  }

  /** A save of an element with a new identifier that the index admits
      appends it, and no stored element held its key. */
  lemma SavedNewIsAppended<T, K>(s: seq<T>, x: T, id: T -> Id, key: T -> K)
    requires forall i :: 0 <= i < |s| ==> id(s[i]) != id(x)
    requires SaveUnique(s, x, id, key).Some?
    ensures SaveUnique(s, x, id, key).value == s + [x]
    ensures forall i :: 0 <= i < |s| ==> key(s[i]) != key(x)
  {
  }

  /** Appending an element with a new key keeps the keys unique. */
  lemma AppendKeepsUnique<T, K>(s: seq<T>, x: T, key: T -> K)
    requires UniqueKeys(s, key)
    requires forall i :: 0 <= i < |s| ==> key(s[i]) != key(x)
    ensures UniqueKeys(s + [x], key)
  {
    var r := s + [x];
    forall i, j | 0 <= i < j < |r| ensures key(r[i]) != key(r[j]) {
      assert r[i] == s[i];
      if j < |s| { assert r[j] == s[j]; }
    }
  }

  /** `document.deleteOne()`: the element at position `k` removed, the
      others kept in order. */
  function Remove<T>(s: seq<T>, k: nat): (r: seq<T>)
    requires k < |s|
    ensures |r| == |s| - 1
    ensures forall i :: 0 <= i < k ==> r[i] == s[i]
    ensures forall i :: k <= i < |r| ==> r[i] == s[i + 1]
  {
    s[..k] + s[k + 1..]
  }

  /** Removing an element keeps every key unique. */
  lemma RemoveKeepsUnique<T, K>(s: seq<T>, k: nat, key: T -> K)
    requires k < |s| && UniqueKeys(s, key)
    ensures UniqueKeys(Remove(s, k), key)
  {
    var r := Remove(s, k);
    forall i, j | 0 <= i < j < |r| ensures key(r[i]) != key(r[j]) {
      var i', j' := if i < k then i else i + 1, if j < k then j else j + 1;
      assert r[i] == s[i'] && r[j] == s[j'];
    }
  }

  lemma UpsertKeepsUnique<T, K>(s: seq<T>, x: T, id: T -> Id, key: T -> K)
    requires forall i :: 0 <= i < |s| && key(s[i]) == key(x) ==> id(s[i]) == id(x)
    ensures UniqueKeys(s, id) && UniqueKeys(s, key) ==>
              UniqueKeys(Upsert(s, x, id), id) && UniqueKeys(Upsert(s, x, id), key)
  {
    if !(UniqueKeys(s, id) && UniqueKeys(s, key)) { return; }
    var r := Upsert(s, x, id);
    match FindById(s, id, id(x))
    case Some(k) =>
      forall i, j | 0 <= i < j < |r|
        ensures id(r[i]) != id(r[j]) && key(r[i]) != key(r[j])
      {
        if i == k {
          assert id(s[j]) != id(s[k]);
        } else if j == k {
          assert id(s[i]) != id(s[k]);
        }
      }
    case None =>
  }
}

=== FILE: slugs.dfy ===
/** URL slugs for routes: `slugify` and the least-free-suffix search
    `buildUniqueSlug`. */
module Slugs {
  import opened Wrappers
  import opened Text

  /** The characters `[a-z0-9]` a slug keeps. */
  predicate IsSlugChar(c: char) {
    ('a' <= c <= 'z') || ('0' <= c <= '9')
  }

  /** Only slug characters and hyphens. */
  predicate SlugAlphabet(s: string) {
    forall i :: 0 <= i < |s| ==> IsSlugChar(s[i]) || s[i] == '-'
  }

  /** No two hyphens in a row. */
  predicate NoDoubleDash(s: string) {
    forall i :: 0 <= i < |s| - 1 ==> !(s[i] == '-' && s[i + 1] == '-')
  }

  /** `.replace(/[^a-z0-9]+/g, "-")`: every maximal run of other characters
      becomes one hyphen. `inRun` says the character before `s` was such a
      run, already written as a hyphen. */
  function Collapse(s: string, inRun: bool): (r: string)
    ensures SlugAlphabet(r) && NoDoubleDash(r)
    ensures inRun ==> r == [] || r[0] != '-'
    ensures |r| <= |s|
    decreases |s|
  {
    if |s| == 0 then []
    else if IsSlugChar(s[0]) then [s[0]] + Collapse(s[1..], false)
    else if inRun then Collapse(s[1..], true)
    else ['-'] + Collapse(s[1..], true)
  }

  /** A string already in slug form is left alone by `Collapse`. */
  lemma {:induction false} CollapseOfSlug(s: string, inRun: bool)
    requires SlugAlphabet(s) && NoDoubleDash(s)
    requires inRun ==> s == [] || s[0] != '-'
    ensures Collapse(s, inRun) == s
    decreases |s|
  {
    if |s| > 0 {
      CollapseOfSlug(s[1..], !IsSlugChar(s[0]));
      assert s == [s[0]] + s[1..];
    }
  }

  /** A slice of a slug-form string is in slug form. */
  lemma SliceOfSlug(s: string, a: nat, b: nat)
    requires a <= b <= |s| && SlugAlphabet(s) && NoDoubleDash(s)
    ensures SlugAlphabet(s[a..b]) && NoDoubleDash(s[a..b])
  {
    assert forall i :: 0 <= i < b - a ==> s[a..b][i] == s[a + i];
  }

  function DropLeadingDashes(s: string): (r: string)
    ensures |r| <= |s| && r == s[|s| - |r|..]
    ensures r == [] || r[0] != '-'
    ensures forall i :: 0 <= i < |s| - |r| ==> s[i] == '-'
  {
    if |s| > 0 && s[0] == '-' then DropLeadingDashes(s[1..]) else s
  }

  function DropTrailingDashes(s: string): (r: string)
    ensures |r| <= |s| && r == s[..|r|]
    ensures r == [] || r[|r| - 1] != '-'
    ensures forall i :: |r| <= i < |s| ==> s[i] == '-'
  {
    if |s| > 0 && s[|s| - 1] == '-' then DropTrailingDashes(s[..|s| - 1]) else s
  }

  /** `.replace(/^-+|-+$/g, "")`: the hyphens at both ends removed. */
  function StripDashes(s: string): (r: string)
    requires SlugAlphabet(s) && NoDoubleDash(s)
    ensures SlugAlphabet(r) && NoDoubleDash(r) && |r| <= |s|
    ensures r == [] || (r[0] != '-' && r[|r| - 1] != '-')
    ensures s == [] || (s[0] != '-' && s[|s| - 1] != '-') ==> r == s
  {
    var inner := DropLeadingDashes(s);
    var r := DropTrailingDashes(inner);
    SliceOfSlug(s, |s| - |inner|, |s| - |inner| + |r|);
    assert r == s[|s| - |inner|..|s| - |inner| + |r|];
    r
  }

  /** The longest slug `substring(0, 80)` keeps. */
  const MaxSlugLength := 80

  /** `slugify`: trim, lower-case, turn every run of characters outside
      `[a-z0-9]` into one hyphen, strip the hyphens at both ends, and keep
      the first 80 characters. The result holds only `[a-z0-9-]`, never
      starts with a hyphen and never has two in a row; because the cut comes
      after the stripping, it can end with a hyphen, but only when the cut
      was made. */
  function Slugify(str: string): (r: string)
    ensures |r| <= MaxSlugLength
    ensures SlugAlphabet(r) && NoDoubleDash(r)
    ensures r == [] || r[0] != '-'
    ensures |r| > 0 && r[|r| - 1] == '-' ==> |r| == MaxSlugLength
  {
    var stripped := StripDashes(Collapse(ToLower(Trim(str)), false));
    if |stripped| <= MaxSlugLength then stripped
    else
      SliceOfSlug(stripped, 0, MaxSlugLength);
      stripped[..MaxSlugLength]
  }

  /** A string in slug form, of at most 80 characters and with no hyphen
      at either end, is its own slug. */
  lemma SlugFixedPoint(s: string)
    requires |s| <= MaxSlugLength && SlugAlphabet(s) && NoDoubleDash(s)
    requires s == [] || (s[0] != '-' && s[|s| - 1] != '-')
    ensures Slugify(s) == s
  {
    SlugIsNormal(s);
    CollapseOfSlug(s, false);
    assert StripDashes(s) == s;
  }

  /** A slug that does not end with a hyphen is its own slug. */
  lemma SlugifyIdempotent(str: string)
    ensures var s := Slugify(str);
            s == [] || s[|s| - 1] != '-' ==> Slugify(s) == s
  {
    var s := Slugify(str);
    if s == [] || s[|s| - 1] != '-' {
      SlugFixedPoint(s);
    }
  }

  /** Trimming and lower-casing leave a slug-form string alone. */
  lemma SlugIsNormal(s: string)
    requires SlugAlphabet(s)
    ensures Trim(s) == s && ToLower(s) == s
  {
    assert s == [] || (!IsSpace(s[0]) && !IsSpace(s[|s| - 1]));
    TrimOfUnpadded(s);
    assert forall i :: 0 <= i < |s| ==> LowerChar(s[i]) == s[i];
  }

  /** Seventy-nine slug characters, a space and one more slug character:
      the cut at 80 characters lands just after the hyphen, so the slug ends
      with one and is not its own slug. */
  lemma TruncatedSlugEndsWithDash(a: string, c: char)
    requires |a| == MaxSlugLength - 1 && IsSlugChar(c)
    requires forall i :: 0 <= i < |a| ==> IsSlugChar(a[i])
    ensures var s := Slugify(a + [' ', c]);
            s == a + "-" && Slugify(s) != s
  {
    var str := a + [' ', c];
    var dashed := a + ['-', c];
    SpacedIsNormal(a, c);
    CollapseOfSlug(a, false);
    assert Collapse([' ', c], false) == ['-', c];
    CollapseAppend(a, [' ', c], false);
    assert Collapse(str, false) == dashed;
    assert SlugAlphabet(dashed) && NoDoubleDash(dashed);
    assert StripDashes(dashed) == dashed;
    assert dashed[..MaxSlugLength] == a + "-";
    assert SlugAlphabet(a + "-") && NoDoubleDash(a + "-");
    DashEndedIsNotSlug(a + "-");
  }

  lemma SpacedIsNormal(a: string, c: char)
    requires |a| > 0 && IsSlugChar(c)
    requires forall i :: 0 <= i < |a| ==> IsSlugChar(a[i])
    ensures Trim(a + [' ', c]) == a + [' ', c]
    ensures ToLower(a + [' ', c]) == a + [' ', c]
  {
    var str := a + [' ', c];
    TrimOfUnpadded(str);
    assert forall i :: 0 <= i < |str| ==> LowerChar(str[i]) == str[i];
  }

  /** A slug-form string ending with a hyphen is not its own slug. */
  lemma DashEndedIsNotSlug(s: string)
    requires SlugAlphabet(s) && NoDoubleDash(s) && |s| > 0 && s[|s| - 1] == '-'
    ensures Slugify(s) != s
  {
    SlugIsNormal(s);
    if s[0] != '-' {
      CollapseOfSlug(s, false);
      var stripped := StripDashes(Collapse(ToLower(Trim(s)), false));
      assert stripped == StripDashes(s);
      if |stripped| <= MaxSlugLength {
        assert Slugify(s) == stripped;
        assert stripped == [] || stripped[|stripped| - 1] != '-';
      } else {
        assert |Slugify(s)| == MaxSlugLength < |stripped| <= |s|;
      }
    }
  }

  /** Collapsing a slug-form string that ends in a slug character, then
      more text: the first part comes through unchanged. */
  lemma {:induction false} CollapseAppend(a: string, b: string, inRun: bool)
    requires |a| > 0 && IsSlugChar(a[|a| - 1])
    requires SlugAlphabet(a) && NoDoubleDash(a)
    requires inRun ==> a[0] != '-'
    ensures Collapse(a + b, inRun) == a + Collapse(b, false)
    decreases |a|
  {
    assert (a + b)[1..] == a[1..] + b;
    if |a| > 1 {
      SliceOfSlug(a, 1, |a|);
      CollapseAppend(a[1..], b, a[0] == '-');
    }
  }

  /** The `i`-th slug `buildUniqueSlug` tries: `base` itself, then
      `base-1`, `base-2`, ... */
  function Candidate(base: string, i: nat): string {
    if i == 0 then base else base + "-" + NatToString(i)
  }

  /** Distinct attempts give distinct slugs. */
  lemma CandidateInjective(base: string, i: nat, j: nat)
    requires Candidate(base, i) == Candidate(base, j)
    ensures i == j
  {
    if i > 0 && j > 0 {
      var n := |base| + 1;
      assert Candidate(base, i)[n..] == NatToString(i);
      assert Candidate(base, j)[n..] == NatToString(j);
      NatToStringInjective(i, j);
    }
  }

  /** The slugs of the first `n` attempts. */
  function TriedBefore(base: string, n: nat): (r: set<string>)
    ensures forall i :: 0 <= i < n ==> Candidate(base, i) in r
  {
    if n == 0 then {} else TriedBefore(base, n - 1) + {Candidate(base, n - 1)}
  }

  lemma {:induction false} TriedBeforeExcludesLater(base: string, n: nat, m: nat)
    requires m >= n
    ensures Candidate(base, m) !in TriedBefore(base, n)
  {
    if n > 0 {
      TriedBeforeExcludesLater(base, n - 1, m);
      if Candidate(base, m) == Candidate(base, n - 1) {
        CandidateInjective(base, m, n - 1);
      }
    }
  }

  lemma {:induction false} TriedBeforeSize(base: string, n: nat)
    ensures |TriedBefore(base, n)| == n
  {
    if n > 0 {
      TriedBeforeSize(base, n - 1);
      TriedBeforeExcludesLater(base, n - 1, n - 1);
    }
  }

  lemma SubsetSize<T>(a: set<T>, b: set<T>)
    requires a <= b
    ensures |a| <= |b|
  {
    assert b == a + (b - a);
  }

  /** `buildUniqueSlug` over the slugs already stored: the result is not
      among them, and it is `base` when `base` is free, otherwise `base-i`
      for the least `i >= 1` that is free. */
  method BuildUniqueSlug(base: string, existing: set<string>) returns (slug: string)
    ensures slug !in existing
    ensures exists k: nat :: slug == Candidate(base, k)
              && forall j :: 0 <= j < k ==> Candidate(base, j) in existing
    ensures slug == UniqueSlug(base, existing)
  {
    slug := base;
    var i: nat := 1;
    while slug in existing
      invariant slug == Candidate(base, i - 1)
      invariant forall j :: 0 <= j < i - 1 ==> Candidate(base, j) in existing
      invariant TriedBefore(base, i - 1) <= existing
      invariant i - 1 <= |existing|
      decreases |existing| - (i - 1)
    {
      TriedBeforeSize(base, i);
      assert TriedBefore(base, i) <= existing;
      SubsetSize(TriedBefore(base, i), existing);
      slug := base + "-" + NatToString(i);
      i := i + 1;
    }
    LeastFreeUnique(base, existing, slug, UniqueSlug(base, existing));
  }

  /** The same search as a function: the first candidate from the `i`-th
      on that is free, given that the earlier ones are all taken. */
  function SlugSearch(base: string, existing: set<string>, i: nat): (r: string)
    requires TriedBefore(base, i) <= existing
    ensures r !in existing
    ensures exists k: nat :: k >= i && r == Candidate(base, k)
              && forall j :: 0 <= j < k ==> Candidate(base, j) in existing
    decreases |existing| - i
  {
    TriedBeforeSize(base, i);
    SubsetSize(TriedBefore(base, i), existing);
    if Candidate(base, i) !in existing then Candidate(base, i)
    else
      TriedBeforeSize(base, i + 1);
      SubsetSize(TriedBefore(base, i + 1), existing);
      SlugSearch(base, existing, i + 1)
  }

  /** `buildUniqueSlug` as a function, for the handlers. */
  function UniqueSlug(base: string, existing: set<string>): (r: string)
    ensures r !in existing
    ensures exists k: nat :: r == Candidate(base, k)
              && forall j :: 0 <= j < k ==> Candidate(base, j) in existing
  {
    SlugSearch(base, existing, 0)
  }

  /** Two slugs that both are the least free candidate are the same. */
  lemma LeastFreeUnique(base: string, existing: set<string>, a: string, b: string)
    requires a !in existing && b !in existing
    requires exists k: nat :: a == Candidate(base, k)
               && forall j :: 0 <= j < k ==> Candidate(base, j) in existing
    requires exists k: nat :: b == Candidate(base, k)
               && forall j :: 0 <= j < k ==> Candidate(base, j) in existing
    ensures a == b
  {
  }

  /** `Route.findOne({ routeURL: slug })` as the driver receives it:
      `routeURL` is not a path of the route schema and `strictQuery` is
      on, so the condition is dropped and the query matches any stored
      route, whatever the slug. */
  predicate StrictFindsSlug(routeCount: nat, slug: string) {
    routeCount > 0
  }

  /** The `buildUniqueSlug` loop as written, run for at most `fuel`
      iterations from the `i`-th candidate: `None` when it has not
      returned by then. */
  function SlugSearchAsWritten(base: string, routeCount: nat, i: nat, fuel: nat): (r: Option<string>)
    ensures r.Some? ==> r == Some(Candidate(base, i)) && !StrictFindsSlug(routeCount, Candidate(base, i))
    decreases fuel
  {
    if fuel == 0 then None
    else if !StrictFindsSlug(routeCount, Candidate(base, i)) then Some(Candidate(base, i))
    else SlugSearchAsWritten(base, routeCount, i + 1, fuel - 1)
  }

  /** Once one route is stored, the loop as written returns after no
      number of iterations; with none stored it returns `base` at once. */
  lemma {:induction false} SlugSearchAsWrittenNeverEnds(base: string, routeCount: nat, i: nat, fuel: nat)
    ensures SlugSearchAsWritten(base, routeCount, i, fuel).None? <==> routeCount > 0 || fuel == 0
    decreases fuel
  {
    if fuel > 0 && routeCount > 0 {
      SlugSearchAsWrittenNeverEnds(base, routeCount, i + 1, fuel - 1);
    }
  }

  /** The second route: one route `a` is stored and the new route's slug
      `b` is free. The search on the stored slugs returns `b`; the loop as
      written never returns. */
  lemma SecondRouteNeverGetsSlug(fuel: nat)
    ensures UniqueSlug("b", {"a"}) == "b"
    ensures SlugSearchAsWritten("b", 1, 0, fuel) == None
  {
    SlugSearchAsWrittenNeverEnds("b", 1, 0, fuel);
    assert Candidate("b", 0) == "b";
  }
}

=== FILE: text.dfy ===
/** The JavaScript string operations the controllers use: `trim`,
    `toLowerCase`, `toUpperCase`, `includes`, `startsWith`, `split`, `join`
    and number-to-string conversion, restricted to what the model needs. */
module Text {

  /** White space as `String.prototype.trim` sees it (the ASCII part of the
      set plus no-break space and the byte-order mark). */
  predicate IsSpace(c: char) {
    c == ' ' || c == '\t' || c == '\n' || c == '\r' || c == '\U{000B}'
    || c == '\U{000C}' || c == '\U{00A0}' || c == '\U{FEFF}'
  }

  function TrimStart(s: string): (r: string)
    ensures |r| <= |s|
    ensures r == [] || !IsSpace(r[0])
  {
    if |s| > 0 && IsSpace(s[0]) then TrimStart(s[1..]) else s
  }

  function TrimEnd(s: string): (r: string)
    ensures |r| <= |s|
    ensures r == [] || !IsSpace(r[|r| - 1])
  {
    if |s| > 0 && IsSpace(s[|s| - 1]) then TrimEnd(s[..|s| - 1]) else s
  }

  /** `TrimStart` drops a prefix of white space. */
  lemma {:induction false} TrimStartSlice(s: string)
    ensures var r := TrimStart(s);
      && r == s[|s| - |r|..]
      && forall k :: 0 <= k < |s| - |r| ==> IsSpace(s[k])
    decreases |s|
  {
    if |s| > 0 && IsSpace(s[0]) {
      TrimStartSlice(s[1..]);
    }
  }

  /** `TrimEnd` drops a suffix of white space. */
  lemma {:induction false} TrimEndSlice(s: string)
    ensures var r := TrimEnd(s);
      && r == s[..|r|]
      && forall k :: |r| <= k < |s| ==> IsSpace(s[k])
    decreases |s|
  {
    if |s| > 0 && IsSpace(s[|s| - 1]) {
      TrimEndSlice(s[..|s| - 1]);
    }
  }

  /** Number of white-space characters `s` starts with. */
  function LeadingSpaces(s: string): nat {
    |s| - |TrimStart(s)|
  }

  /** `String.prototype.trim`: white space removed at both ends. */
  function Trim(s: string): (r: string)
    ensures |r| <= |s|
    ensures r == [] || (!IsSpace(r[0]) && !IsSpace(r[|r| - 1]))
  {
    var a := TrimStart(s);
    TrimEndSlice(a);
    TrimEnd(a)
  }

  /** What `Trim` removes is white space, at both ends only: the result is
      the slice of `s` between its leading and its trailing white space. */
  lemma TrimRemovesSpaceOnly(s: string)
    ensures var r, i := Trim(s), LeadingSpaces(s);
      && i + |r| <= |s| && r == s[i..i + |r|]
      && (forall k :: 0 <= k < i ==> IsSpace(s[k]))
      && (forall k :: i + |r| <= k < |s| ==> IsSpace(s[k]))
  {
    var a := TrimStart(s);
    TrimStartSlice(s);
    TrimEndSlice(a);
    var r := TrimEnd(a);
    var i := |s| - |a|;
    assert r == s[i..i + |r|];
    forall k | i + |r| <= k < |s| ensures IsSpace(s[k]) {
      assert s[k] == a[k - i];
    }
  }

  /** A string that neither starts nor ends with white space is its own trim. */
  lemma TrimOfUnpadded(s: string)
    requires s == [] || (!IsSpace(s[0]) && !IsSpace(s[|s| - 1]))
    ensures Trim(s) == s
  {
    assert TrimStart(s) == s;
    assert TrimEnd(s) == s;
  }

  /** Trimming a trimmed string changes nothing. */
  lemma TrimIdempotent(s: string)
    ensures Trim(Trim(s)) == Trim(s)
  {
    TrimOfUnpadded(Trim(s));
  }

  predicate IsAsciiUpper(c: char) { 'A' <= c <= 'Z' }
  predicate IsAsciiLower(c: char) { 'a' <= c <= 'z' }

  function LowerChar(c: char): char {
    if IsAsciiUpper(c) then (c as int + 32) as char else c
  }

  function UpperChar(c: char): char {
    if IsAsciiLower(c) then (c as int - 32) as char else c
  }

  /** `toLowerCase`, for the ASCII letters. */
  function ToLower(s: string): (r: string)
    ensures |r| == |s|
    ensures forall i :: 0 <= i < |s| ==> r[i] == LowerChar(s[i])
  {
    seq(|s|, i requires 0 <= i < |s| => LowerChar(s[i]))
  }

  /** `toUpperCase`, for the ASCII letters. */
  function ToUpper(s: string): (r: string)
    ensures |r| == |s|
    ensures forall i :: 0 <= i < |s| ==> r[i] == UpperChar(s[i])
  {
    seq(|s|, i requires 0 <= i < |s| => UpperChar(s[i]))
  }

  /** A lower-cased string has no upper-case ASCII letter left, and
      lower-casing it again changes nothing. */
  lemma ToLowerNormalises(s: string)
    ensures forall i :: 0 <= i < |ToLower(s)| ==> !IsAsciiUpper(ToLower(s)[i])
    ensures ToLower(ToLower(s)) == ToLower(s)
  {
  }

  predicate StartsWith(s: string, prefix: string) {
    |prefix| <= |s| && s[..|prefix|] == prefix
  }

  /** `String.prototype.split(sep)` for a one-character separator: the
      pieces between separators, never containing `sep`; there is always
      one more piece than there are separators. */
  function Split(s: string, sep: char): (r: seq<string>)
    ensures |r| >= 1
    ensures forall i :: 0 <= i < |r| ==> sep !in r[i]
    decreases |s|
  {
    if |s| == 0 then [""]
    else
      var rest := Split(s[1..], sep);
      if s[0] == sep then [""] + rest
      else [[s[0]] + rest[0]] + rest[1..]
  }

  /** `Array.prototype.join(sep)` for a sequence of strings. */
  function Join(parts: seq<string>, sep: string): string {
    if |parts| == 0 then ""
    else if |parts| == 1 then parts[0]
    else parts[0] + sep + Join(parts[1..], sep)
  }

  /** Splitting on a character and joining the pieces back with it gives
      the original string. */
  lemma {:induction false} JoinSplit(s: string, sep: char)
    ensures Join(Split(s, sep), [sep]) == s
    decreases |s|
  {
    if |s| > 0 {
      var rest := Split(s[1..], sep);
      JoinSplit(s[1..], sep);
      if s[0] == sep {
        assert s == [sep] + s[1..];
      } else {
        var pieces := [[s[0]] + rest[0]] + rest[1..];
        if |rest| == 1 {
          assert s == [s[0]] + s[1..];
        } else {
          assert Join(rest, [sep]) == rest[0] + [sep] + Join(rest[1..], [sep]);
          assert pieces[1..] == rest[1..];
          assert s == [s[0]] + s[1..];
        }
      }
    }
  }

  /** A string without the separator splits into itself alone. */
  lemma {:induction false} SplitWithoutSeparator(s: string, sep: char)
    requires sep !in s
    ensures Split(s, sep) == [s]
    decreases |s|
  {
    if |s| > 0 {
      SplitWithoutSeparator(s[1..], sep);
      assert s == [s[0]] + s[1..];
    }
  }

  /** A piece free of the separator, the separator and a rest split into
      that piece followed by the pieces of the rest. */
  lemma {:induction false} SplitAfterPiece(a: string, b: string, sep: char)
    requires sep !in a
    ensures Split(a + [sep] + b, sep) == [a] + Split(b, sep)
    decreases |a|
  {
    var s := a + [sep] + b;
    if |a| == 0 {
      assert s[1..] == b;
    } else {
      assert s[1..] == a[1..] + [sep] + b;
      SplitAfterPiece(a[1..], b, sep);
      assert a == [a[0]] + a[1..];
    }
  }

  /** Joining pieces free of the separator and splitting the result gives
      the pieces back. */
  lemma {:induction false} SplitJoin(parts: seq<string>, sep: char)
    requires |parts| > 0
    requires forall k :: 0 <= k < |parts| ==> sep !in parts[k]
    ensures Split(Join(parts, [sep]), sep) == parts
    decreases |parts|
  {
    if |parts| == 1 {
      SplitWithoutSeparator(parts[0], sep);
    } else {
      SplitJoin(parts[1..], sep);
      SplitAfterPiece(parts[0], Join(parts[1..], [sep]), sep);
      assert parts == [parts[0]] + parts[1..];
    }
  }

  /** The pieces of a join with ", " as they read after a split on ",":
      every piece but the first keeps the space. */
  function Spaced(parts: seq<string>): (r: seq<string>)
    ensures |r| == |parts|
    ensures forall i :: 0 <= i < |parts| ==> r[i] == (if i == 0 then parts[0] else " " + parts[i])
  {
    seq(|parts|, i requires 0 <= i < |parts| => if i == 0 then parts[0] else " " + parts[i])
  }

  lemma JoinLeadingSpace(x: string, rest: seq<string>, sep: string)
    ensures Join([" " + x] + rest, sep) == " " + Join([x] + rest, sep)
  {
    if |rest| > 0 {
      assert ([" " + x] + rest)[1..] == rest;
      assert ([x] + rest)[1..] == rest;
    }
  }

  /** Joining with ", " is joining the spaced pieces with ",". */
  lemma {:induction false} JoinCommaSpace(parts: seq<string>)
    requires |parts| > 0
    ensures Join(parts, ", ") == Join(Spaced(parts), ",")
    decreases |parts|
  {
    if |parts| > 1 {
      var tail := parts[1..];
      JoinCommaSpace(tail);
      var st := Spaced(tail);
      assert Spaced(parts) == [parts[0]] + ([" " + tail[0]] + st[1..]);
      assert st == [tail[0]] + st[1..];
      JoinLeadingSpace(tail[0], st[1..], ",");
      assert Join(Spaced(parts), ",") == parts[0] + "," + (" " + Join(st, ","));
      assert ", " == "," + " ";
    }
  }

  function DigitChar(d: nat): char
    requires d < 10
  {
    "0123456789"[d]
  }

  /** Decimal rendering of a natural number, as template literals and
      `Array.prototype.join` produce it. */
  function NatToString(n: nat): (r: string)
    ensures |r| >= 1
    ensures forall i :: 0 <= i < |r| ==> '0' <= r[i] <= '9'
    ensures (|r| == 1) == (n < 10)
  {
    if n < 10 then [DigitChar(n)] else NatToString(n / 10) + [DigitChar(n % 10)]
  }

  /** Distinct numbers are rendered as distinct strings. */
  lemma {:induction false} NatToStringInjective(m: nat, n: nat)
    requires NatToString(m) == NatToString(n)
    ensures m == n
    decreases n
  {
    var a, b := NatToString(m), NatToString(n);
    if n >= 10 && m >= 10 {
      assert a[|a| - 1] == b[|b| - 1];
      assert DigitChar(m % 10) == DigitChar(n % 10);
      assert a[..|a| - 1] == NatToString(m / 10);
      assert b[..|b| - 1] == NatToString(n / 10);
      NatToStringInjective(m / 10, n / 10);
    } else if n < 10 && m < 10 {
      assert DigitChar(m) == DigitChar(n);
    }
  }

  /** `String(i)` for an integer. */
  function IntToString(i: int): (r: string)
    ensures |r| >= 1
    ensures (r[0] == '-') == (i < 0)
  {
    if i < 0 then "-" + NatToString(-i) else NatToString(i)
  }

  /** `numbers.join(sep)`: each number rendered in decimal, separated by `sep`. */
  function JoinNumbers(xs: seq<int>, sep: string): string {
    Join(seq(|xs|, i requires 0 <= i < |xs| => IntToString(xs[i])), sep)
  }
}

=== FILE: tokens.dfy ===
/** JSON web tokens as the server issues and checks them, and the
    in-process set of refresh tokens that are still honoured. Signing and
    verification are idealised: a token is either exactly what `Sign`
    produced with some secret, or something no secret verifies. */
module Tokens {
  import opened Wrappers
  import opened Keyed

  /** The payload `jwt.sign({ id }, ...)` produces: the user id and the
      issued-at and expiry times, in seconds. */
  datatype Claims = Claims(id: Id, iat: int, exp: int)

  /** A token string as a client presents it. */
  datatype Token =
    | Signed(claims: Claims, secret: string)
    | Garbage(raw: string)

  /** `expiresIn: "1h"` of access tokens, in seconds. */
  const AccessTtl: nat := 3600

  /** `expiresIn: "7d"` of refresh tokens, in seconds. */
  const RefreshTtl: nat := 7 * 24 * 3600

  /** `jwt.sign` at time `now`: the claims carry `id` and expire `ttl`
      seconds later. Two tokens signed for the same id in the same second
      with the same secret are the same string. */
  function Sign(id: Id, secret: string, now: int, ttl: nat): Token {
    Signed(Claims(id, now, now + ttl), secret)
  }

  /** `verifyToken`: the decoded claims, or `None` (JavaScript `null`) on
      any failure, never an exception. A token verifies when it was signed
      with this secret and the current second is before its expiry. */
  function VerifyToken(t: Token, secret: string, now: int): (r: Option<Claims>)
    ensures r.Some? ==> t.Signed? && r.value == t.claims
    ensures r.Some? ==> t.secret == secret && now < r.value.exp
    ensures r.None? ==> t.Garbage? || t.secret != secret || now >= t.claims.exp
  {
    match t
    case Signed(c, s) => if s == secret && now < c.exp then Some(c) else None
    case Garbage(_) => None
  }

  /** A freshly signed token verifies, with the id it was signed for, for
      exactly `ttl` seconds after it was issued (and before), and only with
      the secret that signed it. */
  lemma SignVerifies(id: Id, secret: string, now: int, ttl: nat, secret2: string, at: int)
    ensures VerifyToken(Sign(id, secret, now, ttl), secret2, at).Some?
            <==> secret2 == secret && at < now + ttl
    ensures VerifyToken(Sign(id, secret, now, ttl), secret2, at).Some?
            ==> VerifyToken(Sign(id, secret, now, ttl), secret2, at).value.id == id
  {
  }

  /** The module-level `refreshTokens` set. */
  type RefreshSet = set<Token>

  /** `generateRefreshToken`: a seven-day token for `id`, added to the set
      and returned. */
  function GenerateRefreshToken(rs: RefreshSet, id: Id, secret: string, now: int): (r: (RefreshSet, Token))
    ensures r.1 in r.0 && rs <= r.0 && r.0 - rs <= {r.1}
    ensures VerifyToken(r.1, secret, now) == Some(Claims(id, now, now + RefreshTtl))
  {
    var t := Sign(id, secret, now, RefreshTtl);
    (rs + {t}, t)
  }

  /** `verifyRefreshToken`: `None` for any token not in the set, otherwise
      what `verifyToken` says. */
  function VerifyRefreshToken(rs: RefreshSet, t: Token, secret: string, now: int): (r: Option<Claims>)
    ensures t !in rs ==> r.None?
    ensures t in rs ==> r == VerifyToken(t, secret, now)
  {
    if t !in rs then None else VerifyToken(t, secret, now)
  }

  /** `revokeRefreshToken`: the set without `t`; every other token stays. */
  function RevokeRefreshToken(rs: RefreshSet, t: Token): (r: RefreshSet)
    ensures t !in r
    ensures forall u :: u in r <==> u in rs && u != t
  {
    rs - {t}
  }

  /** A revoked token is refused whatever the clock says. */
  lemma RevokedIsRefused(rs: RefreshSet, t: Token, secret: string, now: int)
    ensures VerifyRefreshToken(RevokeRefreshToken(rs, t), t, secret, now).None?
  {
  }

  /** Revoking a token that is not in the set changes nothing. */
  lemma RevokeAbsentIsNoop(rs: RefreshSet, t: Token)
    requires t !in rs
    ensures RevokeRefreshToken(rs, t) == rs
  {
  }

  /** A generated token is honoured until it expires. */
  lemma GeneratedIsHonoured(rs: RefreshSet, id: Id, secret: string, now: int, at: int)
    requires now <= at < now + RefreshTtl
    ensures VerifyRefreshToken(GenerateRefreshToken(rs, id, secret, now).0,
                               GenerateRefreshToken(rs, id, secret, now).1, secret, at)
            == Some(Claims(id, now, now + RefreshTtl))
  {
  }

  /** Two logins of the same user in the same second receive the same
      refresh token, so the second adds nothing to the set, and logging out
      of either session revokes the other one too. */
  lemma SameSecondLoginsShareToken(rs: RefreshSet, id: Id, secret: string, now: int, at: int)
    ensures var (rs1, t1) := GenerateRefreshToken(rs, id, secret, now);
            var (rs2, t2) := GenerateRefreshToken(rs1, id, secret, now);
            && t2 == t1 && rs2 == rs1
            && VerifyRefreshToken(RevokeRefreshToken(rs2, t1), t2, secret, at).None?
  {
  }
}

/** The `authenticated` and `authorization` middlewares: who the request
    is, and whether that request's role may reach a handler. */
module Guard {
  import opened Wrappers
  import opened Keyed
  import opened Records
  import opened Tokens

  /** The argument of `authorization(roles)`: one role name or a list. */
  datatype RoleSpec = One(role: string) | Many(roles: seq<string>)

  /** `authorization()` with no argument: the default empty list. */
  const DefaultSpec := Many([])

  /** The list the guard checks: a single role becomes a one-element list. */
  function Roles(spec: RoleSpec): (r: seq<string>)
    ensures spec.One? ==> r == [spec.role]
    ensures spec.Many? ==> r == spec.roles
  {
    match spec
    case One(role) => [role]
    case Many(roles) => roles
  }

  /** What a middleware does with a request: pass it on to the next
      handler, or answer it itself. */
  datatype Verdict = Next | Deny(status: nat, message: string)

  /** `authorization(spec)` given `req.user?.role` (`None` when there is no
      user or no role; the empty string is falsy as well). */
  function Authorize(spec: RoleSpec, role: Option<string>): (v: Verdict)
    ensures v == Deny(401, "Unauthorized") <==> !Truthy(role)
    ensures v == Deny(403, "Forbidden") <==> Truthy(role) && role.value !in Roles(spec)
    ensures v.Next? <==> Truthy(role) && role.value in Roles(spec)
  {
    if !Truthy(role) then Deny(401, "Unauthorized")
    else if role.value !in Roles(spec) then Deny(403, "Forbidden")
    else Next
  }

  /** `authorization("r")` and `authorization(["r"])` decide alike. */
  lemma SingleRoleIsList(r: string, role: Option<string>)
    ensures Authorize(One(r), role) == Authorize(Many([r]), role)
  {
  }

  /** With the default empty list, every request that has a role is
      forbidden, and every other one unauthorised. */
  lemma DefaultForbidsAll(role: Option<string>)
    ensures Authorize(DefaultSpec, role).Deny?
    ensures Truthy(role) ==> Authorize(DefaultSpec, role).status == 403
  {
  }

  /** `req.user` as the handlers see it: an id and perhaps a role. */
  datatype Principal = Principal(id: Id, role: Option<string>)

  /** What `authenticated` leaves: the request's user, or the reply. */
  datatype Identity = Known(user: Principal) | Refused(status: nat, message: string)

  /** `authenticated` given the `access_token` cookie: 401 without one,
      401 when it does not verify, otherwise `req.user` becomes the decoded
      payload, which carries the id and no role. */
  function Authenticate(cookie: Option<Token>, secret: string, now: int): (r: Identity)
    ensures r.Known? <==> cookie.Some? && VerifyToken(cookie.value, secret, now).Some?
    ensures r.Known? ==> r.user == Principal(cookie.value.claims.id, None)
    ensures r.Refused? ==> r.status == 401
  {
    match cookie
    case None => Refused(401, "Unauthorized")
    case Some(t) =>
      match VerifyToken(t, secret, now)
      case None => Refused(401, "Invalid token")
      case Some(c) => Known(Principal(c.id, None))
  }

  /** `authenticated` followed by `authorization(spec)`, as the routers
      chain them. */
  function Guarded(spec: RoleSpec, cookie: Option<Token>, secret: string, now: int): Verdict {
    match Authenticate(cookie, secret, now)
    case Refused(status, message) => Deny(status, message)
    case Known(user) => Authorize(spec, user.role)
  }

  /** As chained, no request ever passes a role guard: the decoded token
      has no role, so every route behind `authorization("admin")` (listing,
      reading and deleting users, listing bookings and marking them paid,
      and every write to buses and routes) answers 401 to everyone,
      administrators included. */
  lemma GuardedRoutesRefuseEveryone(spec: RoleSpec, cookie: Option<Token>, secret: string, now: int)
    ensures Guarded(spec, cookie, secret, now).Deny?
    ensures Guarded(spec, cookie, secret, now).status == 401
  {
  }

  /** Concretely: an administrator holding a valid access token is turned
      away from `authorization("admin")`. */
  lemma AdminIsRefused(st: Store, k: nat, secret: string, now: int)
    requires k < |st.users| && st.users[k].role == Admin
    ensures var cookie := Some(Sign(st.users[k].id, secret, now, AccessTtl));
            Authenticate(cookie, secret, now).Known?
            && Guarded(One("admin"), cookie, secret, now) == Deny(401, "Unauthorized")
  {
  }

  /** The role stored for user `id`, the way the booking controller reads
      it before cancelling (`User.findById(req.user.id).select("role")`). */
  function StoredRole(st: Store, id: Id): (r: Option<string>)
    ensures r.Some? <==> FindById(st.users, UserId, id).Some?
    ensures r.Some? ==> r.value == RoleName(st.users[FindById(st.users, UserId, id).value].role)
  {
    match FindById(st.users, UserId, id)
    case Some(k) => Some(RoleName(st.users[k].role))
    case None => None
  }

  /** The guard with the role taken from the stored user rather than from
      the token, which is what the role guard is evidently meant to see. */
  function GuardedByStoredRole(st: Store, spec: RoleSpec, cookie: Option<Token>, secret: string, now: int): Verdict {
    match Authenticate(cookie, secret, now)
    case Refused(status, message) => Deny(status, message)
    case Known(user) => Authorize(spec, StoredRole(st, user.id))
  }

  /** With the stored role, a request with a valid token reaches an
      `authorization(spec)` route exactly when its stored user's role is
      listed; an unlisted role gets 403, and 401 is left for requests with
      no valid token or no stored user. */
  lemma StoredRoleGuardAdmitsListed(st: Store, spec: RoleSpec, cookie: Option<Token>, secret: string, now: int)
    requires Authenticate(cookie, secret, now).Known?
    requires FindById(st.users, UserId, cookie.value.claims.id).Some?
    ensures var u := st.users[FindById(st.users, UserId, cookie.value.claims.id).value];
            && (GuardedByStoredRole(st, spec, cookie, secret, now).Next? <==> RoleName(u.role) in Roles(spec))
            && (GuardedByStoredRole(st, spec, cookie, secret, now).Deny?
                ==> GuardedByStoredRole(st, spec, cookie, secret, now).status == 403)
  {
  }

  /** In particular a stored administrator with a valid token reaches
      `authorization("admin")`, and a plain user is forbidden. */
  lemma StoredAdminIsAdmitted(st: Store, k: nat, secret: string, now: int)
    requires k < |st.users| && UniqueKeys(st.users, UserId)
    ensures var cookie := Some(Sign(st.users[k].id, secret, now, AccessTtl));
            GuardedByStoredRole(st, One("admin"), cookie, secret, now)
            == (if st.users[k].role == Admin then Next else Deny(403, "Forbidden"))
  {
    var id := st.users[k].id;
    var j := FindById(st.users, UserId, id);
    assert j.Some?;
    assert j.value == k;
  }
}

=== FILE: upload.dfy ===
/** The upload middleware's admission rules: the MIME-type filter and the
    file-size limit. Storage of the accepted file is not modelled. */
module Upload {
  import opened Text

  /** `limits.fileSize`: 5 MiB. */
  const MaxFileSize: nat := 5 * 1024 * 1024

  /** The MIME types the filter admits. */
  const ImageTypes: set<string> := {"image/png", "image/jpg", "image/jpeg", "image/webp"}

  const Prefix := "image/"

  /** The subtype alternatives of `(png|jpe?g|webp)`, with `e?` optional. */
  predicate SubtypeMatches(t: string) {
    || t == "png"
    || t == "webp"
    || (&& (|t| == 3 || |t| == 4)
        && t[0] == 'j' && t[1] == 'p' && t[|t| - 1] == 'g'
        && (|t| == 3 || t[2] == 'e'))
  }

  /** `/^image\/(png|jpe?g|webp)$/.test(mimetype)`: the prefix, then one
      alternative, and nothing after it (the pattern is anchored at both
      ends and has no `i` flag). */
  predicate FileFilter(mimetype: string) {
    && StartsWith(mimetype, Prefix)
    && SubtypeMatches(mimetype[|Prefix|..])
  }

  /** The pattern admits exactly the four image types. */
  lemma FilterAcceptsExactlyImages(m: string)
    ensures FileFilter(m) <==> m in ImageTypes
  {
    if FileFilter(m) {
      var t := m[|Prefix|..];
      assert m == Prefix + t;
      if t == "png" {
        assert m == "image/png";
      } else if t == "webp" {
        assert m == "image/webp";
      } else if |t| == 3 {
        assert t == "jpg";
        assert m == "image/jpg";
      } else {
        assert t == "jpeg";
        assert m == "image/jpeg";
      }
    }
    if m in ImageTypes {
      assert |Prefix| == 6;
      assert m[..|Prefix|] == Prefix;
      assert StartsWith(m, Prefix);
      if m == "image/png" {
        assert m[6..] == "png";
        assert SubtypeMatches("png");
      } else if m == "image/jpg" {
        assert m[6..] == "jpg";
        assert SubtypeMatches("jpg");
      } else if m == "image/jpeg" {
        assert m[6..] == "jpeg";
        assert SubtypeMatches("jpeg");
      } else {
        assert m[6..] == "webp";
        assert SubtypeMatches("webp");
      }
    }
  }

  /** No admitted type begins or ends with a shorter admitted type. */
  lemma TypesNotNested(m: string, w: string)
    requires m in ImageTypes && w in ImageTypes && |m| < |w|
    ensures w[..|m|] != m && w[|w| - |m|..] != m
  {
    assert |m| == 9 && |w| == 10;
    if w == "image/jpeg" {
      assert w[..9] == "image/jpe";
      assert w[1..] == "mage/jpeg";
    } else {
      assert w[..9] == "image/web";
      assert w[1..] == "mage/webp";
    }
  }

  /** Anything after an admitted type is refused: the pattern is anchored
      at the end (so "image/pngx" is refused). */
  lemma SuffixRefused(m: string, suffix: string)
    requires FileFilter(m) && |suffix| > 0
    ensures !FileFilter(m + suffix)
  {
    var w := m + suffix;
    FilterAcceptsExactlyImages(m);
    FilterAcceptsExactlyImages(w);
    assert w[..|m|] == m;
    if w in ImageTypes {
      TypesNotNested(m, w);
    }
  }

  /** Anything before an admitted type is refused: the pattern is anchored
      at the start. */
  lemma PrefixRefused(m: string, before: string)
    requires FileFilter(m) && |before| > 0
    ensures !FileFilter(before + m)
  {
    var w := before + m;
    FilterAcceptsExactlyImages(m);
    FilterAcceptsExactlyImages(w);
    assert w[|w| - |m|..] == m;
    if w in ImageTypes {
      TypesNotNested(m, w);
    }
  }

  /** The match is case-sensitive: an upper-case letter in the type part
      ("IMAGE/PNG", "image/PNG") is refused. */
  lemma UpperCaseRefused(m: string, i: nat)
    requires i < |m| && IsAsciiUpper(m[i])
    ensures !FileFilter(m)
  {
    FilterAcceptsExactlyImages(m);
  }

  /** Why the middleware rejects a file. */
  datatype Admission = Admitted | InvalidFileType | FileTooLarge

  /** The filter runs first; a file that passes it is then refused once
      it is longer than the limit (a file of exactly the limit passes). */
  function Admit(mimetype: string, size: nat): (r: Admission)
    ensures r == Admitted <==> mimetype in ImageTypes && size <= MaxFileSize
    ensures r == InvalidFileType <==> mimetype !in ImageTypes
  {
    FilterAcceptsExactlyImages(mimetype);
    if !FileFilter(mimetype) then InvalidFileType
    else if size > MaxFileSize then FileTooLarge
    else Admitted
  }
}

=== FILE: wrappers.dfy ===
/** Failure-compatible wrappers shared by the whole model. */
module Wrappers {

  /** `None` stands for JavaScript's `null` / `undefined` / a falsy value,
      depending on where it is used (each use says which). */
  datatype Option<+T> = None | Some(value: T) {

    /** The value, or `default` when there is none (the `x || default` idiom). */
    function GetOr(default: T): T {
      match this
      case Some(v) => v
      case None => default
    }
  }
}
